=== FILE: README.md ===
# rustpilled-bot core, modelled in Dafny

This project models the logic of a Twitch chat bot written in Rust. Modules
follow the source files:

- **Text**: the string operations the bot relies on. This covers `str::split` on a
  separator, `join`, `parse::<uN>`/`parse::<i32>`, `split_ascii_whitespace`
  and `str::replace`.
- **Utils**: `format_timestamp` and `split_and_wrap_lines`, which turn a mention
  list into lines under a length budget.
- **Models**, **Commands**, **Stats**: the records and enums the core shares. These are
  event types and flags, levels of rights, command arguments, responses, and
  the statistics service's answers.
- **Localization** and **LegacyLocalization**: line ids and their keys, the
  `{…}` placeholder scanner, placeholder substitution, the missing-line
  fallback, and the older crate's positional `{}` localizer.
- **Requests**: turning a chat message into a command request. This covers the
  prefix, the command name, the subcommand and the message. It also covers the
  level of rights from badges and the stored rights row.
- **Handlers**: stream-event announcements and timer firing. An announcement
  goes to subscribers, or to chatters for massping events. It is wrapped into
  lines and decorated with ⚡ and ·.
- One module per chat command:
  - `!event` (EventCommand), sharing EventTargets with `!notify`
  - `!notify` (NotifyCommand)
  - `!timer` (TimerCommand)
  - `!cmd` (CustomCommandCommand)
  - `!massping` (Massping)
  - `!etop` (EmoteTopCommand)
  - `!ecount` (EmoteCountCommand)
  - `!holiday` (HolidayCommand)
  - `!userid` (UserIdCommand)
  - `!spam` (SpamCommand)
- **SevenTv**: the 7TV EventAPI client. This covers the channel registry, draining of
  awaiting channels, hello/resume, reconnect and close, and emote-set dispatches.
- **EventSub**: the Twitch EventSub websocket client. This covers welcome/reconnect,
  draining awaiting channels and notifications.
- **Polling**: the polling helper that raises live, offline and title-change
  events.

Each command returns what it would send or store as data, not as effects.
The core commands' database writes become `Effect` values. Chat messages become `Send`/`Action`
values. A panic that the model covers (an `unwrap` on `None` or on a failed
parse) becomes a `Panicked` outcome, or `None` where a command's outcome type has
no such case (EventCommand.Execute, NotifyCommand.Execute,
SevenTv.HandleDispatch). The panics not covered are named under "## Left out".
Everything the code reads from outside is a parameter:

- the database rows;
- Helix, 7TV, IVR and statistics responses, with `None` for a failed call;
- the clock;
- the random pick;
- environment variables;
- the iteration order of a `HashSet`.

Strings are `seq<char>` with one element per UTF-8 byte. The bot's
decorations are written as their byte sequences:

- ⚡ is `\U{E2}\U{9A}\U{A1}`
- · is `\U{C2}\U{B7}`
- the missing-line notice starts with the eight bytes `C3 B0 C5 B8 C5 A1 C2 A8`
  that the source file holds there ("ðŸš¨": the UTF-8 bytes of 🚨 read as
  Windows-1252 and encoded again), not with 🚨 itself

Rust's `len()` counts bytes, so lengths agree with the source.

Behaviour of the source worth noting:

- A failed chatters call during a massping stream event sends nothing. It does
  not fall back to the explicit subscribers (`bot/src/handlers.rs:241-246`).
- `split_and_wrap_lines` on an empty input returns one empty line, not an
  empty list (`src/utils/mod.rs:43`, `Utils.EmptyInput`).
- The 7TV client keeps its session id when the socket closes
  (`bot/src/seventv/mod.rs:142-177`).

## Model

| member | source | states |
|---|---|---|
| Text.Split | src/utils/mod.rs:28 | splitting on a non-empty separator yields at least one piece, and joining the pieces with the separator restores the input |
| Text.SplitJoin | src/utils/mod.rs:28-43 | splitting a join gives back the parts when no part contains the separator and its first character does not recur in it (true of ", " and "{}") |
| Text.SplitNoOccurrence | bot/src/modules/custom_command.rs:95 | a string without the separator splits into itself alone |
| Text.SplitAtChar | bot/src/modules/event.rs:70-78 | splitting on one character: the first piece is the text before the first occurrence, the rest rejoined is the text after it, and there are two or more pieces iff the character occurs |
| Text.SplitPiecesFree | bot/src/modules/userid.rs:30 | no piece of a split contains the separator |
| Text.ReplaceAllSelf | bot/src/localization.rs:380 | replacing a pattern by itself leaves the line unchanged |
| Text.ReplaceAllAbsent | bot/src/localization.rs:380 | replacing a pattern that does not occur leaves the line unchanged |
| Text.ParseUnsigned | bot/src/localization.rs:407 | an accepted unsigned number is below the type's limit and starts with a digit or '+' |
| Text.ParseI32 | src/modules/spam.rs:26 | an accepted i32 lies in [-2^31, 2^31) |
| Text.NatToString | src/utils/mod.rs:13 | decimal rendering is non-empty, all digits, with no leading zero |
| Text.NatToStringValue | src/utils/mod.rs:13 | the rendered digits denote the number |
| Text.ParseNatToString | bot/src/localization.rs:407 | parsing a rendered number below the limit gives the number back |
| Text.NatToStringInjective | bot/src/localization.rs:434 | distinct numbers render differently |
| Text.Words | bot/src/modules/etop.rs:40 | whitespace splitting yields non-empty words free of ASCII whitespace |
| Text.WordsOfPair | bot/src/modules/etop.rs:40-65 | two words joined by a space split back into the two words |
| Utils.Components | src/utils/mod.rs:6-10 | days, hours, minutes and seconds are in range (hours < 24, minutes and seconds < 60) and recompose into the timestamp |
| Utils.FormatTimestampRanges | src/utils/mod.rs:12-20 | under a minute gives "Ns"; under an hour "NmNs"; under a day "NhNm"; otherwise "NdNh", each with the components of the timestamp |
| Utils.WrapTokens | src/utils/mod.rs:32-43 | the groups flatten back to the tokens in order; a token starts a new group exactly when the current buffer joined, plus the token and the separator, reaches the maximum |
| Utils.WrapGroupsShape | src/utils/mod.rs:32-41 | the wrapping loop keeps the flush/stay shape and appends every token exactly once |
| Utils.SplitAndWrapLines | src/utils/mod.rs:23-46 | there is at least one line; line i is the i-th group joined with the separator; the groups flatten to the split input |
| Utils.MultiTokenLineUnderBudget | src/utils/mod.rs:35 | a line holding two or more pieces is shorter than the maximum |
| Utils.LineLengths | src/utils/mod.rs:35-43 | every line after the first holds at least one piece, and a one-piece line is that piece |
| Utils.OversizedTokenAlone | src/utils/mod.rs:35 | a piece that with the separator reaches the maximum is alone on its line |
| Utils.EmptyLineIsFirstOrEmptyPiece | src/utils/mod.rs:36-43 | an empty output line is either the flushed empty first buffer or an empty piece |
| Utils.FirstGroupEmptyIff | src/utils/mod.rs:33-36 | the first line is empty-flushed iff the first piece plus the separator reaches the maximum |
| Utils.EmptyInput | src/utils/mod.rs:28-43 | an empty input gives [""] when the separator is shorter than the maximum and ["", ""] otherwise |
| Utils.FlattenMember | src/utils/mod.rs:32-43 | a piece is in the wrapped output iff some line's group holds it |
| Utils.FlattenDistinct | src/utils/mod.rs:32-43 | with distinct pieces, no piece lands on two lines |
| Models.EventTypeFromStr | common/src/models.rs:148-159 | each of "live", "offline", "title" and "category" maps to its variant, in both directions; every other string is Custom |
| Models.EventTypeRoundTrip | common/src/models.rs:148-173 | parsing an event type's string gives the event type back |
| Models.EventTypeToStringInjective | common/src/models.rs:161-173 | distinct event types have distinct strings |
| Models.EventFlagFromStr | common/src/models.rs:181-190 | a flag parses iff the string is "massping" |
| Models.LevelOrder | common/src/models.rs:230-239 | the derived order is Suspended < Subscriber < User < Vip < Moderator < Broadcaster, strict and total |
| Commands.ArgumentLineId | bot/src/commands/mod.rs:105-115 | every command argument maps to a line id that has a localization key |
| Commands.ArgumentLineIdInjective | bot/src/commands/mod.rs:105-115 | distinct arguments map to distinct line ids |
| Localization.LineIdFromString | bot/src/localization.rs:120-214 | a recognised key maps to a line id whose key is that string |
| Localization.LineIdFromStringInjective | bot/src/localization.rs:120-214 | two keys that map to the same line id are the same key |
| Localization.TimerAlreadyExistsNeverLoaded | bot/src/localization.rs:120-214 | no key maps to the timer-already-exists line, so it is never loaded |
| Localization.GetLiteralText | bot/src/localization.rs:246-254 | a line is found iff the locale exists and holds the id, and it is that line |
| Localization.PlaceholderFromString | bot/src/localization.rs:406-421 | a u8 number parses as that argument index, and an argument placeholder only comes from such a number |
| Localization.PlaceholderRoundTrip | bot/src/localization.rs:406-436 | parsing the displayed name of any placeholder gives the placeholder back |
| Localization.ParseMatchesSegments | bot/src/localization.rs:311-338 | the character scanner yields, in order, the placeholder named by the text between the last '{' and each '}', for every '}' whose name parses |
| Localization.AtMostOnePerClose | bot/src/localization.rs:317-335 | the scanner yields at most one placeholder per '}' |
| Localization.NestedOpenSpoilsName | bot/src/localization.rs:317-335 | "{a{0}" yields no placeholder, because the buffer keeps "a" across the second '{' |
| Localization.ScanNoOpen | bot/src/localization.rs:317-335 | a line without '{' has no placeholders |
| Localization.Replacement | bot/src/localization.rs:350-378 | an argument is replaced by its parameter if present, otherwise by its own pattern; without a request, named placeholders are replaced by their own pattern |
| Localization.ReplaceWithoutValues | bot/src/localization.rs:340-384 | with no parameters and no request, substitution leaves the line unchanged |
| Localization.GetFormattedText | bot/src/localization.rs:256-266 | always a line; with no parameters a present line comes back unchanged, since every placeholder is replaced by its own pattern |
| Localization.FormattedTextByRequest | bot/src/localization.rs:268-309 | a line missing from the channel's preferred language gives the 🚨 fallback naming the line id and that language |
| Localization.PlainLineVerbatim | bot/src/localization.rs:295-302 | a present line without '{' is returned verbatim whatever the parameters and the request |
| LegacyLocalization.LineIdFromString | src/localization.rs:14-23 | a key maps to a line id iff it is one of the five keys |
| LegacyLocalization.LineIdKeyRoundTrip | src/localization.rs:14-23 | each key and its line id correspond both ways |
| LegacyLocalization.GetFormattedText | src/localization.rs:65-88 | the result is None iff the line is missing |
| LegacyLocalization.ExtraParametersDropped | src/localization.rs:78-80 | parameters beyond the number of `{}` slots are ignored |
| LegacyLocalization.ParameterAfterLastPiece | src/localization.rs:75-82 | with as many parameters as pieces, one parameter is also appended after the last piece |
| LegacyLocalization.NoParametersRemovesSlots | src/localization.rs:73-83 | with no parameters every `{}` is removed |
| LegacyLocalization.SlotsInOrder | src/localization.rs:71-88 | filling each slot with "{}" restores the line, so the slots are filled in order |
| LegacyLocalization.PlainLineUnchanged | src/localization.rs:71-88 | a line without `{}` is returned unchanged when no parameters are given |
| Requests.LevelAsWritten | bot/src/commands/request.rs:99-111 | as written: Broadcaster iff sender is the channel, Moderator iff otherwise a moderator badge is present |
| Requests.LevelAsWrittenUnreachable | bot/src/commands/request.rs:99-111 | as written, the level is always Broadcaster, Moderator or User |
| Requests.VipBadgeIgnored | bot/src/commands/request.rs:103-105 | a VIP badge alone gives User as written, but Vip in the corrected reading |
| Requests.LevelFromBadges | bot/src/commands/request.rs:99-111 | each level holds iff its badge is the first to match in the order broadcaster, moderator, vip, subscriber; the result is never Suspended |
| Requests.AsWrittenCollapsesVipAndSubscriber | bot/src/commands/request.rs:99-111 | the code as written agrees with the intended level except that Vip and Subscriber become User |
| Requests.SettleRights | bot/src/commands/request.rs:113-134 | a suspended row is kept; otherwise the level becomes the computed one, with an insert when no row exists and an update only when it changes |
| Requests.SettleIdempotent | bot/src/commands/request.rs:113-134 | settling again with the same computed level writes nothing |
| Requests.FindCommand | bot/src/commands/request.rs:148-168 | the command found has the name, and none is found iff no command has it |
| Requests.Remainder | bot/src/commands/request.rs:192-196 | the message is absent iff no words remain |
| Requests.ParseRequestSpec | bot/src/commands/request.rs:136-201 | no request without the prefix; otherwise the request exists iff the first word names a command whose required rights the level meets, and the subcommand is the next word only if the command declares it |
| Requests.RequestRoundTrip | bot/src/commands/request.rs:136-201 | the prefix, the command, the subcommand and the message rejoined with spaces rebuild the text |
| Requests.SuspendedOnlyBasic | bot/src/commands/request.rs:127-172 | a suspended sender only gets requests for commands that require Suspended |
| Requests.RequestAtLevel | bot/src/commands/request.rs:113-201 | the request carries the computed level settled against the stored row (a Suspended row stays Suspended), and exists iff the text parses at the settled level; the rights writes are made for every message: an insert of the computed level without a row, an update when a non-Suspended stored level differs, nothing otherwise |
| Requests.TryFrom | bot/src/commands/request.rs:99-201 | as written: the level computed by the shared badge iterator is settled and checked, with the same rights writes; without a Suspended row the request's level is Broadcaster, Moderator or User, never Vip or Subscriber |
| Requests.TryFromIntended | bot/src/commands/request.rs:99-201 | corrected: the first matching badge's level is settled, written and checked instead |
| Requests.TryFromAgreesWithIntended | bot/src/commands/request.rs:99-111 | the written and corrected requests and writes are equal when the sender's stored row is Suspended or the intended level is not Vip or Subscriber |
| Requests.SuspendedIgnoresLevel | bot/src/commands/request.rs:113-134 | with a stored Suspended row, the computed level changes neither the request nor the writes |
| Requests.ParsePrivmsgSpec | bot/src/message.rs:12-48 | a command is parsed iff the first space-separated word starts with the prefix character's bytes and the rest of it is a known name; the message is the remaining words or none |
| Requests.PrivmsgRoundTrip | bot/src/message.rs:12-48 | the prefix, a command name without spaces, a space and a message parse back to that name and that message |
| Requests.MultiBytePrefix | bot/src/message.rs:16-18 | a three-byte prefix character is dropped whole, as the char-indexed `substring` drops it |
| Requests.LeadingSpaceIgnored | bot/src/message.rs:12-48 | a message starting with a space never parses, because its first word is empty and a prefix character is at least one byte |
| Handlers.SubscriberMentions | bot/src/handlers.rs:224-228 | a mention is produced iff some user subscribed to the event has that "@name" |
| Handlers.ChatterMentions | bot/src/handlers.rs:249 | each chatter login becomes "@login", in order |
| Handlers.Audience | bot/src/handlers.rs:230-252 | no audience iff massping is set and the chatters call failed; otherwise a mention is in it iff it is a subscriber's or, with massping, a chatter's |
| Handlers.Budget | bot/src/handlers.rs:272 | the budget is 300 minus the line length, wrapping modulo 2^64 when the line is longer |
| Handlers.Announce | bot/src/handlers.rs:257-284 | at least one text; an empty audience gives exactly "⚡ line" |
| Handlers.AnnounceChunks | bot/src/handlers.rs:266-284 | the texts are "⚡ line · chunk" for the wrapper's chunks of the mentions under the remaining budget, and every audience member appears in exactly one chunk |
| Handlers.EventSends | bot/src/handlers.rs:188-284 | a failed channel, subscription or user load, or a failed chatters call for massping, sends nothing; everything else is said in the event's channel |
| Handlers.EmptyAudienceOneLine | bot/src/handlers.rs:257-263 | with nobody to mention, one "⚡ line" is said |
| Handlers.Matching | bot/src/handlers.rs:176-179 | the events kept are exactly those with the target and event type |
| Handlers.HandleStreamEvent | bot/src/handlers.rs:168-290 | the broadcaster id text panics (None) iff it is not an i32; otherwise a failed event load sends nothing, and the events for that id and type announce in turn |
| Handlers.PrintedIdHandled | bot/src/handlers.rs:168-187 | a printed non-negative i32 id never panics, and with no event for that broadcaster and type nothing is sent |
| Handlers.SendsInTurnAppend | bot/src/handlers.rs:188-289 | announcing two lists of events in turn is announcing each list in turn |
| Handlers.TimerLineSend | bot/src/handlers.rs:110-126 | a line with nothing after its first word is skipped; "/me rest" is an action with the rest; any other line is said whole |
| Handlers.RunTimer | bot/src/handlers.rs:103-132 | a timer that is not due does nothing; a due timer sends its lines and records the current time |
| Handlers.RunTimerOncePerInstant | bot/src/handlers.rs:104-108 | a timer with a positive interval fires at most once for a given instant |
| Handlers.RunTimers | bot/src/handlers.rs:97-134 | disabled timers are untouched and enabled ones are run |
| Handlers.QuietTimersSendNothing | bot/src/handlers.rs:97-134 | when no enabled timer is due, nothing is sent |
| Massping.Mention | bot/src/modules/massping.rs:75 | a mention "@login, " is three bytes longer than the login |
| Massping.MentionsSnoc | bot/src/modules/massping.rs:75 | appending a chatter appends its mention |
| Massping.PackMentions | bot/src/modules/massping.rs:49-83 | at least one line; no chatters gives the bare message; lines are the mention groups followed by the message, every chatter once and in order; the first line is bare iff the first mention with the message reaches 500 |
| Massping.FirstLineBare | bot/src/modules/massping.rs:53-64 | the first line is the message alone iff the first chatter's mention with the message reaches 500 bytes |
| Massping.MultiMentionLineUnderLimit | bot/src/modules/massping.rs:53-64 | a line holding two or more mentions (or the first line with any) stays under 500 bytes |
| Massping.NoChattersOneLine | bot/src/modules/massping.rs:50-83 | with no chatters the reply is the message alone |
| Massping.Execute | bot/src/modules/massping.rs:28-84 | a failed chatters call gives InsufficientRights; otherwise the packed lines, at least one |
| EventTargets.ParseTarget | bot/src/modules/event.rs:72-93 | the target parses iff its first word has a non-empty name and type around ':'; the name, type and rest of the message are the corresponding parts, and a malformed word is reported as IncorrectArgument |
| EventTargets.ParseNameAndType | bot/src/modules/event.rs:107 | the "name:type" string of a target parses back to that target |
| EventTargets.ResolveTarget | bot/src/modules/event.rs:95-111 | the found user's id text is parsed as an i32 and panics (None) iff it does not parse; a user not found counts as -1; an id of -1 fails with NotFound exactly when the event type is not Custom; otherwise the parsed id |
| EventTargets.ResolvesPrintedId | bot/src/modules/event.rs:95-105 | a found user whose id prints as a non-negative 32-bit number resolves to that number, for every event type |
| EventTargets.FindEvent | bot/src/modules/event.rs:119-125 | over rows that carry their alias id: the first event naming the target (by custom name for Custom events, by id otherwise), and none iff no event does |
| EventTargets.FindEventAsWritten | bot/src/modules/event.rs:113-125 | only rows of the target's type are searched; the search panics (None) only at a row of that type missing its alias id, and agrees with FindEvent when every such row has it |
| EventCommand.Toggle | bot/src/modules/event.rs:264-284 | an absent flag is appended; a present flag has one occurrence removed |
| EventCommand.ToggleTwice | bot/src/modules/event.rs:264-284 | toggling a flag flips its membership, and toggling twice restores it |
| EventCommand.SubscriptionsOf | bot/src/modules/event.rs:129-131 | exactly the subscriptions of the event |
| EventCommand.Call | bot/src/modules/event.rs:128-190 | no writes; massping with a failed chatters call gives InsufficientRights; a reply is either the single line "⚡ message" or at least one announcement line |
| EventCommand.CallAnnouncesEveryone | bot/src/modules/event.rs:128-190 | a call with a non-empty audience answers one raw line per chunk of the wrapped mentions, each "⚡ message · chunk", the chunks flattening to the iteration order, and every subscriber (and chatter with massping) in exactly one chunk |
| EventCommand.On | bot/src/modules/event.rs:193-235 | an empty message fails; otherwise the event is inserted with the message and target, and the channel is watched iff the type is not Custom and the id is known |
| EventCommand.Off | bot/src/modules/event.rs:237-261 | every subscription of the event is deleted, and then the event |
| EventCommand.Flag | bot/src/modules/event.rs:263-295 | an unknown flag fails with IncorrectArgument; otherwise the flag is toggled and the reply says which way |
| EventCommand.Dispatch | bot/src/modules/event.rs:127-299 | "on" with an existing event is NamesakeCreation; "off" without is NotFound; other unknown combinations are SomethingWentWrong; errors write nothing |
| EventCommand.Execute | bot/src/modules/event.rs:51-302 | the subcommand, message and target checks come first, in the source's order, and a failed command writes nothing; it panics (None) iff the id parse or the event search panics, never when every row carries its alias id and the id parses |
| EventCommand.OnInsertsKeyed | bot/src/modules/event.rs:199-215 | the row `on` inserts carries the alias id of its type, so a later search never panics on it |
| NotifyCommand.FirstSubscription | bot/src/modules/notify.rs:163 | the first subscription to the event |
| NotifyCommand.SenderSubscriptions | bot/src/modules/notify.rs:108-113 | exactly the sender's subscriptions |
| NotifyCommand.Dispatch | bot/src/modules/notify.rs:115-191 | an unknown event is NotFound; sub adds a subscription only when absent; unsub removes the first one only when present; other subcommands fail |
| NotifyCommand.Execute | bot/src/modules/notify.rs:37-194 | the subcommand, message and target checks come first, and a failed command writes nothing; it panics (None) iff the id parse or the event search panics, never when every row carries its alias id and the id parses |
| NotifyCommand.SubIdempotent | bot/src/modules/notify.rs:116-149 | subscribing twice stores one subscription and the second reply is the already-subscribed line |
| NotifyCommand.UnsubUndoesSub | bot/src/modules/notify.rs:116-176 | unsubscribing right after subscribing restores the subscription table |
| NotifyCommand.Remove | bot/src/modules/notify.rs:165-167 | exactly the rows with other ids remain |
| TimerCommand.AsI64 | bot/src/modules/timer.rs:140-143 | the u64-to-i64 conversion is congruent modulo 2^64 and lands in the i64 range |
| TimerCommand.ParseInterval | bot/src/modules/timer.rs:140-143 | an interval fails iff it is not a u64, with IncorrectArgument of the word; a small one keeps its value |
| TimerCommand.FindByName | bot/src/modules/timer.rs:83 | the timer found has the name, and none is found iff no timer has it |
| TimerCommand.Dispatch | bot/src/modules/timer.rs:85-236 | for a found timer: delete, toggle, info and call with no arguments give their replies and writes (info and call panic on a timer without messages, call answers with the first message raw); interval with one argument and message with some set the field; new is NamesakeCreation; anything else is SomethingWentWrong or the missing-argument error. For a missing timer: new inserts it, and everything else is NotFound. Errors write nothing |
| TimerCommand.Execute | bot/src/modules/timer.rs:47-239 | a missing subcommand or name fails first; otherwise the first word names the timer and the rest are the arguments |
| TimerCommand.UpdateRow | bot/src/modules/timer.rs:101-104 | only the row with the id changes |
| TimerCommand.DeleteRow | bot/src/modules/timer.rs:86-89 | exactly the rows with other ids remain |
| TimerCommand.NewThenNamesake | bot/src/modules/timer.rs:190-221 | after creating a timer, creating one with the same name is NamesakeCreation |
| TimerCommand.DeleteThenNotFound | bot/src/modules/timer.rs:86-226 | after deleting a timer, any other subcommand on its name is NotFound |
| TimerCommand.ToggleTwice | bot/src/modules/timer.rs:100-118 | toggling a timer twice restores its enabled state |
| TimerCommand.FindUpdated | bot/src/modules/timer.rs:83-104 | after an update the name finds the updated timer |
| CustomCommandCommand.List | bot/src/modules/custom_command.rs:62-89 | no commands gives the empty-list line; otherwise one line with the names joined by ", " |
| CustomCommandCommand.ListNamesRecoverable | bot/src/modules/custom_command.rs:77-87 | the names can be recovered from the list by splitting on ", " when no name contains it |
| CustomCommandCommand.FindByName | bot/src/modules/custom_command.rs:112 | the command found has the name, and none is found iff no command has it |
| CustomCommandCommand.Dispatch | bot/src/modules/custom_command.rs:114-205 | for a found command: delete, toggle and info with no arguments give their replies and writes (info panics on a command without messages); message with arguments sets the text; new is NamesakeCreation; anything else is SomethingWentWrong. For a missing command: new with a message inserts it, without one is NotEnoughArguments, and other subcommands are NotFound or SomethingWentWrong. Errors write nothing |
| CustomCommandCommand.Execute | bot/src/modules/custom_command.rs:46-208 | a missing subcommand fails; "list" lists; otherwise the first word names the command |
| CustomCommandCommand.ToggleReply | bot/src/modules/custom_command.rs:126-154 | toggling flips the enabled flag and the reply reflects the new state |
| CustomCommandCommand.NewThenNamesake | bot/src/modules/custom_command.rs:175-202 | after creating a command, creating one with the same name is NamesakeCreation |
| CustomCommandCommand.DeleteThenNotFound | bot/src/modules/custom_command.rs:115-196 | after deleting a command, a subcommand without arguments on its name is NotFound |
| EmoteTopCommand.Ascending | bot/src/modules/etop.rs:34-37 | ascending order iff the subcommand is "asc" |
| EmoteTopCommand.ArgumentsDefault | bot/src/modules/etop.rs:39-56 | with no message the current channel and ten emotes |
| EmoteTopCommand.ArgumentsAmountOnly | bot/src/modules/etop.rs:44-56 | a numeric first word is the amount for the current channel |
| EmoteTopCommand.ArgumentsNameAndAmount | bot/src/modules/etop.rs:44-65 | a non-numeric first word is the channel and a numeric second word is the amount |
| EmoteTopCommand.ArgumentsSecondAmountWins | bot/src/modules/etop.rs:44-65 | a numeric second word overrides a numeric first word |
| EmoteTopCommand.AddUsageCounts | bot/src/modules/etop.rs:102-110 | the named entry keeps the larger count, or a new entry is appended; other names keep their counts |
| EmoteTopCommand.AggregateDistinct | bot/src/modules/etop.rs:97-112 | the tally never repeats a name |
| EmoteTopCommand.AggregateHas | bot/src/modules/etop.rs:99-112 | a name is tallied iff some usage's emote id belongs to a channel emote with that name |
| EmoteTopCommand.AggregateMax | bot/src/modules/etop.rs:99-112 | a tallied name carries the largest count among its usages |
| EmoteTopCommand.Sort | bot/src/modules/etop.rs:114-120 | the result is sorted by count in the chosen direction and is a permutation of the tally |
| EmoteTopCommand.Clamp | bot/src/modules/etop.rs:122-128 | the amount is capped at 50 and at the number of tallied names |
| EmoteTopCommand.TopSpec | bot/src/modules/etop.rs:114-130 | the ranking has the clamped length, is sorted, holds only tallied entries, and nothing left out ranks before an entry shown |
| EmoteTopCommand.SortKeepsDistinct | bot/src/modules/etop.rs:114-120 | sorting a tally keeps its names distinct |
| EmoteTopCommand.Entries | bot/src/modules/etop.rs:132-136 | one "name (count)" entry per ranked emote, in order |
| EmoteTopCommand.ReplyShape | bot/src/modules/etop.rs:138-185 | the no-emotes line iff the ranking is empty; otherwise provider, origin, amount, order and the entries joined by ", " |
| EmoteTopCommand.Execute | bot/src/modules/etop.rs:29-193 | an unknown user is NotFound; a failed or non-200 response is the matching error; a reply needs both responses |
| EmoteTopCommand.ExecuteRanksTop | bot/src/modules/etop.rs:95-185 | with both responses the reply ranks the clamped top of the tally |
| EmoteCountCommand.Credentials | bot/src/modules/ecount.rs:123-139 | the user is the text before the first ':', and the password the rest, or none when empty |
| EmoteCountCommand.CredentialsRoundTrip | bot/src/modules/ecount.rs:123-139 | a colon-free user and a non-empty password are recovered from "user:password" |
| EmoteCountCommand.UsageOf | bot/src/modules/ecount.rs:59-63 | the count of the first usage with the emote id, or 0 when there is none |
| EmoteCountCommand.Execute | bot/src/modules/ecount.rs:26-105 | no hostname is SomethingWentWrong; no message is NotEnoughArguments; a failed emotes or usages call is NotEnoughArguments and a non-200 one ExternalApiError, after one or two requests; it panics iff both answers are 200 and the provider line is missing; every request carries its URL and the basic-auth credentials |
| EmoteCountCommand.ReplyIff | bot/src/modules/ecount.rs:58-99 | the usage line is given iff some channel emote has the exact name, and it reports the first such emote's usage; otherwise the not-found line with the name |
| HolidayCommand.MonthOnly | bot/src/modules/holiday.rs:45-52 | ".N" picks month N of today's day when 1 <= N <= 12, today otherwise |
| HolidayCommand.Requested | bot/src/modules/holiday.rs:34-71 | no message is today; "tommorow" is tomorrow; "yesterday" is yesterday |
| HolidayCommand.DayDotMonth | bot/src/modules/holiday.rs:54-61 | "d.m" asks for day d of month m with no range check |
| HolidayCommand.DayOnly | bot/src/modules/holiday.rs:62-65 | a bare number is that day of today's month |
| HolidayCommand.DotMonth | bot/src/modules/holiday.rs:45-52 | ".N" is month N of today's day exactly when 1 <= N <= 12 |
| HolidayCommand.TomorrowSpelledRight | bot/src/modules/holiday.rs:35-70 | the correct spelling "tomorrow" is not recognised and gives today |
| HolidayCommand.Execute | bot/src/modules/holiday.rs:73-111 | 404 is IncorrectArgument "day.month"; a transport error is ExternalApiError 0; an undecodable body is SomethingWentWrong; an empty list is the empty line; otherwise five parameters with a holiday from the list and its count |
| HolidayCommand.PositionOfPick | bot/src/modules/holiday.rs:92-93 | the reported position is the first occurrence of the picked holiday: the pick itself without repeats |
| HolidayCommand.RepeatReportsFirst | bot/src/modules/holiday.rs:92-93 | for any two equal holidays at i < j, picking the one at j reports a position at most i, never j |
| UserIdCommand.PartitionExact | bot/src/modules/userid.rs:30-41 | every token lands in exactly one of the id and login lists |
| UserIdCommand.PartitionOrdered | bot/src/modules/userid.rs:30-41 | both lists keep the input order |
| UserIdCommand.Query | bot/src/modules/userid.rs:43-55 | "id=…" when there are ids, else "login=…", with "&login=…" only when there are both |
| UserIdCommand.QueryListsRecoverable | bot/src/modules/userid.rs:43-55 | splitting each joined list on ',' gives the list back |
| UserIdCommand.UserLine | bot/src/modules/userid.rs:91-132 | ⛔ iff banned, the login, the id, and ": reason" iff a reason is given |
| UserIdCommand.Execute | bot/src/modules/userid.rs:24-145 | no message is NotEnoughArguments; the URL carries the query; a failed call is SomethingWentWrong; an empty or undecodable answer is NotFound; otherwise one line per user |
| SpamCommand.Say | src/modules/spam.rs:42-74 | a reply line panics iff the line is missing |
| SpamCommand.Execute | src/modules/spam.rs:17-75 | no message panics |
| SpamCommand.ExecuteSpec | src/modules/spam.rs:22-74 | the count is the text before the first space and the text is the rest; a non-positive count is refused with the word; an empty text is refused; otherwise count copies |
| SpamCommand.RepeatsText | src/modules/spam.rs:70-74 | "N text" with 0 < N < 2^31 repeats the text N times |
| SpamCommand.ZeroRefused | src/modules/spam.rs:42-51 | a count of zero is refused with "0" |
| SevenTv.New | bot/src/seventv/mod.rs:50-60 | a new client listens to nothing and has no session |
| SevenTv.Flip | bot/src/seventv/mod.rs:80-90 | listening channels move back to awaiting and listening becomes empty |
| SevenTv.FlipResubscribesAll | bot/src/seventv/mod.rs:80-90 | after a flip every known channel is pending again |
| SevenTv.Listen | bot/src/seventv/mod.rs:360-390 | an unknown 7TV user is skipped; a known one sends a subscribe for its emote set and is listened to unless the send fails |
| SevenTv.ListenAll | bot/src/seventv/mod.rs:351-355 | channels are subscribed in turn and the first failing send stops the run |
| SevenTv.Drain | bot/src/seventv/mod.rs:338-358 | awaiting loses the listened channels; the run fails iff a pending channel with an emote set fails to send |
| SevenTv.DrainOrderIrrelevant | bot/src/seventv/mod.rs:341-355 | a successful drain ends in the same state whatever the set's iteration order |
| SevenTv.NextDrainRetriesUnknown | bot/src/seventv/mod.rs:341-355 | after a successful drain exactly the channels without a 7TV user stay pending |
| SevenTv.ResumeSession | bot/src/seventv/mod.rs:392-411 | without a session nothing is sent; with one a resume frame with its id |
| SevenTv.Hello | bot/src/seventv/mod.rs:109-118 | the first hello stores the session id and drains; later hellos resume the kept session |
| SevenTv.Reconnect | bot/src/seventv/mod.rs:122-128 | the channels are flipped, the socket is closed, then the client connects to the reconnect URL |
| SevenTv.CloseRetryAsWritten | bot/src/seventv/mod.rs:158-176 | as written: the loop only ends after three failed connects |
| SevenTv.CloseRetryAsWrittenExits | bot/src/seventv/mod.rs:158-176 | as written, the loop ends iff three connects fail; the outcomes it consumed hold exactly three failures, the last of them the final outcome consumed |
| SevenTv.CloseRetryNeverEndsOnSuccess | bot/src/seventv/mod.rs:167-168 | as written, when every connect succeeds the loop never ends |
| SevenTv.CloseRetry | bot/src/seventv/mod.rs:158-176 | corrected: at most three connects, stopping at the first success, which is reported |
| SevenTv.Close | bot/src/seventv/mod.rs:142-177 | a close flips the channels and connects to the reconnect URL until the third failure; the loop is left iff at least three of the outcomes fail, right after the third; otherwise every outcome is used and the client is still reconnecting |
| SevenTv.CloseIntended | bot/src/seventv/mod.rs:142-177 | corrected: a close flips the channels and makes at most three connects, all to the reconnect URL, and at least one when any outcome is available |
| SevenTv.CloseAgreesWhenThreeFail | bot/src/seventv/mod.rs:158-176 | when the first three connects fail, the written and the corrected close act alike |
| SevenTv.ActorName | bot/src/seventv/mod.rs:200-210 | the actor's Twitch username if the actor has a Twitch connection, else the 7TV username |
| SevenTv.ChangeNames | bot/src/seventv/mod.rs:240-321 | pushed needs the new value, pulled the old value, updated both; a missing one is an unwrap panic |
| SevenTv.Announcements | bot/src/seventv/mod.rs:240-321 | one line per change iff every change carries the values it needs |
| SevenTv.HandleDispatch | bot/src/seventv/mod.rs:184-336 | other event types, owner lookups that find nothing and channels without the 7TV-updates feature send nothing; a bad Twitch id or missing channel rows panic; with the feature, it panics iff a change lacks a name it needs or there is a change and no provider line, and sends nothing when there are no changes |
| SevenTv.DispatchOrder | bot/src/seventv/mod.rs:238-329 | pushed lines come first, then pulled, then updated, all said in the owner's channel |
| SevenTv.DispatchTexts | bot/src/seventv/mod.rs:238-329 | each line is the localized pushed, pulled or updated line for its emote |
| SevenTv.ProcessMessage | bot/src/seventv/mod.rs:92-182 | op 0 dispatches, op 1 is hello, op 4 reconnects, close frames run the close retry, and every other frame or opcode changes nothing |
| SevenTv.HeartbeatsChangeNothing | bot/src/seventv/mod.rs:120 | heartbeats change nothing and send nothing |
| SevenTv.HelloKeepsFirstSession | bot/src/seventv/mod.rs:109-116 | a second hello keeps the first session id |
| SevenTv.ReconnectUrlConstant | bot/src/seventv/mod.rs:92-182 | no frame changes the reconnect URL |
| EventSub.Without | bot/src/websockets/livestream.rs:158-163 | the awaiting ids not yet listened to, in order |
| EventSub.RemoveFirst | bot/src/websockets/livestream.rs:208-214 | removes one occurrence of the id when present, otherwise nothing |
| EventSub.Listen | bot/src/websockets/livestream.rs:180-227 | without a session nothing happens; both subscriptions must succeed before the id moves from awaiting to listening |
| EventSub.ListenEach | bot/src/websockets/livestream.rs:167-175 | listening gains the successful ids and awaiting loses one occurrence of each |
| EventSub.Drain | bot/src/websockets/livestream.rs:147-178 | nothing happens without a session or awaiting ids; otherwise the unlistened awaiting ids are tried in order |
| EventSub.DrainKeepsIds | bot/src/websockets/livestream.rs:147-227 | no id is lost: awaiting and listening together hold the same ids as before |
| EventSub.DrainWithoutErrors | bot/src/websockets/livestream.rs:147-227 | when every call succeeds, an id still awaiting was already listening |
| EventSub.Welcomed | bot/src/websockets/livestream.rs:132-145 | a welcome stores the session id, takes a given reconnect URL, then drains |
| EventSub.ProcessMessage | bot/src/websockets/livestream.rs:77-130 | welcome and reconnect frames run the welcome step with their session; a notification raises live or offline for its broadcaster; an unparseable text frame is an error; other data and other frames change nothing |
| EventSub.WelcomeReconnectAlike | bot/src/websockets/livestream.rs:87-96 | a reconnect message acts exactly like a welcome |
| EventSub.RunStep | bot/src/websockets/livestream.rs:55-75 | a reset without handshake reconnects to the reconnect URL; any other socket error ends the loop after the drain; a received frame is processed after draining |
| Polling.AppendedSpec | bot/src/livestream.rs:63-93 | the ids appended are exactly those streaming freshly and not already cached, without duplicates |
| Polling.GoLive | bot/src/livestream.rs:63-93 | the cache keeps having no duplicates |
| Polling.GoOffline | bot/src/livestream.rs:95-119 | the cache keeps exactly the ids still streaming, and offline is raised for exactly the others |
| Polling.ProcessLive | bot/src/livestream.rs:39-123 | nothing happens without watched channels or when the call fails; titles are untouched |
| Polling.LiveIff | bot/src/livestream.rs:63-93 | live is raised for a channel iff it streams freshly and was not cached |
| Polling.OfflineIff | bot/src/livestream.rs:95-119 | offline is raised for a channel iff it was cached and streams no more |
| Polling.CachedIff | bot/src/livestream.rs:63-119 | after a poll a channel is cached iff it streams and was cached or is fresh |
| Polling.PollTwiceQuiet | bot/src/livestream.rs:39-123 | polling again with the same streams raises nothing |
| Polling.StaleStreamNeverCached | bot/src/livestream.rs:64-77 | a stream older than two minutes is never cached |
| Polling.TrackTitles | bot/src/livestream.rs:150-166 | every channel in the answer gets a cached title and no cached channel is dropped; only title events with two parameters are raised, at most one per channel |
| Polling.ProcessTitles | bot/src/livestream.rs:125-170 | nothing happens without watched channels or when the call fails; the live cache is untouched |
| Polling.OneChannelTitle | bot/src/livestream.rs:150-166 | a title change is raised iff a different title was cached, with the old and new titles |
| Polling.FirstSightingQuiet | bot/src/livestream.rs:151-154 | the first title seen for a channel raises nothing |
| Polling.TitlesTwiceQuiet | bot/src/livestream.rs:150-166 | tracking the same titles twice raises nothing the second time |
| Polling.TitlesCached | bot/src/livestream.rs:150-166 | with distinct channels in the answer, each one's cached title afterwards is its new title |
| Polling.TitlesUntouched | bot/src/livestream.rs:150-166 | a channel not in the answer keeps its cached title |

## Left out

- Sockets and transport are not modelled. Websocket connect/close and HTTP
  requests become inputs (an `Option`, or booleans for success) and output
  actions. A socket error is either the reset without handshake or any other
  error (EventSub.SocketError).
- EventSub.RunStep: a socket stream that ends (`next` gives `None`) is not an
  input. With no branch left, the source's `select!` panics there.
- EventSub.Welcomed: the reconnect URL is kept as text. The source's
  `Url::parse(..).unwrap()` panics on a URL that does not parse; that panic is not
  modelled.
- Database reads and writes are not modelled. Reads are inputs. Writes are
  `Effect` values, applied by small table functions (`Apply`, `UpdateRow`,
  `DeleteRow`). A database call that fails under an `expect` (a panic in the
  source) is not an input: the modelled loads either succeed or, where the source
  matches on the error, come as `None`.
- Requests.TryFrom: the channel, preference and user rows arrive already loaded.
  Creating them when missing, the sender's alias-name update
  (`bot/src/commands/request.rs:39-97`) and that stage's panics (the
  `parse::<i32>().unwrap()` of the channel and sender ids) are not modelled.
- Concurrency is left out. This covers `tokio::spawn`, the shared mutex-guarded
  registries, and the EventSub client holding the lock across awaits. Each step is
  modelled as running alone.
- The clock is an input. This covers `Utc::now()` in timers, polling and holidays, and the
  60-second sleeps in the 7TV close loop.
- Utils.Components: computed on integers. The source uses `f64`, which agrees
  for timestamps below 2^53.
- Localization files are not loaded. Reading the JSON files is left out, and the
  locale table is an input.
- Logging (`println!`, `info!`) is left out, because it has no effect on the bot's state or replies.
- Commands outside the core are left out: `join`, `settings`, `mcsrv`,
  `ping` and `help`. So are the `api/` and `web/` crates and the older `src/`
  copies of modules other than `spam`, `localization` and `utils`.
- The response type's definition file is not part of this model. ResponseError
  is rebuilt from its uses.
- SpamCommand.Execute: the source names a `MsgNoMessage` line that the older
  crate's five line ids do not have. The model uses that localizer's
  `cmd.spam.no_message` line.
- Handlers.Budget: the usize subtraction wraps as in a release build. A
  debug build would panic instead.
- Requests.ParseRequest: the prefix is cut off by its length in bytes, where
  the source's `substring` counts characters. The two agree only when the
  prefix is ASCII; a non-ASCII prefix such as "€" makes the source cut too few
  bytes ("€ping" gives "ng" there).
- Requests.ParseRequestSpec: states the byte-length cut of Requests.ParseRequest,
  so it matches the source only for ASCII prefixes.
- Requests.RequestRoundTrip: the rebuilt text uses the byte-length cut, so the
  round trip is the source's only for ASCII prefixes.
- SevenTv.HandleDispatch: the owner chain's database and 7TV lookups are reduced
  to their three outcomes (nothing found, a panic, the owner found).
- HashSet iteration order is an input (`order`). The 7TV drain members
  require it to list the set exactly once. The announcing members
  (Handlers.Announce, Handlers.EventSends, Handlers.HandleStreamEvent,
  EventCommand.Call, EventCommand.Execute) accept any sequence. The facts about
  who is mentioned (Handlers.AnnounceChunks, EventCommand.CallAnnouncesEveryone)
  require an exact listing.
- HolidayCommand.Execute: the request URL is not modelled. Its position
  parameter is stated to come from the list, not the exact random pick.
- EmoteTopCommand.Sort: the order of emotes with equal counts is not stated,
  though the source's `sort_by` is stable.
- EmoteTopCommand.Execute: the Twitch user lookup is reduced to found or not
  found. The contract covers the error paths. The ranking itself is stated in
  EmoteTopCommand.ExecuteRanksTop.

## Findings

| source | as written | input that shows it | evidently intended | confidence | as-written member | corrected member |
|---|---|---|---|---|---|---|
| bot/src/commands/request.rs:99-111 | one badge iterator is shared by three `any` calls; a failed search for "moderator" exhausts it, so the vip and subscriber tests always fail | a non-broadcaster sender with badges ["vip"] gets User | Vip for a vip badge, Subscriber for a subscriber badge | high, not executed | Requests.VipBadgeIgnored | Requests.LevelFromBadges |
| bot/src/seventv/mod.rs:158-176 | the reconnect loop only counts failures and has no exit on success | every connect succeeds: the loop reconnects forever, once a minute | stop after the first successful connect, at most three attempts | high, not executed | SevenTv.CloseRetryNeverEndsOnSuccess | SevenTv.CloseRetry |

The request and the 7TV client follow the code as written in both cases
(Requests.TryFrom, SevenTv.Close). The corrected versions stand beside them as
Requests.TryFromIntended and SevenTv.CloseIntended.

=== FILE: commands.dfy ===
/**
 * What a command hands back to the chat (`bot/src/commands/mod.rs` and the
 * response types every module returns). A reply that goes through the
 * localizer is kept as the line id and the parameters passed to it; the text
 * itself is `Localization.FormattedTextByRequest` (`ByRequest`) or
 * `Localization.GetFormattedText` in the channel's language (`Formatted`).
 */
module Commands {
  import opened Localization

  /** The argument a command reports as missing. */
  datatype CommandArgument = Subcommand | Message | Interval | Name | Target | Value | Amount

  /** `CommandArgument::to_line_id`. */
  function ArgumentLineId(a: CommandArgument): (id: LineId)
    ensures LineIdKey(id).Some?
  {
    match a
    case Subcommand => ArgumentSubcommand
    case Message => ArgumentMessage
    case Interval => ArgumentInterval
    case Name => ArgumentName
    case Target => ArgumentTarget
    case Value => ArgumentValue
    case Amount => ArgumentAmount
  }

  /** Each argument has its own line. */
  lemma ArgumentLineIdInjective(a: CommandArgument, b: CommandArgument)
    requires ArgumentLineId(a) == ArgumentLineId(b)
    ensures a == b
  {
  }

  datatype ResponseError =
      NotEnoughArguments(argument: CommandArgument)
    | IncorrectArgument(value: string)
    | NotFound(value: string)
    | NamesakeCreation(value: string)
    | ExternalApiError(status: nat, message: Options.Option<string>)
    | InsufficientRights
    | SomethingWentWrong

  /**
   * One chat message: verbatim text, or a localized line with its parameters,
   * formatted with the request's fields (`formatted_text_by_request`) or
   * without them (`get_formatted_text`).
   */
  datatype Text =
      Raw(text: string)
    | ByRequest(id: LineId, parameters: seq<string>)
    | Formatted(id: LineId, parameters: seq<string>)

  datatype Response = Single(text: Text) | Multiple(texts: seq<Text>)

  /** A line with no parameters. */
  function Plain(id: LineId): Text
  {
    ByRequest(id, [])
  }

  /** Verbatim texts, in order. */
  function RawTexts(lines: seq<string>): (ts: seq<Text>)
    ensures |ts| == |lines|
    ensures forall k :: 0 <= k < |lines| ==> ts[k] == Raw(lines[k])
  {
    if |lines| == 0 then [] else [Raw(lines[0])] + RawTexts(lines[1..])
  }
}

=== FILE: custom_command.dfy ===
/**
 * `!cmd` (`bot/src/modules/custom_command.rs`): moderators list, create,
 * delete, edit, toggle and inspect the channel's custom commands. The channel's
 * commands are the input; the database writes are returned as effects.
 */
module CustomCommandCommand {
  import opened Options
  import opened Text
  import opened Models
  import opened Commands
  import Localization
  import TimerCommand

  /** A change to the custom command table. */
  datatype Effect =
      DeleteCommand(id: int)
    | SetEnabled(id: int, enabled: bool)
    | SetMessages(id: int, messages: seq<string>)
    | InsertCommand(name: string, channelId: int, messages: seq<string>)

  /** The reply and the writes, or a panic (`unwrap` on a command without messages). */
  datatype Outcome = Outcome(result: Result<Response, ResponseError>, effects: seq<Effect>) | Panicked

  function Fail(e: ResponseError): Outcome
  {
    Outcome(Err(e), [])
  }

  function Names(commands: seq<CustomCommand>): (names: seq<string>)
    ensures |names| == |commands|
    ensures forall k :: 0 <= k < |commands| ==> names[k] == commands[k].name
  {
    if |commands| == 0 then [] else [commands[0].name] + Names(commands[1..])
  }

  /** `list`: every command of the channel, enabled or not, by name; a dedicated line when there are none. */
  function List(commands: seq<CustomCommand>): (r: Outcome)
    ensures commands == [] ==> r == Outcome(Ok(Single(ByRequest(Localization.CustomcommandListEmpty, []))), [])
    ensures commands != [] ==> && r.Outcome? && r.effects == [] && r.result.Ok? && r.result.value.Single?
                               && r.result.value.text.ByRequest?
                               && r.result.value.text.id == Localization.CustomcommandList
                               && |r.result.value.text.parameters| == 1
  {
    if |commands| == 0 then Outcome(Ok(Single(ByRequest(Localization.CustomcommandListEmpty, []))), [])
    else Outcome(Ok(Single(ByRequest(Localization.CustomcommandList, [Join(Names(commands), ", ")]))), [])
  }

  /** The listed names can be read back, in order, when no name holds the separator. */
  lemma ListNamesRecoverable(commands: seq<CustomCommand>)
    requires commands != []
    requires forall k :: 0 <= k < |commands| ==> !Contains(commands[k].name, ", ")
    ensures Split(List(commands).result.value.text.parameters[0], ", ") == Names(commands)
  {
    var names := Names(commands);
    forall k | 0 <= k < |names|
      ensures !Contains(names[k], ", ")
    {
      assert names[k] == commands[k].name;
    }
    SeparatorUnique();
    SplitJoin(names, ", ");
  }

  lemma SeparatorUnique()
    ensures FirstCharUnique(", ")
  {
  }

  /** The first of the channel's commands with this name. */
  function FindByName(commands: seq<CustomCommand>, name: string): (r: Option<CustomCommand>)
    ensures r.Some? ==> r.value in commands && r.value.name == name
    ensures r.None? <==> forall c :: c in commands ==> c.name != name
  {
    if |commands| == 0 then None
    else if commands[0].name == name then Some(commands[0])
    else
      assert forall c :: c in commands <==> c == commands[0] || c in commands[1..];
      FindByName(commands[1..], name)
  }

  function IdParameters(c: CustomCommand): seq<string>
  {
    [c.name, IntToString(c.id)]
  }

  /** The `(command found, argument count, subcommand)` table. */
  function Dispatch(found: Option<CustomCommand>, args: seq<string>, sub: string, name: string, channelId: int): (r: Outcome)
    ensures found.Some? && |args| == 0 && sub == "toggle" ==>
              r == Outcome(Ok(Single(ByRequest(if found.value.isEnabled then Localization.CommandCustomCommandDisabled
                                               else Localization.CommandCustomCommandEnabled, IdParameters(found.value)))),
                           [SetEnabled(found.value.id, !found.value.isEnabled)])
    ensures found.Some? && |args| == 0 && sub == "delete" ==>
              r == Outcome(Ok(Single(ByRequest(Localization.CommandCustomCommandDeleted, IdParameters(found.value)))),
                           [DeleteCommand(found.value.id)])
    ensures found.Some? && |args| == 0 && sub == "info" ==>
              var c := found.value;
              r == if |c.messages| == 0 then Panicked
                   else Outcome(Ok(Single(ByRequest(Localization.CommandCustomCommandInfo,
                                                    [if c.isEnabled then TimerCommand.CHECK_MARK else TimerCommand.CROSS_MARK,
                                                     c.name, IntToString(c.id), c.messages[0]]))), [])
    ensures found.Some? && |args| >= 1 && sub in {"delete", "toggle", "info"} ==> r == Fail(SomethingWentWrong)
    ensures found.Some? && sub !in {"delete", "toggle", "info", "message", "new"} ==> r == Fail(SomethingWentWrong)
    ensures found.Some? && |args| >= 1 && sub == "message" ==>
              r == Outcome(Ok(Single(ByRequest(Localization.CommandCustomCommandMessage, IdParameters(found.value)))),
                           [SetMessages(found.value.id, [Join(args, " ")])])
    ensures found.None? && |args| >= 1 && sub == "new" ==>
              r == Outcome(Ok(Single(ByRequest(Localization.CommandCustomCommandNew, [name]))),
                           [InsertCommand(name, channelId, [Join(args, " ")])])
    ensures found.None? && |args| == 0 && sub == "new" ==> r == Fail(NotEnoughArguments(Message))
    ensures found.Some? && sub == "new" ==> r == Fail(NamesakeCreation(name))
    ensures found.None? && |args| == 0 && sub != "new" ==> r == Fail(NotFound(name))
    ensures found.None? && |args| >= 1 && sub != "new" ==> r == Fail(SomethingWentWrong)
    ensures r.Outcome? && r.result.Err? ==> r.effects == []
  {
    match found
    case Some(c) =>
      if |args| == 0 && sub == "delete" then
        Outcome(Ok(Single(ByRequest(Localization.CommandCustomCommandDeleted, IdParameters(c)))), [DeleteCommand(c.id)])
      else if |args| == 0 && sub == "toggle" then
        Outcome(Ok(Single(ByRequest(if !c.isEnabled then Localization.CommandCustomCommandEnabled
                                    else Localization.CommandCustomCommandDisabled, IdParameters(c)))),
                [SetEnabled(c.id, !c.isEnabled)])
      else if |args| == 0 && sub == "info" then
        if |c.messages| == 0 then Panicked
        else Outcome(Ok(Single(ByRequest(Localization.CommandCustomCommandInfo,
                                         [if c.isEnabled then TimerCommand.CHECK_MARK else TimerCommand.CROSS_MARK,
                                          c.name, IntToString(c.id), c.messages[0]]))), [])
      else if sub == "message" && |args| > 0 then
        Outcome(Ok(Single(ByRequest(Localization.CommandCustomCommandMessage, IdParameters(c)))),
                [SetMessages(c.id, [Join(args, " ")])])
      else if sub == "new" then Fail(NamesakeCreation(name))
      else Fail(SomethingWentWrong)
    case None =>
      if sub == "new" && |args| > 0 then
        Outcome(Ok(Single(ByRequest(Localization.CommandCustomCommandNew, [name]))),
                [InsertCommand(name, channelId, [Join(args, " ")])])
      else if |args| == 0 && sub != "new" then Fail(NotFound(name))
      else if |args| == 0 then Fail(NotEnoughArguments(Message))
      else Fail(SomethingWentWrong)
  }

  /**
   * `CustomCommandsCommand::execute`: `list` needs no name; every other
   * subcommand takes the first word as the name and the other pieces as arguments.
   */
  function Execute(request: Request, commands: seq<CustomCommand>): (r: Outcome)
    ensures request.subcommandId.None? ==> r == Fail(NotEnoughArguments(Subcommand))
    ensures request.subcommandId == Some("list") ==> r == List(commands)
    ensures request.subcommandId.Some? && request.subcommandId != Some("list") && request.message.None? ==>
              r == Fail(NotEnoughArguments(Name))
    ensures request.subcommandId.Some? && request.subcommandId != Some("list") && request.message.Some? ==>
              var m := request.message.value;
              r == Dispatch(FindByName(commands, Before(m, ' ')), PiecesAfter(m, ' '), request.subcommandId.value,
                            Before(m, ' '), request.channel.id)
  {
    match request.subcommandId
    case None => Fail(NotEnoughArguments(Subcommand))
    case Some(sub) =>
      if sub == "list" then List(commands)
      else match request.message
        case None => Fail(NotEnoughArguments(Name))
        case Some(message) =>
          var pieces := Split(message, " ");
          SplitAtChar(message, ' ');
          Dispatch(FindByName(commands, pieces[0]), pieces[1..], sub, pieces[0], request.channel.id)
  }

  /** Toggling flips the enabled state, and the reply says "enabled" exactly when it was disabled before. */
  lemma ToggleReply(c: CustomCommand, name: string, channelId: int)
    ensures var r := Dispatch(Some(c), [], "toggle", name, channelId);
            && r.effects == [SetEnabled(c.id, !c.isEnabled)]
            && (r.result.value.text.id == Localization.CommandCustomCommandEnabled <==> !c.isEnabled)
  {
  }

  /** The command table after one write; an insert gets the id `newId` and starts enabled. */
  function ApplyOne(commands: seq<CustomCommand>, e: Effect, newId: int): seq<CustomCommand>
  {
    match e
    case InsertCommand(name, channelId, messages) => commands + [CustomCommand(newId, channelId, name, messages, true)]
    case DeleteCommand(id) => DeleteRow(commands, id)
    case SetEnabled(id, enabled) => UpdateRow(commands, id, e)
    case SetMessages(id, messages) => UpdateRow(commands, id, e)
  }

  function Updated(c: CustomCommand, e: Effect): (u: CustomCommand)
    ensures u.id == c.id && u.name == c.name && u.channelId == c.channelId
  {
    match e
    case SetEnabled(_, enabled) => c.(isEnabled := enabled)
    case SetMessages(_, messages) => c.(messages := messages)
    case _ => c
  }

  function DeleteRow(commands: seq<CustomCommand>, id: int): (r: seq<CustomCommand>)
    ensures forall c :: c in r <==> c in commands && c.id != id
  {
    if |commands| == 0 then []
    else
      var rest := DeleteRow(commands[1..], id);
      assert forall c :: c in commands <==> c == commands[0] || c in commands[1..];
      if commands[0].id == id then rest else [commands[0]] + rest
  }

  function UpdateRow(commands: seq<CustomCommand>, id: int, e: Effect): (r: seq<CustomCommand>)
    ensures |r| == |commands|
    ensures forall k :: 0 <= k < |commands| ==> r[k] == if commands[k].id == id then Updated(commands[k], e) else commands[k]
  {
    if |commands| == 0 then []
    else [if commands[0].id == id then Updated(commands[0], e) else commands[0]] + UpdateRow(commands[1..], id, e)
  }

  /** Once `new` has created a command, `new` with the same name is a namesake error. */
  lemma NewThenNamesake(commands: seq<CustomCommand>, args: seq<string>, name: string, channelId: int, newId: int, args2: seq<string>)
    requires FindByName(commands, name).None? && |args| >= 1
    ensures var first := Dispatch(None, args, "new", name, channelId);
            var after := ApplyOne(commands, first.effects[0], newId);
            Dispatch(FindByName(after, name), args2, "new", name, channelId) == Fail(NamesakeCreation(name))
  {
    var first := Dispatch(None, args, "new", name, channelId);
    var after := ApplyOne(commands, first.effects[0], newId);
    assert after[|commands|] in after;
  }

  /** Once a command is deleted (names unique in the channel), any subcommand but `new` on its name is not found. */
  lemma DeleteThenNotFound(commands: seq<CustomCommand>, name: string, channelId: int, sub: string)
    requires FindByName(commands, name).Some?
    requires forall c :: c in commands && c.name == name ==> c.id == FindByName(commands, name).value.id
    requires sub != "new"
    ensures var first := Dispatch(FindByName(commands, name), [], "delete", name, channelId);
            first.Outcome? && first.effects == [DeleteCommand(FindByName(commands, name).value.id)]
    ensures var after := DeleteRow(commands, FindByName(commands, name).value.id);
            Dispatch(FindByName(after, name), [], sub, name, channelId) == Fail(NotFound(name))
  {
  }
}

=== FILE: ecount_command.dfy ===
/**
 * `!ecount` (`bot/src/modules/ecount.rs`): how often the channel used one 7TV
 * emote, read from the statistics service named by the `STATS_API_HOSTNAME`
 * environment variable, with basic authentication from `STATS_API_PASSWORD`.
 */
module EmoteCountCommand {
  import opened Options
  import opened Text
  import opened Models
  import opened Commands
  import opened Stats
  import Localization

  /** `user:password` split for basic authentication; an empty password is sent as none. */
  datatype BasicAuth = BasicAuth(user: string, password: Option<string>)

  /** One GET to the statistics service. */
  datatype StatsRequest = StatsRequest(url: string, auth: Option<BasicAuth>)

  datatype Outcome = Outcome(result: Result<Response, ResponseError>, requests: seq<StatsRequest>) | Panicked

  /** The two environment variables the command reads. */
  datatype Env = Env(hostname: Option<string>, credentials: Option<string>)

  /**
   * The credentials split on `:`: the user is the first piece, the password
   * the remaining pieces joined back with `:`.
   */
  function Credentials(s: string): (a: BasicAuth)
    ensures ':' !in a.user
    ensures a.password.Some? ==> s == a.user + ":" + a.password.value
    ensures a.password.None? ==> s == a.user || s == a.user + ":"
  {
    var pieces := Split(s, ":");
    var user := pieces[0];
    var password := Join(pieces[1..], ":");
    SplitAtChar(s, ':');
    assert ":" == [':'];
    assert ':' !in user by {
      CharIndexNone(user, s, ':');
    }
    match CharIndex(s, ':')
    case None => BasicAuth(user, if password == "" then None else Some(password))
    case Some(i) =>
      assert s == s[..i] + ":" + s[i + 1..];
      BasicAuth(user, if password == "" then None else Some(password))
  }

  /** The part of a string before its first `c` does not contain `c`. */
  lemma CharIndexNone(before: string, s: string, c: char)
    requires before == Before(s, c)
    ensures c !in before
  {
  }

  /** A user without `:` and a non-empty password survive the round trip through the variable. */
  lemma CredentialsRoundTrip(user: string, password: string)
    requires ':' !in user && password != ""
    ensures Credentials(user + ":" + password) == BasicAuth(user, Some(password))
  {
    var s := user + ":" + password;
    assert s[|user|] == ':';
    assert forall j :: 0 <= j < |user| ==> s[j] == user[j];
    assert CharIndex(s, ':') == Some(|user|);
    assert s[..|user|] == user;
    assert s[|user| + 1..] == password;
  }

  const EMOTES_PATH: string := "/api/v1/channel/twitch/"

  function EmotesUrl(hostname: string, channelId: string): string
  {
    hostname + EMOTES_PATH + channelId + "/emotes"
  }

  function UsagesUrl(hostname: string, channelId: string): string
  {
    hostname + EMOTES_PATH + channelId + "/emotes/usage"
  }

  /** The count of the first usage of the emote id, or 0 when it was never used. */
  function UsageOf(usages: seq<EmoteUsage>, emoteId: int): (n: int)
    ensures (forall k :: 0 <= k < |usages| ==> usages[k].emoteId != emoteId) ==> n == 0
    ensures forall k :: (0 <= k < |usages| && usages[k].emoteId == emoteId
                         && forall j :: 0 <= j < k ==> usages[j].emoteId != emoteId) ==> n == usages[k].usageCount
  {
    if |usages| == 0 then 0
    else if usages[0].emoteId == emoteId then usages[0].usageCount
    else
      var n := UsageOf(usages[1..], emoteId);
      assert forall k :: 1 <= k < |usages| ==> usages[k] == usages[1..][k - 1];
      n
  }

  /** The reply once both lists are in: the usage of the emote with exactly that name, or not found. */
  function Reply(request: Request, locales: Localization.Locales<Localization.LineId>, name: string,
                 emotes: seq<ChannelEmote>, usages: seq<EmoteUsage>): (r: Result<Response, ResponseError>)
    requires Localization.GetLiteralText(locales, request.channelPreference.language, Localization.Provider7TV).Some?
  {
    var provider := Localization.GetLiteralText(locales, request.channelPreference.language, Localization.Provider7TV).value;
    match EmoteByName(emotes, name)
    case Some(e) =>
      Ok(Single(ByRequest(Localization.EmoteCountUsage, [provider, e.name, IntToString(UsageOf(usages, e.emoteId))])))
    case None =>
      Ok(Single(ByRequest(Localization.EmoteCountNotFound, [provider, name])))
  }

  function Execute(request: Request, locales: Localization.Locales<Localization.LineId>, env: Env,
                   emotes: Option<StatsResponse<seq<ChannelEmote>>>,
                   usages: Option<StatsResponse<seq<EmoteUsage>>>): (r: Outcome)
    ensures env.hostname.None? ==> r == Outcome(Err(SomethingWentWrong), [])
    ensures env.hostname.Some? && request.message.None? ==> r == Outcome(Err(NotEnoughArguments(Target)), [])
    ensures r.Outcome? && r.requests != [] ==>
              r.requests[0].url == EmotesUrl(env.hostname.value, IntToString(request.channel.aliasId))
              && forall k :: 0 <= k < |r.requests| ==>
                   r.requests[k].auth == (if env.credentials.Some? then Some(Credentials(env.credentials.value)) else None)
    ensures r.Outcome? && |r.requests| == 2 ==>
              r.requests[1].url == UsagesUrl(env.hostname.value, IntToString(request.channel.aliasId))
    ensures env.hostname.Some? && request.message.Some? && emotes.None? ==>
              r.Outcome? && r.result == Err(NotEnoughArguments(Target)) && |r.requests| == 1
    ensures env.hostname.Some? && request.message.Some? && emotes.Some? && emotes.value.statusCode != STATUS_OK ==>
              r.Outcome? && r.result == Err(ExternalApiError(emotes.value.statusCode, emotes.value.message)) && |r.requests| == 1
    ensures env.hostname.Some? && request.message.Some? && emotes.Some? && emotes.value.statusCode == STATUS_OK ==>
              (usages.None? ==> r.Outcome? && r.result == Err(NotEnoughArguments(Target)) && |r.requests| == 2)
              && (usages.Some? && usages.value.statusCode != STATUS_OK ==>
                    r.Outcome? && r.result == Err(ExternalApiError(usages.value.statusCode, usages.value.message)) && |r.requests| == 2)
    ensures r.Panicked? <==>
              env.hostname.Some? && request.message.Some? && emotes.Some? && usages.Some?
              && emotes.value.statusCode == STATUS_OK && usages.value.statusCode == STATUS_OK
              && Localization.GetLiteralText(locales, request.channelPreference.language, Localization.Provider7TV).None?
  {
    if env.hostname.None? then Outcome(Err(SomethingWentWrong), [])
    else if request.message.None? then Outcome(Err(NotEnoughArguments(Target)), [])
    else
      var channelId := IntToString(request.channel.aliasId);
      var auth := if env.credentials.Some? then Some(Credentials(env.credentials.value)) else None;
      var first := StatsRequest(EmotesUrl(env.hostname.value, channelId), auth);
      var second := StatsRequest(UsagesUrl(env.hostname.value, channelId), auth);
      if emotes.None? then Outcome(Err(NotEnoughArguments(Target)), [first])
      else if emotes.value.statusCode != STATUS_OK then
        Outcome(Err(ExternalApiError(emotes.value.statusCode, emotes.value.message)), [first])
      else if usages.None? then Outcome(Err(NotEnoughArguments(Target)), [first, second])
      else if usages.value.statusCode != STATUS_OK then
        Outcome(Err(ExternalApiError(usages.value.statusCode, usages.value.message)), [first, second])
      else if Localization.GetLiteralText(locales, request.channelPreference.language, Localization.Provider7TV).None? then
        Panicked
      else
        Outcome(Reply(request, locales, request.message.value, emotes.value.data.GetOr([]), usages.value.data.GetOr([])),
                [first, second])
  }

  /**
   * The usage reply is given iff some channel emote has exactly the requested
   * name; it reports the first such emote and the count of the first usage of
   * its id, or 0.
   */
  lemma ReplyIff(request: Request, locales: Localization.Locales<Localization.LineId>, name: string,
                 emotes: seq<ChannelEmote>, usages: seq<EmoteUsage>)
    requires Localization.GetLiteralText(locales, request.channelPreference.language, Localization.Provider7TV).Some?
    ensures var r := Reply(request, locales, name, emotes, usages);
            r.Ok? && r.value.Single? && r.value.text.ByRequest?
            && (r.value.text.id == Localization.EmoteCountUsage <==> exists k :: 0 <= k < |emotes| && emotes[k].name == name)
            && (r.value.text.id == Localization.EmoteCountUsage ==>
                  exists k :: 0 <= k < |emotes| && emotes[k].name == name
                    && (forall j :: 0 <= j < k ==> emotes[j].name != name)
                    && r.value.text.parameters[2] == IntToString(UsageOf(usages, emotes[k].emoteId)))
            && (r.value.text.id == Localization.EmoteCountNotFound ==> r.value.text.parameters[1] == name)
  {
    var r := Reply(request, locales, name, emotes, usages);
    match EmoteByName(emotes, name)
    case Some(e) =>
      var k :| 0 <= k < |emotes| && emotes[k] == e && forall j :: 0 <= j < k ==> emotes[j].name != name;
      assert emotes[k].name == name && r.value.text.parameters[2] == IntToString(UsageOf(usages, emotes[k].emoteId));
    case None =>
  }
}

=== FILE: etop_command.dfy ===
/**
 * `!etop` (`bot/src/modules/etop.rs`): the channel's most (or least) used 7TV
 * emotes. Usages are tallied per emote name, keeping the largest count, then
 * sorted, cut to the requested amount and listed as `name (count)`.
 */
module EmoteTopCommand {
  import opened Options
  import opened Text
  import opened Models
  import opened Commands
  import opened Stats
  import Localization

  /** One line of the ranking: an emote name and its count. */
  datatype Tally = Tally(name: string, count: int)

  datatype Outcome = Replied(result: Result<Response, ResponseError>) | Panicked

  const DEFAULT_AMOUNT: nat := 10
  const MAX_AMOUNT: nat := 50

  // ---------------------------------------------------------------------
  // Arguments
  // ---------------------------------------------------------------------

  /** The sort order: `asc` only when asked for, descending otherwise (including when no subcommand is given). */
  function Ascending(subcommandId: Option<string>): (asc: bool)
    ensures asc <==> subcommandId == Some("asc")
  {
    subcommandId.GetOr("desc") == "asc"
  }

  /**
   * The channel to rank and the requested amount. A first word that is a
   * `usize` is the amount (the channel is then the current one); otherwise it
   * names the channel. A `usize` second word overrides the amount.
   */
  function Arguments(message: Option<string>, channelName: string): (r: (string, nat))
  {
    var words := Words(message.GetOr(""));
    var first := if |words| >= 1 then ParseUnsigned(words[0], U64_LIMIT) else None;
    var second := if |words| >= 2 then ParseUnsigned(words[1], U64_LIMIT) else None;
    var origin := if |words| == 0 || first.Some? then channelName else words[0];
    var amount := if second.Some? then second.value else if first.Some? then first.value else DEFAULT_AMOUNT;
    (origin, amount)
  }

  /** With no message, the current channel and ten emotes. */
  lemma ArgumentsDefault(channelName: string)
    ensures Arguments(None, channelName) == (channelName, DEFAULT_AMOUNT)
  {
    assert Words("") == [];
  }

  /** `etop N` ranks N emotes of the current channel. */
  lemma ArgumentsAmountOnly(n: nat, channelName: string)
    requires n < U64_LIMIT
    ensures Arguments(Some(NatToString(n)), channelName) == (channelName, n)
  {
    NatToStringIsWord(n);
    WordsOfWord(NatToString(n));
    ParseNatToString(n, U64_LIMIT);
  }

  /** `etop name N` ranks N emotes of the named channel, when the name is not itself a number. */
  lemma ArgumentsNameAndAmount(name: string, n: nat, channelName: string)
    requires IsWord(name) && ParseUnsigned(name, U64_LIMIT).None?
    requires n < U64_LIMIT
    ensures Arguments(Some(name + " " + NatToString(n)), channelName) == (name, n)
  {
    NatToStringIsWord(n);
    WordsOfPair(name, NatToString(n));
    ParseNatToString(n, U64_LIMIT);
  }

  /** A numeric second word wins over a numeric first word. */
  lemma ArgumentsSecondAmountWins(m: nat, n: nat, channelName: string)
    requires m < U64_LIMIT && n < U64_LIMIT
    ensures Arguments(Some(NatToString(m) + " " + NatToString(n)), channelName) == (channelName, n)
  {
    NatToStringIsWord(m);
    NatToStringIsWord(n);
    WordsOfPair(NatToString(m), NatToString(n));
    ParseNatToString(m, U64_LIMIT);
    ParseNatToString(n, U64_LIMIT);
  }

  // ---------------------------------------------------------------------
  // Tallying
  // ---------------------------------------------------------------------

  /** The count recorded for a name (the first entry with it). */
  function CountOf(ts: seq<Tally>, name: string): (r: Option<int>)
    ensures r.None? <==> forall i :: 0 <= i < |ts| ==> ts[i].name != name
    ensures r.Some? ==> exists i :: 0 <= i < |ts| && ts[i] == Tally(name, r.value)
  {
    if |ts| == 0 then None
    else if ts[0].name == name then Some(ts[0].count)
    else
      var r := CountOf(ts[1..], name);
      if r.Some? then
        var i :| 0 <= i < |ts[1..]| && ts[1..][i] == Tally(name, r.value);
        assert ts[i + 1] == Tally(name, r.value);
        r
      else r
  }

  predicate DistinctNames(ts: seq<Tally>)
  {
    forall i, j :: 0 <= i < j < |ts| ==> ts[i].name != ts[j].name
  }

  /** In a list without repeated names, each entry is the one `CountOf` finds. */
  lemma {:induction false} CountOfDistinct(ts: seq<Tally>, i: nat)
    requires DistinctNames(ts) && i < |ts|
    ensures CountOf(ts, ts[i].name) == Some(ts[i].count)
  {
    if i > 0 {
      assert ts[0].name != ts[i].name;
      assert ts[1..][i - 1] == ts[i];
      CountOfDistinct(ts[1..], i - 1);
    }
  }

  function Max(a: int, b: int): int
  {
    if a < b then b else a
  }

  /**
   * One usage of an emote called `name`: the entry with that name keeps the
   * larger of its count and `count`; a name not seen before is appended.
   */
  function AddUsage(ts: seq<Tally>, name: string, count: int): (r: seq<Tally>)
    ensures CountOf(ts, name).None? ==> r == ts + [Tally(name, count)]
  {
    if |ts| == 0 then [Tally(name, count)]
    else if ts[0].name == name then [Tally(name, Max(ts[0].count, count))] + ts[1..]
    else [ts[0]] + AddUsage(ts[1..], name, count)
  }

  /** The entry for `name` keeps the larger count, and every other name keeps its count. */
  lemma {:induction false} AddUsageCounts(ts: seq<Tally>, name: string, count: int)
    ensures CountOf(AddUsage(ts, name, count), name)
            == Some(if CountOf(ts, name).Some? then Max(CountOf(ts, name).value, count) else count)
    ensures forall n :: n != name ==> CountOf(AddUsage(ts, name, count), n) == CountOf(ts, n)
  {
    var r := AddUsage(ts, name, count);
    if |ts| > 0 {
      if ts[0].name == name {
        assert r[1..] == ts[1..];
      } else {
        AddUsageCounts(ts[1..], name, count);
        assert r[1..] == AddUsage(ts[1..], name, count);
      }
    }
  }

  /** A head whose name is not in a list without repeats keeps it without repeats. */
  lemma DistinctCons(h: Tally, rest: seq<Tally>)
    requires DistinctNames(rest)
    requires CountOf(rest, h.name).None?
    ensures DistinctNames([h] + rest)
  {
    var r := [h] + rest;
    forall i, j | 0 <= i < j < |r|
      ensures r[i].name != r[j].name
    {
      assert r[j] == rest[j - 1];
      if i > 0 {
        assert r[i] == rest[i - 1];
      }
    }
  }

  /** The tail of a list without repeats has none, and does not hold the head's name. */
  lemma DistinctTail(ts: seq<Tally>)
    requires DistinctNames(ts) && |ts| > 0
    ensures DistinctNames(ts[1..])
    ensures CountOf(ts[1..], ts[0].name).None?
  {
    forall k | 0 <= k < |ts[1..]|
      ensures ts[1..][k].name != ts[0].name
    {
      assert ts[1..][k] == ts[k + 1];
    }
    forall i, j | 0 <= i < j < |ts[1..]|
      ensures ts[1..][i].name != ts[1..][j].name
    {
      assert ts[1..][i] == ts[i + 1] && ts[1..][j] == ts[j + 1];
    }
  }

  /** Adding a usage never repeats a name. */
  lemma {:induction false} AddUsageDistinct(ts: seq<Tally>, name: string, count: int)
    requires DistinctNames(ts)
    ensures DistinctNames(AddUsage(ts, name, count))
  {
    if |ts| > 0 {
      DistinctTail(ts);
      if ts[0].name == name {
        DistinctCons(Tally(name, Max(ts[0].count, count)), ts[1..]);
      } else {
        var rest := AddUsage(ts[1..], name, count);
        AddUsageDistinct(ts[1..], name, count);
        AddUsageCounts(ts[1..], name, count);
        DistinctCons(ts[0], rest);
      }
    }
  }

  /** The usage counts for an emote called `name`: usages whose id is a channel emote of that name. */
  predicate Counts(emotes: seq<ChannelEmote>, u: EmoteUsage, name: string)
  {
    EmoteById(emotes, u.emoteId).Some? && EmoteById(emotes, u.emoteId).value.name == name
  }

  /** The loop over usages: a usage whose id is not a channel emote is skipped. */
  function Aggregate(emotes: seq<ChannelEmote>, usages: seq<EmoteUsage>): (r: seq<Tally>)
    decreases |usages|
  {
    if |usages| == 0 then []
    else
      var acc := Aggregate(emotes, usages[..|usages| - 1]);
      var u := usages[|usages| - 1];
      match EmoteById(emotes, u.emoteId)
      case None => acc
      case Some(e) => AddUsage(acc, e.name, u.usageCount)
  }

  /** The largest count among the usages counting for `name`, if any. */
  predicate IsMaxCount(emotes: seq<ChannelEmote>, usages: seq<EmoteUsage>, name: string, c: int)
  {
    (forall k :: 0 <= k < |usages| && Counts(emotes, usages[k], name) ==> usages[k].usageCount <= c)
    && exists k :: 0 <= k < |usages| && Counts(emotes, usages[k], name) && usages[k].usageCount == c
  }

  /** The tally never repeats a name. */
  lemma {:induction false} AggregateDistinct(emotes: seq<ChannelEmote>, usages: seq<EmoteUsage>)
    ensures DistinctNames(Aggregate(emotes, usages))
    decreases |usages|
  {
    if |usages| > 0 {
      var init := usages[..|usages| - 1];
      var u := usages[|usages| - 1];
      AggregateDistinct(emotes, init);
      match EmoteById(emotes, u.emoteId)
      case None =>
      case Some(e) => AddUsageDistinct(Aggregate(emotes, init), e.name, u.usageCount);
    }
  }

  /** A name is tallied iff some usage counts for it. */
  lemma {:induction false} AggregateHas(emotes: seq<ChannelEmote>, usages: seq<EmoteUsage>, name: string)
    ensures CountOf(Aggregate(emotes, usages), name).Some?
            <==> exists k :: 0 <= k < |usages| && Counts(emotes, usages[k], name)
    decreases |usages|
  {
    if |usages| > 0 {
      var init := usages[..|usages| - 1];
      var u := usages[|usages| - 1];
      AggregateHas(emotes, init, name);
      var acc := Aggregate(emotes, init);
      CountsSnoc(emotes, usages, name);
      match EmoteById(emotes, u.emoteId)
      case None =>
      case Some(e) => AddUsageCounts(acc, e.name, u.usageCount);
    }
  }

  /** Some usage counts for `name` iff one before the last does or the last does. */
  lemma CountsSnoc(emotes: seq<ChannelEmote>, usages: seq<EmoteUsage>, name: string)
    requires |usages| > 0
    ensures var init := usages[..|usages| - 1];
            (exists k :: 0 <= k < |usages| && Counts(emotes, usages[k], name))
            <==> (exists k :: 0 <= k < |init| && Counts(emotes, init[k], name)) || Counts(emotes, usages[|usages| - 1], name)
  {
    var init := usages[..|usages| - 1];
    if exists k :: 0 <= k < |init| && Counts(emotes, init[k], name) {
      var k :| 0 <= k < |init| && Counts(emotes, init[k], name);
      assert usages[k] == init[k];
    }
    if exists k :: 0 <= k < |usages| && Counts(emotes, usages[k], name) {
      var k :| 0 <= k < |usages| && Counts(emotes, usages[k], name);
      if k < |init| {
        assert usages[k] == init[k];
      }
    }
  }

  /** A usage that does not count for `name` leaves its maximum alone. */
  lemma MaxStepOther(emotes: seq<ChannelEmote>, init: seq<EmoteUsage>, u: EmoteUsage, name: string, c: int)
    requires !Counts(emotes, u, name) && IsMaxCount(emotes, init, name, c)
    ensures IsMaxCount(emotes, init + [u], name, c)
  {
    var usages := init + [u];
    var k :| 0 <= k < |init| && Counts(emotes, init[k], name) && init[k].usageCount == c;
    assert usages[k] == init[k];
    forall j | 0 <= j < |usages| && Counts(emotes, usages[j], name)
      ensures usages[j].usageCount <= c
    {
      if j < |init| {
        assert usages[j] == init[j];
      }
    }
  }

  /** A usage that counts for `name` raises its maximum to the larger of the two. */
  lemma MaxStepSame(emotes: seq<ChannelEmote>, init: seq<EmoteUsage>, u: EmoteUsage, name: string, c: int)
    requires Counts(emotes, u, name) && IsMaxCount(emotes, init, name, c)
    ensures IsMaxCount(emotes, init + [u], name, Max(c, u.usageCount))
  {
    var usages := init + [u];
    assert usages[|init|] == u;
    var k :| 0 <= k < |init| && Counts(emotes, init[k], name) && init[k].usageCount == c;
    assert usages[k] == init[k];
    forall j | 0 <= j < |usages| && Counts(emotes, usages[j], name)
      ensures usages[j].usageCount <= Max(c, u.usageCount)
    {
      if j < |init| {
        assert usages[j] == init[j];
      }
    }
  }

  /** The first usage that counts for `name` is its maximum. */
  lemma MaxStepFirst(emotes: seq<ChannelEmote>, init: seq<EmoteUsage>, u: EmoteUsage, name: string)
    requires Counts(emotes, u, name)
    requires forall k :: 0 <= k < |init| ==> !Counts(emotes, init[k], name)
    ensures IsMaxCount(emotes, init + [u], name, u.usageCount)
  {
    var usages := init + [u];
    assert usages[|init|] == u;
    assert forall j :: 0 <= j < |init| ==> usages[j] == init[j];
  }

  /** A tallied name carries the largest count among the usages that count for it. */
  lemma {:induction false} AggregateMax(emotes: seq<ChannelEmote>, usages: seq<EmoteUsage>, name: string)
    ensures CountOf(Aggregate(emotes, usages), name).Some?
            ==> IsMaxCount(emotes, usages, name, CountOf(Aggregate(emotes, usages), name).value)
    decreases |usages|
  {
    if |usages| > 0 {
      var init := usages[..|usages| - 1];
      var u := usages[|usages| - 1];
      assert usages == init + [u];
      AggregateMax(emotes, init, name);
      AggregateHas(emotes, init, name);
      var acc := Aggregate(emotes, init);
      match EmoteById(emotes, u.emoteId)
      case None =>
        if CountOf(acc, name).Some? {
          MaxStepOther(emotes, init, u, name, CountOf(acc, name).value);
        }
      case Some(e) =>
        AddUsageCounts(acc, e.name, u.usageCount);
        if e.name != name {
          if CountOf(acc, name).Some? {
            MaxStepOther(emotes, init, u, name, CountOf(acc, name).value);
          }
        } else if CountOf(acc, name).Some? {
          MaxStepSame(emotes, init, u, name, CountOf(acc, name).value);
        } else {
          MaxStepFirst(emotes, init, u, name);
        }
    }
  }

  // ---------------------------------------------------------------------
  // Sorting and cutting
  // ---------------------------------------------------------------------

  /** The sort key: the count for ascending order, its negation for descending. */
  function Key(t: Tally, asc: bool): int
  {
    if asc then t.count else -t.count
  }

  predicate Sorted(ts: seq<Tally>, asc: bool)
  {
    forall i, j :: 0 <= i < j < |ts| ==> Key(ts[i], asc) <= Key(ts[j], asc)
  }

  /** Insert before the first entry that does not rank before `t`. */
  function Insert(t: Tally, ts: seq<Tally>, asc: bool): (r: seq<Tally>)
    requires Sorted(ts, asc)
    ensures Sorted(r, asc)
    ensures multiset(r) == multiset(ts) + multiset{t}
    ensures r[0] == t || (|ts| > 0 && r[0] == ts[0])
  {
    if |ts| == 0 || Key(t, asc) <= Key(ts[0], asc) then
      SortedCons(t, ts, asc);
      [t] + ts
    else
      var rest := Insert(t, ts[1..], asc);
      assert ts == [ts[0]] + ts[1..];
      SortedCons(ts[0], rest, asc);
      [ts[0]] + rest
  }

  /** A head no later than the first entry of a sorted list keeps it sorted. */
  lemma SortedCons(h: Tally, ts: seq<Tally>, asc: bool)
    requires Sorted(ts, asc)
    requires |ts| > 0 ==> Key(h, asc) <= Key(ts[0], asc)
    ensures Sorted([h] + ts, asc)
  {
    var r := [h] + ts;
    forall i, j | 0 <= i < j < |r|
      ensures Key(r[i], asc) <= Key(r[j], asc)
    {
      if i == 0 && j > 1 {
        assert r[j] == ts[j - 1] && r[1] == ts[0];
      }
    }
  }

  /** `sort_by` on the counts, ascending or descending. */
  function Sort(ts: seq<Tally>, asc: bool): (r: seq<Tally>)
    ensures Sorted(r, asc)
    ensures multiset(r) == multiset(ts)
  {
    if |ts| == 0 then []
    else
      assert ts == [ts[0]] + ts[1..];
      Insert(ts[0], Sort(ts[1..], asc), asc)
  }

  /** The amount after capping at 50 and at the number of tallied names. */
  function Clamp(amount: nat, available: nat): (n: nat)
    ensures n <= amount && n <= MAX_AMOUNT && n <= available
    ensures n == amount || n == MAX_AMOUNT || n == available
  {
    var capped := if amount > MAX_AMOUNT then MAX_AMOUNT else amount;
    if capped > available then available else capped
  }

  /** The ranking shown: the first `Clamp(amount, …)` entries of the sorted tally. */
  function Top(ts: seq<Tally>, asc: bool, amount: nat): (r: seq<Tally>)
  {
    var sorted := Sort(ts, asc);
    sorted[..Clamp(amount, |sorted|)]
  }

  /** Elements of a multiset-equal sequence are the same elements. */
  lemma SameElements(a: seq<Tally>, b: seq<Tally>)
    requires multiset(a) == multiset(b)
    ensures forall x :: x in a <==> x in b
  {
    forall x
      ensures x in a <==> x in b
    {
      assert x in a <==> x in multiset(a);
      assert x in b <==> x in multiset(b);
    }
  }

  /**
   * The ranking has `min(amount, 50, names)` entries, in order, each a tallied
   * name with its count, and no entry left out ranks before one shown.
   */
  lemma TopSpec(ts: seq<Tally>, asc: bool, amount: nat)
    ensures var top := Top(ts, asc, amount);
            |top| == Clamp(amount, |ts|)
            && Sorted(top, asc)
            && (forall i :: 0 <= i < |top| ==> top[i] in ts)
            && (forall x, i :: x in ts && x !in top && 0 <= i < |top| && |top| < |ts| ==> Key(top[i], asc) <= Key(x, asc))
  {
    var sorted := Sort(ts, asc);
    var top := Top(ts, asc, amount);
    var n := Clamp(amount, |sorted|);
    assert |sorted| == |ts| by {
      assert |multiset(sorted)| == |multiset(ts)|;
    }
    SameElements(sorted, ts);
    assert top == sorted[..n];
    forall x, i | x in ts && x !in top && 0 <= i < |top| && |top| < |ts|
      ensures Key(top[i], asc) <= Key(x, asc)
    {
      assert x in sorted;
      var j :| 0 <= j < |sorted| && sorted[j] == x;
      assert forall k :: 0 <= k < n ==> sorted[k] == top[k] && top[k] in top;
      assert sorted[i] == top[i];
    }
    forall i | 0 <= i < |top|
      ensures top[i] in ts
    {
      assert top[i] == sorted[i];
    }
  }

  /** A tallied list sorts into a list that still has distinct names. */
  lemma SortKeepsDistinct(ts: seq<Tally>, asc: bool)
    requires DistinctNames(ts)
    ensures DistinctNames(Sort(ts, asc))
  {
    var r := Sort(ts, asc);
    assert |r| == |ts| by {
      assert |multiset(r)| == |multiset(ts)|;
    }
    forall i, j | 0 <= i < j < |r|
      ensures r[i].name != r[j].name
    {
      if r[i].name == r[j].name {
        DuplicateCounted(ts, r, i, j);
      }
    }
  }

  /** Two positions of a permutation holding the same name would need that name twice in the original. */
  lemma DuplicateCounted(ts: seq<Tally>, r: seq<Tally>, i: nat, j: nat)
    requires DistinctNames(ts) && multiset(r) == multiset(ts)
    requires i < j < |r|
    ensures r[i].name != r[j].name
  {
    SameElements(r, ts);
    assert r[i] in ts && r[j] in ts;
    var a :| 0 <= a < |ts| && ts[a] == r[i];
    var b :| 0 <= b < |ts| && ts[b] == r[j];
    if r[i] == r[j] {
      assert r == r[..j] + [r[j]] + r[j + 1..];
      assert r[i] in r[..j];
      assert multiset(r)[r[i]] >= 2 by {
        assert multiset(r) == multiset(r[..j]) + multiset{r[j]} + multiset(r[j + 1..]);
        assert multiset(r[..j])[r[i]] >= 1;
      }
      OnceInDistinct(ts, a);
    } else if a != b {
      assert ts[a].name != ts[b].name;
    }
  }

  /** A list with distinct names holds each of its entries once. */
  lemma OnceInDistinct(ts: seq<Tally>, a: nat)
    requires DistinctNames(ts) && a < |ts|
    ensures multiset(ts)[ts[a]] == 1
  {
    assert ts == ts[..a] + [ts[a]] + ts[a + 1..];
    assert ts[a] !in ts[..a] by {
      forall k | 0 <= k < a
        ensures ts[..a][k] != ts[a]
      {
        assert ts[k].name != ts[a].name;
      }
    }
    assert ts[a] !in ts[a + 1..] by {
      forall k | a < k < |ts|
        ensures ts[k] != ts[a]
      {
        assert ts[k].name != ts[a].name;
      }
      var tail := ts[a + 1..];
      forall x | x in tail
        ensures x != ts[a]
      {
        var k :| 0 <= k < |tail| && tail[k] == x;
        assert x == ts[a + 1 + k];
      }
    }
    assert multiset(ts) == multiset(ts[..a]) + multiset{ts[a]} + multiset(ts[a + 1..]);
  }

  // ---------------------------------------------------------------------
  // The reply
  // ---------------------------------------------------------------------

  /** `"{name} ({count})"`. */
  function Entry(t: Tally): (s: string)
    ensures s == t.name + " (" + IntToString(t.count) + ")"
  {
    t.name + " (" + IntToString(t.count) + ")"
  }

  function Entries(ts: seq<Tally>): (r: seq<string>)
    ensures |r| == |ts|
    ensures forall i :: 0 <= i < |ts| ==> r[i] == Entry(ts[i])
  {
    if |ts| == 0 then [] else [Entry(ts[0])] + Entries(ts[1..])
  }

  /** What the command reads besides the request. */
  datatype Inputs = Inputs(
    userFound: bool,
    emotes: Option<StatsResponse<seq<ChannelEmote>>>,
    usages: Option<StatsResponse<seq<EmoteUsage>>>)

  /** A reply that needs localized words: a missing one is an `unwrap` on `None`. */
  function Reply(locales: Localization.Locales<Localization.LineId>, lang: string, origin: string,
                 asc: bool, top: seq<Tally>): (r: Outcome)
    ensures Localization.GetLiteralText(locales, lang, Localization.Provider7TV).None? ==> r == Panicked
  {
    var provider := Localization.GetLiteralText(locales, lang, Localization.Provider7TV);
    var order := Localization.GetLiteralText(locales, lang,
                   if asc then Localization.MiscAscending else Localization.MiscDescending);
    if provider.None? then Panicked
    else if |top| == 0 then
      Replied(Ok(Single(ByRequest(Localization.EmoteTopNoEmotes, [provider.value, origin]))))
    else if order.None? then Panicked
    else
      Replied(Ok(Single(ByRequest(Localization.EmoteTopResponse,
        [provider.value, origin, NatToString(|top|), order.value, Join(Entries(top), ", ")]))))
  }

  function Execute(request: Request, locales: Localization.Locales<Localization.LineId>, inputs: Inputs): (r: Outcome)
    ensures !inputs.userFound ==> r == Replied(Err(NotFound(Arguments(request.message, request.channel.aliasName).0)))
    ensures inputs.userFound && inputs.emotes.None? ==> r == Replied(Err(SomethingWentWrong))
    ensures inputs.userFound && inputs.emotes.Some? && inputs.emotes.value.statusCode != STATUS_OK ==>
              r == Replied(Err(ExternalApiError(inputs.emotes.value.statusCode, inputs.emotes.value.message)))
    ensures inputs.userFound && inputs.emotes.Some? && inputs.emotes.value.statusCode == STATUS_OK ==>
              (inputs.usages.None? ==> r == Replied(Err(SomethingWentWrong)))
              && (inputs.usages.Some? && inputs.usages.value.statusCode != STATUS_OK ==>
                    r == Replied(Err(ExternalApiError(inputs.usages.value.statusCode, inputs.usages.value.message))))
    ensures r.Replied? && r.result.Ok? ==> inputs.userFound && inputs.emotes.Some? && inputs.usages.Some?
  {
    var (origin, amount) := Arguments(request.message, request.channel.aliasName);
    if !inputs.userFound then Replied(Err(NotFound(origin)))
    else if inputs.emotes.None? then Replied(Err(SomethingWentWrong))
    else if inputs.emotes.value.statusCode != STATUS_OK then
      Replied(Err(ExternalApiError(inputs.emotes.value.statusCode, inputs.emotes.value.message)))
    else if inputs.usages.None? then Replied(Err(SomethingWentWrong))
    else if inputs.usages.value.statusCode != STATUS_OK then
      Replied(Err(ExternalApiError(inputs.usages.value.statusCode, inputs.usages.value.message)))
    else
      var asc := Ascending(request.subcommandId);
      var tallies := Aggregate(inputs.emotes.value.data.GetOr([]), inputs.usages.value.data.GetOr([]));
      Reply(locales, request.channelPreference.language, origin, asc, Top(tallies, asc, amount))
  }

  /** A ranking reply: no emotes iff the ranking is empty; otherwise its length and its entries. */
  lemma ReplyShape(locales: Localization.Locales<Localization.LineId>, lang: string, origin: string,
                   asc: bool, top: seq<Tally>)
    ensures var r := Reply(locales, lang, origin, asc, top);
            r.Replied? ==>
              r.result.Ok? && r.result.value.Single? && r.result.value.text.ByRequest?
              && (r.result.value.text.id == Localization.EmoteTopNoEmotes <==> |top| == 0)
              && (r.result.value.text.id == Localization.EmoteTopResponse ==>
                    r.result.value.text.parameters == [Localization.GetLiteralText(locales, lang, Localization.Provider7TV).value,
                      origin, NatToString(|top|),
                      Localization.GetLiteralText(locales, lang, if asc then Localization.MiscAscending else Localization.MiscDescending).value,
                      Join(Entries(top), ", ")])
  {
  }

  /**
   * With both responses in, the reply ranks `Top` of their tally, and the
   * amount it reports is the clamped one.
   */
  lemma ExecuteRanksTop(request: Request, locales: Localization.Locales<Localization.LineId>, inputs: Inputs)
    requires inputs.userFound && inputs.emotes.Some? && inputs.usages.Some?
    requires inputs.emotes.value.statusCode == STATUS_OK && inputs.usages.value.statusCode == STATUS_OK
    ensures var tallies := Aggregate(inputs.emotes.value.data.GetOr([]), inputs.usages.value.data.GetOr([]));
            var args := Arguments(request.message, request.channel.aliasName);
            var asc := Ascending(request.subcommandId);
            var top := Top(tallies, asc, args.1);
            Execute(request, locales, inputs) == Reply(locales, request.channelPreference.language, args.0, asc, top)
            && |top| == Clamp(args.1, |tallies|)
  {
    var tallies := Aggregate(inputs.emotes.value.data.GetOr([]), inputs.usages.value.data.GetOr([]));
    TopSpec(tallies, Ascending(request.subcommandId), Arguments(request.message, request.channel.aliasName).1);
  }
}

=== FILE: event_command.dfy ===
/**
 * `!event` (`bot/src/modules/event.rs`): moderators create (`on`), delete
 * (`off`), trigger (`call`) and flag (`flag`) the channel's stream events. The
 * Twitch lookup, the database rows and the chatter list are inputs; the
 * database writes and the registration with the EventSub client are returned
 * as effects, in the order they are made.
 */
module EventCommand {
  import opened Options
  import opened Text
  import opened Models
  import opened Commands
  import opened EventTargets
  import Localization
  import Handlers
  import Utils

  /** A change the command makes outside its reply. */
  datatype Effect =
      InsertEvent(channelId: int, targetAliasId: Option<int>, customAliasId: Option<string>,
                  eventType: EventType, message: string)
    | DeleteSubscription(subscriptionId: int)
    | DeleteEvent(eventId: int)
    | SetFlags(eventId: int, flags: seq<EventFlag>)
    | WatchChannel(aliasId: int)

  datatype Outcome = Outcome(result: Result<Response, ResponseError>, effects: seq<Effect>)

  /** What the command reads: the Twitch user lookup, the channel's events, the subscription and user tables, the chatters. */
  datatype Inputs = Inputs(
    lookup: Option<string>,
    events: seq<Event>,
    subscriptions: seq<EventSubscription>,
    users: seq<User>,
    chatters: Option<seq<string>>,
    order: seq<string>)

  function Fail(e: ResponseError): Outcome
  {
    Outcome(Err(e), [])
  }

  // ---------------------------------------------------------------------
  // flag
  // ---------------------------------------------------------------------

  /** Position of the first `f` in `flags`. */
  function Position<T(==)>(flags: seq<T>, f: T): (r: Option<nat>)
    ensures r.Some? ==> r.value < |flags| && flags[r.value] == f
    ensures r.Some? ==> forall j :: 0 <= j < r.value ==> flags[j] != f
    ensures r.None? <==> f !in flags
  {
    if |flags| == 0 then None
    else if flags[0] == f then Some(0)
    else match Position(flags[1..], f)
      case None => None
      case Some(i) => Some(i + 1)
  }

  /** The flag toggle: a present flag is removed at its first position, an absent one is appended. */
  function Toggle<T(==)>(flags: seq<T>, f: T): (r: seq<T>)
    ensures f !in flags ==> r == flags + [f]
    ensures f in flags ==> multiset(r) == multiset(flags) - multiset{f}
    ensures f in flags ==> |r| == |flags| - 1
  {
    match Position(flags, f)
    case None => flags + [f]
    case Some(i) =>
      assert flags == flags[..i] + [flags[i]] + flags[i + 1..];
      flags[..i] + flags[i + 1..]
  }

  /** Toggling twice restores the flag's membership, whatever else is in the list. */
  lemma ToggleTwice<T>(flags: seq<T>, f: T)
    requires multiset(flags)[f] <= 1
    ensures (f in Toggle(Toggle(flags, f), f)) <==> (f in flags)
    ensures (f in Toggle(flags, f)) <==> (f !in flags)
  {
    var once := Toggle(flags, f);
    if f in flags {
      assert multiset(once)[f] == 0;
      assert f !in multiset(once);
    } else {
      assert once[|flags|] == f;
    }
  }

  // ---------------------------------------------------------------------
  // execute
  // ---------------------------------------------------------------------

  /** The subscriptions of one event. */
  function SubscriptionsOf(subs: seq<EventSubscription>, eventId: int): (r: seq<EventSubscription>)
    ensures forall y :: y in r <==> y in subs && y.eventId == eventId
    ensures |r| <= |subs|
  {
    if |subs| == 0 then []
    else
      var rest := SubscriptionsOf(subs[1..], eventId);
      assert forall y :: y in subs <==> y == subs[0] || y in subs[1..];
      if subs[0].eventId == eventId then [subs[0]] + rest else rest
  }

  function DeleteEach(subs: seq<EventSubscription>): (r: seq<Effect>)
    ensures |r| == |subs|
    ensures forall k :: 0 <= k < |subs| ==> r[k] == DeleteSubscription(subs[k].id)
  {
    if |subs| == 0 then [] else [DeleteSubscription(subs[0].id)] + DeleteEach(subs[1..])
  }

  /**
   * `call`: the event's subscribers, plus every chatter for a massping event,
   * announced with the event's raw message; a failed chatter lookup is
   * reported as missing rights.
   */
  function Call(e: Event, inputs: Inputs): (r: Outcome)
    ensures r.effects == []
    ensures Massping in e.flags && inputs.chatters.None? ==> r.result == Err(InsufficientRights)
    ensures r.result.Ok? ==> r.result.value == Single(Raw(Handlers.ZAP + " " + e.message))
                             || (r.result.value.Multiple? && |r.result.value.texts| >= 1)
  {
    var subs := SubscriptionsOf(inputs.subscriptions, e.id);
    match Handlers.Audience(inputs.users, subs, Massping in e.flags, inputs.chatters)
    case None => Fail(InsufficientRights)
    case Some(audience) =>
      if audience == {} then Outcome(Ok(Single(Raw(Handlers.ZAP + " " + e.message))), [])
      else Outcome(Ok(Multiple(RawTexts(Handlers.Announce(e.message, audience, inputs.order)))), [])
  }

  /** `on` for a target with no event yet: the rest of the message is the event's text. */
  function On(request: Request, t: EventTarget, targetId: int): (r: Outcome)
    ensures t.rest == "" ==> r == Fail(NotEnoughArguments(Message))
    ensures t.rest != "" ==> r.result == Ok(Single(ByRequest(Localization.EventOn, [t.name, EventTypeToString(t.eventType)])))
    ensures t.rest != "" ==> |r.effects| >= 1 && r.effects[0].InsertEvent? && r.effects[0].message == t.rest
    ensures t.rest != "" && t.eventType != Custom ==>
              r.effects[0].targetAliasId == Some(targetId) && r.effects[0].customAliasId == None
    ensures t.rest != "" && t.eventType == Custom ==>
              r.effects[0].targetAliasId == None && r.effects[0].customAliasId == Some(t.name)
    ensures WatchChannel(targetId) in r.effects <==> t.rest != "" && t.eventType != Custom && targetId != -1
  {
    if t.rest == "" then Fail(NotEnoughArguments(Message))
    else
      var insert := InsertEvent(
        request.channel.id,
        if t.eventType != Custom then Some(targetId) else None,
        if t.eventType == Custom then Some(t.name) else None,
        t.eventType,
        t.rest);
      var watch := if t.eventType != Custom && targetId != -1 then [WatchChannel(targetId)] else [];
      Outcome(Ok(Single(ByRequest(Localization.EventOn, [t.name, EventTypeToString(t.eventType)]))), [insert] + watch)
  }

  /** The deletions for an event's subscriptions name exactly that event's subscriptions. */
  lemma DeletesCoverEvent(all: seq<EventSubscription>, eventId: int)
    ensures var deletes := DeleteEach(SubscriptionsOf(all, eventId));
            && (forall y :: y in all && y.eventId == eventId ==> DeleteSubscription(y.id) in deletes)
            && (forall k :: 0 <= k < |deletes| ==>
                  exists y :: y in all && y.eventId == eventId && deletes[k] == DeleteSubscription(y.id))
  {
    var subs := SubscriptionsOf(all, eventId);
    var deletes := DeleteEach(subs);
    forall y | y in all && y.eventId == eventId
      ensures DeleteSubscription(y.id) in deletes
    {
      var k :| 0 <= k < |subs| && subs[k] == y;
      assert deletes[k] == DeleteSubscription(y.id);
    }
    forall k | 0 <= k < |deletes|
      ensures exists y :: y in all && y.eventId == eventId && deletes[k] == DeleteSubscription(y.id)
    {
      assert subs[k] in subs;
    }
  }

  /** `off` for an existing event: each of its subscriptions is deleted, then the event. */
  function Off(t: EventTarget, e: Event, inputs: Inputs): (r: Outcome)
    ensures r.result == Ok(Single(ByRequest(Localization.EventOff, [t.name, EventTypeToString(t.eventType)])))
    ensures |r.effects| >= 1 && r.effects[|r.effects| - 1] == DeleteEvent(e.id)
    ensures forall y :: y in inputs.subscriptions && y.eventId == e.id ==> DeleteSubscription(y.id) in r.effects
    ensures forall k :: 0 <= k < |r.effects| - 1 ==>
              exists y :: y in inputs.subscriptions && y.eventId == e.id && r.effects[k] == DeleteSubscription(y.id)
  {
    var deletes := DeleteEach(SubscriptionsOf(inputs.subscriptions, e.id));
    DeletesCoverEvent(inputs.subscriptions, e.id);
    var effects := deletes + [DeleteEvent(e.id)];
    assert forall k :: 0 <= k < |deletes| ==> effects[k] == deletes[k];
    assert forall x :: x in deletes ==> x in effects;
    Outcome(Ok(Single(ByRequest(Localization.EventOff, [t.name, EventTypeToString(t.eventType)]))), effects)
  }

  /** `flag` on an existing event: the rest of the message must name a flag, which is toggled. */
  function Flag(t: EventTarget, e: Event): (r: Outcome)
    ensures EventFlagFromStr(t.rest).None? ==> r == Fail(IncorrectArgument(t.rest))
    ensures EventFlagFromStr(t.rest).Some? ==>
              var f := EventFlagFromStr(t.rest).value;
              && r.effects == [SetFlags(e.id, Toggle(e.flags, f))]
              && r.result == Ok(Single(ByRequest(if f in e.flags then Localization.EventFlagOff else Localization.EventFlagOn,
                                                 [t.rest, t.name, EventTypeToString(t.eventType)])))
  {
    match EventFlagFromStr(t.rest)
    case None => Fail(IncorrectArgument(t.rest))
    case Some(f) =>
      var line := if Position(e.flags, f).Some? then Localization.EventFlagOff else Localization.EventFlagOn;
      Outcome(Ok(Single(ByRequest(line, [t.rest, t.name, EventTypeToString(t.eventType)]))),
              [SetFlags(e.id, Toggle(e.flags, f))])
  }

  /** The row `on` inserts carries the alias id its type is looked up by, so the lookup never panics on it. */
  lemma OnInsertsKeyed(request: Request, t: EventTarget, targetId: int, id: int)
    requires t.rest != ""
    ensures var ins := On(request, t, targetId).effects[0];
            Keyed(Event(id, ins.channelId, ins.targetAliasId, ins.customAliasId, ins.eventType, [], ins.message))
  {
  }

  /** `EventCommand::execute`; None stands for an `unwrap` panic: of the Twitch id parse or of the event lookup. */
  function Execute(request: Request, inputs: Inputs): (r: Option<Outcome>)
    ensures request.subcommandId.None? ==> r == Some(Fail(NotEnoughArguments(Subcommand)))
    ensures request.subcommandId.Some? && request.message.None? ==> r == Some(Fail(NotEnoughArguments(CommandArgument.Target)))
    ensures request.subcommandId.Some? && request.message.Some? && ParseTarget(request.message.value).Err? ==>
              r == Some(Fail(IncorrectArgument(Before(request.message.value, ' '))))
    ensures request.subcommandId.Some? && request.message.Some? && ParseTarget(request.message.value).Ok? ==>
              var t := ParseTarget(request.message.value).value;
              inputs.lookup.None? && t.eventType != Custom ==> r == Some(Fail(NotFound(t.name)))
    ensures r.Some? && r.value.result.Err? ==> r.value.effects == []
    ensures r.None? <==>
              && request.subcommandId.Some? && request.message.Some? && ParseTarget(request.message.value).Ok?
              && var t := ParseTarget(request.message.value).value;
                 && var id := ResolveTarget(t, inputs.lookup);
                    (id.None? || (id.value.Ok? && FindEventAsWritten(inputs.events, t, id.value.value).None?))
    ensures && (forall k :: 0 <= k < |inputs.events| ==> Keyed(inputs.events[k]))
            && (inputs.lookup.Some? ==> ParseI32(inputs.lookup.value).Some?)
            ==> r.Some?
  {
    match (request.subcommandId, request.message)
    case (None, _) => Some(Fail(NotEnoughArguments(Subcommand)))
    case (_, None) => Some(Fail(NotEnoughArguments(CommandArgument.Target)))
    case (Some(sub), Some(message)) =>
      match ParseTarget(message)
      case Err(err) => Some(Fail(err))
      case Ok(t) =>
        match ResolveTarget(t, inputs.lookup)
        case None => None
        case Some(Err(err)) => Some(Fail(err))
        case Some(Ok(targetId)) =>
          match FindEventAsWritten(inputs.events, t, targetId)
          case None => None
          case Some(found) =>
            Some(Dispatch(sub, request, t, targetId, found, inputs))
  }

  /** The `(subcommand, event found)` table; any pair not listed is `SomethingWentWrong`. */
  function Dispatch(sub: string, request: Request, t: EventTarget, targetId: int, found: Option<Event>,
                    inputs: Inputs): (r: Outcome)
    ensures sub == "on" && found.Some? ==> r == Fail(NamesakeCreation(NameAndType(t)))
    ensures sub == "off" && found.None? ==> r == Fail(NotFound(NameAndType(t)))
    ensures sub !in {"on", "off"} && found.None? ==> r == Fail(SomethingWentWrong)
    ensures sub !in {"on", "off", "call", "flag"} ==> r == Fail(SomethingWentWrong)
    ensures r.result.Err? ==> r.effects == []
  {
    match (sub, found)
    case ("call", Some(e)) => Call(e, inputs)
    case ("on", Some(_)) => Fail(NamesakeCreation(NameAndType(t)))
    case ("on", None) => On(request, t, targetId)
    case ("off", Some(e)) => Off(t, e, inputs)
    case ("off", None) => Fail(NotFound(NameAndType(t)))
    case ("flag", Some(e)) => Flag(t, e)
    case _ => Fail(SomethingWentWrong)
  }

  /**
   * The announcement `call` answers with for a non-empty audience: one raw line
   * per chunk, each the decorated message with the chunk's mentions, the chunks
   * being the wrapper's groups of the mentions in iteration order, and every
   * member of the audience in exactly one chunk.
   */
  lemma CallAnnouncesEveryone(e: Event, inputs: Inputs)
    requires Massping !in e.flags || inputs.chatters.Some?
    requires var a := Handlers.Audience(inputs.users, SubscriptionsOf(inputs.subscriptions, e.id), Massping in e.flags, inputs.chatters);
             a.Some? && a.value != {} && Handlers.Enumerates(inputs.order, a.value)
    requires forall k :: 0 <= k < |inputs.order| ==> !Contains(inputs.order[k], Handlers.MENTION_SEP)
    ensures Call(e, inputs).result.Ok? && Call(e, inputs).result.value.Multiple?
    ensures var a := Handlers.Audience(inputs.users, SubscriptionsOf(inputs.subscriptions, e.id), Massping in e.flags, inputs.chatters);
            var texts := Call(e, inputs).result.value.texts;
            var groups := Utils.WrapTokens(inputs.order, Handlers.MENTION_SEP, Handlers.Budget(e.message));
              && Utils.WrapShape(groups, Handlers.MENTION_SEP, Handlers.Budget(e.message))
              && Utils.Flatten(groups) == inputs.order
              && |texts| == |groups|
              && (forall k :: 0 <= k < |groups| ==>
                    texts[k] == Raw(Handlers.Decorated(e.message, Text.Join(groups[k], Handlers.MENTION_SEP))))
              && (forall m :: m in a.value ==> exists k :: 0 <= k < |groups| && m in groups[k])
              && (forall m, k1, k2 :: 0 <= k1 < k2 < |groups| && m in groups[k1] ==> m !in groups[k2])
  {
    var a := Handlers.Audience(inputs.users, SubscriptionsOf(inputs.subscriptions, e.id), Massping in e.flags, inputs.chatters);
    var lines := Handlers.Announce(e.message, a.value, inputs.order);
    assert Call(e, inputs).result.value == Multiple(RawTexts(lines));
    Handlers.AnnounceChunks(e.message, a.value, inputs.order);
  }
}

=== FILE: eventsub.dfy ===
/**
 * The Twitch EventSub client (`bot/src/websockets/livestream.rs`) as a pure
 * transition system. The shared registry holds two lists, the channels waiting
 * to be subscribed and the subscribed ones; with the session id and the
 * reconnect URL they are the whole state. The Helix calls' outcomes are inputs;
 * the calls made and the stream events raised are returned in order.
 */
module EventSub {
  import opened Options
  import opened Models

  type UserId = string

  datatype Registry = Registry(awaiting: seq<UserId>, listening: seq<UserId>)

  datatype Client = Client(registry: Registry, sessionId: Option<string>, reconnectUrl: string)

  /** What the client does to the outside, in order. */
  datatype Action =
      SubscribeOnline(channel: UserId, sessionId: string)   // `stream.online` over this websocket session
    | SubscribeOffline(channel: UserId, sessionId: string)  // `stream.offline`
    | StreamEvent(channel: UserId, eventType: EventType)   // `handle_stream_event`
    | Connect(url: string)

  datatype Status = Running | Failed

  datatype Step = Step(client: Client, actions: seq<Action>, status: Status)

  /** The outcomes of the Helix subscription calls: the channels whose online or offline subscription fails. */
  datatype Helix = Helix(onlineFails: set<UserId>, offlineFails: set<UserId>)

  // ---------------------------------------------------------------------
  // Lists
  // ---------------------------------------------------------------------

  /** The entries of `xs` not in `ys`, in order. */
  function Without(xs: seq<UserId>, ys: seq<UserId>): (r: seq<UserId>)
    ensures |r| <= |xs|
    ensures forall x :: x in r <==> x in xs && x !in ys
    ensures multiset(r) <= multiset(xs)
  {
    if |xs| == 0 then []
    else
      var rest := Without(xs[1..], ys);
      assert xs == [xs[0]] + xs[1..];
      if xs[0] in ys then rest else [xs[0]] + rest
  }

  /** `Vec::remove` at the first position holding `x`; unchanged when there is none. */
  function RemoveFirst(xs: seq<UserId>, x: UserId): (r: seq<UserId>)
    ensures x in xs ==> multiset(r) == multiset(xs) - multiset{x}
    ensures x !in xs ==> r == xs
    ensures |r| == if x in xs then |xs| - 1 else |xs|
  {
    if |xs| == 0 then []
    else if xs[0] == x then
      assert xs == [xs[0]] + xs[1..];
      xs[1..]
    else
      var rest := RemoveFirst(xs[1..], x);
      assert xs == [xs[0]] + xs[1..];
      [xs[0]] + rest
  }

  // ---------------------------------------------------------------------
  // Draining
  // ---------------------------------------------------------------------

  /**
   * `listen_channel`: with a session, subscribe the channel to `stream.online`
   * and then `stream.offline`; only when both succeed does its first waiting
   * entry move to the end of the subscribed list. An error changes neither list.
   */
  function Listen(c: Client, id: UserId, helix: Helix): (r: Step)
    ensures r.client.sessionId == c.sessionId && r.client.reconnectUrl == c.reconnectUrl && r.status == Running
    ensures c.sessionId.None? ==> r == Step(c, [], Running)
    ensures c.sessionId.Some? && (id in helix.onlineFails || id in helix.offlineFails) ==> r.client == c
    ensures c.sessionId.Some? && id !in helix.onlineFails && id !in helix.offlineFails ==>
              r.client.registry == Registry(RemoveFirst(c.registry.awaiting, id), c.registry.listening + [id])
    ensures c.sessionId.Some? ==>
              r.actions == [SubscribeOnline(id, c.sessionId.value)]
                           + (if id in helix.onlineFails then [] else [SubscribeOffline(id, c.sessionId.value)])
  {
    match c.sessionId
    case None => Step(c, [], Running)
    case Some(session) =>
      if id in helix.onlineFails then Step(c, [SubscribeOnline(id, session)], Running)
      else if id in helix.offlineFails then
        Step(c, [SubscribeOnline(id, session), SubscribeOffline(id, session)], Running)
      else
        var registry := Registry(RemoveFirst(c.registry.awaiting, id), c.registry.listening + [id]);
        Step(c.(registry := registry), [SubscribeOnline(id, session), SubscribeOffline(id, session)], Running)
  }

  /** Whether both subscriptions for the channel go through. */
  predicate Succeeds(id: UserId, helix: Helix)
  {
    id !in helix.onlineFails && id !in helix.offlineFails
  }

  /** The channels of `ids` whose subscriptions go through, in order. */
  function Successes(ids: seq<UserId>, helix: Helix): (r: seq<UserId>)
    ensures forall x :: x in r <==> x in ids && Succeeds(x, helix)
  {
    if |ids| == 0 then []
    else if Succeeds(ids[0], helix) then [ids[0]] + Successes(ids[1..], helix)
    else
      assert forall x :: x in ids[1..] ==> x in ids;
      Successes(ids[1..], helix)
  }

  /** Every removal `RemoveFirst` performs for these ids, in order. */
  function RemoveEach(xs: seq<UserId>, ids: seq<UserId>): seq<UserId>
    decreases |ids|
  {
    if |ids| == 0 then xs else RemoveEach(RemoveFirst(xs, ids[0]), ids[1..])
  }

  /**
   * Each candidate in turn; a failed channel is logged and skipped. The
   * successful ones are appended to the subscribed list in order and each takes
   * one waiting entry with it.
   */
  function ListenEach(c: Client, ids: seq<UserId>, helix: Helix): (r: Step)
    requires c.sessionId.Some?
    ensures r.client.sessionId == c.sessionId && r.client.reconnectUrl == c.reconnectUrl && r.status == Running
    ensures r.client.registry.listening == c.registry.listening + Successes(ids, helix)
    ensures r.client.registry.awaiting == RemoveEach(c.registry.awaiting, Successes(ids, helix))
    decreases |ids|
  {
    if |ids| == 0 then Step(c, [], Running)
    else
      var first := Listen(c, ids[0], helix);
      var rest := ListenEach(first.client, ids[1..], helix);
      assert c.registry.listening + [ids[0]] + Successes(ids[1..], helix)
          == c.registry.listening + ([ids[0]] + Successes(ids[1..], helix));
      Step(rest.client, first.actions + rest.actions, Running)
  }

  /**
   * `process_awaiting_channels`: nothing happens without waiting channels or
   * without a session; otherwise the waiting entries not already subscribed
   * are tried in order.
   */
  function Drain(c: Client, helix: Helix): (r: Step)
    ensures r.client.sessionId == c.sessionId && r.client.reconnectUrl == c.reconnectUrl && r.status == Running
    ensures |c.registry.awaiting| == 0 || c.sessionId.None? ==> r == Step(c, [], Running)
    ensures |c.registry.awaiting| > 0 && c.sessionId.Some? ==>
              var candidates := Without(c.registry.awaiting, c.registry.listening);
              && r.client.registry.listening == c.registry.listening + Successes(candidates, helix)
              && r.client.registry.awaiting == RemoveEach(c.registry.awaiting, Successes(candidates, helix))
  {
    if |c.registry.awaiting| == 0 || c.sessionId.None? then Step(c, [], Running)
    else ListenEach(c, Without(c.registry.awaiting, c.registry.listening), helix)
  }

  /** Taking a sub-multiset out one entry at a time removes exactly those entries. */
  lemma {:induction false} RemoveEachMultiset(xs: seq<UserId>, ids: seq<UserId>)
    requires multiset(ids) <= multiset(xs)
    ensures multiset(RemoveEach(xs, ids)) == multiset(xs) - multiset(ids)
    decreases |ids|
  {
    if |ids| > 0 {
      assert ids == [ids[0]] + ids[1..];
      assert ids[0] in multiset(ids);
      assert ids[0] in xs;
      var ys := RemoveFirst(xs, ids[0]);
      assert multiset(ids[1..]) <= multiset(ys);
      RemoveEachMultiset(ys, ids[1..]);
    }
  }

  lemma {:induction false} SuccessesSubmultiset(ids: seq<UserId>, helix: Helix)
    ensures multiset(Successes(ids, helix)) <= multiset(ids)
  {
    if |ids| > 0 {
      assert ids == [ids[0]] + ids[1..];
      SuccessesSubmultiset(ids[1..], helix);
    }
  }

  /**
   * A drain only moves channels: every id that was waiting or subscribed still
   * is, as often as before, in one list or the other.
   */
  lemma DrainKeepsIds(c: Client, helix: Helix)
    ensures var r := Drain(c, helix).client.registry;
            multiset(r.awaiting) + multiset(r.listening) == multiset(c.registry.awaiting) + multiset(c.registry.listening)
  {
    if |c.registry.awaiting| > 0 && c.sessionId.Some? {
      var candidates := Without(c.registry.awaiting, c.registry.listening);
      var moved := Successes(candidates, helix);
      SuccessesSubmultiset(candidates, helix);
      RemoveEachMultiset(c.registry.awaiting, moved);
    }
  }

  /**
   * When every subscription goes through, every channel still waiting after a
   * drain was already subscribed before it.
   */
  lemma DrainWithoutErrors(c: Client, helix: Helix, x: UserId)
    requires c.sessionId.Some?
    requires forall y :: y in c.registry.awaiting ==> Succeeds(y, helix)
    requires x in Drain(c, helix).client.registry.awaiting
    ensures x in c.registry.listening
  {
    var candidates := Without(c.registry.awaiting, c.registry.listening);
    var moved := Successes(candidates, helix);
    assert moved == candidates by {
      SuccessesAll(candidates, helix);
    }
    RemoveEachMultiset(c.registry.awaiting, moved);
    var after := Drain(c, helix).client.registry.awaiting;
    assert x in multiset(after);
    WithoutCount(c.registry.awaiting, c.registry.listening, x);
  }

  lemma {:induction false} SuccessesAll(ids: seq<UserId>, helix: Helix)
    requires forall y :: y in ids ==> Succeeds(y, helix)
    ensures Successes(ids, helix) == ids
  {
    if |ids| > 0 {
      assert forall y :: y in ids[1..] ==> y in ids;
      SuccessesAll(ids[1..], helix);
    }
  }

  /** An id outside `ys` occurs in `Without(xs, ys)` as often as in `xs`. */
  lemma {:induction false} WithoutCount(xs: seq<UserId>, ys: seq<UserId>, x: UserId)
    ensures x !in ys ==> multiset(Without(xs, ys))[x] == multiset(xs)[x]
  {
    if |xs| > 0 {
      assert xs == [xs[0]] + xs[1..];
      WithoutCount(xs[1..], ys, x);
    }
  }

  // ---------------------------------------------------------------------
  // Frames
  // ---------------------------------------------------------------------

  datatype Session = Session(id: string, reconnectUrl: Option<string>)

  /** The notification payloads the client tells apart; revocations and other subtypes are `OtherNotification`. */
  datatype Notification = StreamOnline(broadcasterId: UserId) | StreamOffline(broadcasterId: UserId) | OtherNotification

  datatype WebsocketData =
      Welcome(session: Session)
    | Reconnect(session: Session)
    | NotificationData(payload: Notification)
    | OtherData  // keepalive, revocation

  /** An incoming frame: text (None when it does not parse as EventSub data), or any other frame, Close included. */
  datatype Frame = TextFrame(data: Option<WebsocketData>) | OtherFrame

  /**
   * `process_welcome_message`, for Welcome and Reconnect alike: store the
   * session, take the frame's reconnect URL when it has one, then drain.
   */
  function Welcomed(c: Client, session: Session, helix: Helix): (r: Step)
    ensures r.client.sessionId == Some(session.id)
    ensures r.client.reconnectUrl == session.reconnectUrl.GetOr(c.reconnectUrl)
    ensures r == Drain(c.(sessionId := Some(session.id), reconnectUrl := session.reconnectUrl.GetOr(c.reconnectUrl)), helix)
  {
    Drain(c.(sessionId := Some(session.id), reconnectUrl := session.reconnectUrl.GetOr(c.reconnectUrl)), helix)
  }

  /**
   * `process_message`: text that does not parse is an error that ends `run`;
   * stream online and offline notifications become Live and Offline events;
   * every other frame changes nothing.
   */
  function ProcessMessage(c: Client, frame: Frame, helix: Helix): (r: Step)
    ensures frame == OtherFrame ==> r == Step(c, [], Running)
    ensures frame == TextFrame(None) ==> r == Step(c, [], Failed)
    ensures frame.TextFrame? && frame.data.Some? && frame.data.value.NotificationData? ==>
              && r.client == c && r.status == Running
              && r.actions == match frame.data.value.payload
                              case StreamOnline(id) => [StreamEvent(id, Live)]
                              case StreamOffline(id) => [StreamEvent(id, Offline)]
                              case OtherNotification => []
    ensures frame.TextFrame? && frame.data.Some? && (frame.data.value.Welcome? || frame.data.value.Reconnect?) ==>
              r == Welcomed(c, frame.data.value.session, helix)
    ensures frame == TextFrame(Some(OtherData)) ==> r == Step(c, [], Running)
  {
    match frame
    case OtherFrame => Step(c, [], Running)
    case TextFrame(None) => Step(c, [], Failed)
    case TextFrame(Some(data)) =>
      match data
      case Welcome(session) => Welcomed(c, session, helix)
      case Reconnect(session) => Welcomed(c, session, helix)
      case NotificationData(StreamOnline(id)) => Step(c, [StreamEvent(id, Live)], Running)
      case NotificationData(StreamOffline(id)) => Step(c, [StreamEvent(id, Offline)], Running)
      case NotificationData(OtherNotification) => Step(c, [], Running)
      case OtherData => Step(c, [], Running)
  }

  /** Welcome and Reconnect frames carrying the same session do exactly the same thing. */
  lemma WelcomeReconnectAlike(c: Client, session: Session, helix: Helix)
    ensures ProcessMessage(c, TextFrame(Some(Welcome(session))), helix)
         == ProcessMessage(c, TextFrame(Some(Reconnect(session))), helix)
  {
  }

  /**
   * What the `run` loop reads: a frame, a connection reset without the closing
   * handshake of RFC 6455 section 7, or any other socket error.
   */
  datatype Incoming = Received(frame: Frame) | ResetWithoutHandshake | SocketError

  /**
   * One pass of `run`: drain, then handle what arrived. A reset reconnects to
   * the current reconnect URL and leaves the registry and the session alone;
   * any other socket error ends `run` after the drain.
   */
  function RunStep(c: Client, incoming: Incoming, helix: Helix, connectOk: bool): (r: Step)
    ensures incoming == ResetWithoutHandshake ==>
              && r.client == Drain(c, helix).client
              && r.actions == Drain(c, helix).actions + [Connect(c.reconnectUrl)]
              && (r.status == Running <==> connectOk)
    ensures incoming == SocketError ==> r == Step(Drain(c, helix).client, Drain(c, helix).actions, Failed)
    ensures incoming.Received? ==>
              var d := Drain(c, helix);
              var p := ProcessMessage(d.client, incoming.frame, helix);
              r == Step(p.client, d.actions + p.actions, p.status)
  {
    var d := Drain(c, helix);
    match incoming
    case ResetWithoutHandshake =>
      Step(d.client, d.actions + [Connect(d.client.reconnectUrl)], if connectOk then Running else Failed)
    case SocketError =>
      Step(d.client, d.actions, Failed)
    case Received(frame) =>
      var p := ProcessMessage(d.client, frame, helix);
      Step(p.client, d.actions + p.actions, p.status)
  }
}

=== FILE: handlers.dfy ===
/**
 * The chat-side handlers of `bot/src/handlers.rs` that hold decisions: the
 * stream-event fan-out (`handle_stream_event`) and the timer loop
 * (`handle_timers`). Database reads, the chatter lookup and the clock are inputs;
 * what the handlers send is the output.
 */
module Handlers {
  import opened Options
  import opened Text
  import opened Models
  import Utils
  import Localization

  /** U+26A1 HIGH VOLTAGE SIGN, as its three UTF-8 bytes. */
  const ZAP: string := "\U{E2}\U{9A}\U{A1}"
  /** U+00B7 MIDDLE DOT, as its two UTF-8 bytes. */
  const DOT: string := "\U{C2}\U{B7}"

  /** The separator between audience mentions. */
  const MENTION_SEP: string := ", "

  /** Byte budget of a whole announcement line before the event text is taken off. */
  const ANNOUNCE_LIMIT: nat := 300

  /** A chat message the bot sends to a channel. */
  datatype Send = Say(channel: string, text: string) | Me(channel: string, text: string)

  // ---------------------------------------------------------------------
  // Audience
  // ---------------------------------------------------------------------

  /** Some subscription belongs to the user. */
  predicate Subscribed(u: User, subs: seq<EventSubscription>)
  {
    exists y :: y in subs && y.userId == u.id
  }

  /** The users with a subscription, in the order the users were loaded, each as `@alias`. */
  function SubscriberMentions(users: seq<User>, subs: seq<EventSubscription>): (ms: seq<string>)
    ensures forall m :: m in ms <==> exists u :: u in users && Subscribed(u, subs) && m == "@" + u.aliasName
  {
    if |users| == 0 then []
    else
      var rest := SubscriberMentions(users[1..], subs);
      assert forall u :: u in users <==> u == users[0] || u in users[1..];
      if Subscribed(users[0], subs) then ["@" + users[0].aliasName] + rest else rest
  }

  /** The chatters, each as `@login`. */
  function ChatterMentions(logins: seq<string>): (ms: seq<string>)
    ensures |ms| == |logins|
    ensures forall k :: 0 <= k < |logins| ==> ms[k] == "@" + logins[k]
  {
    if |logins| == 0 then [] else ["@" + logins[0]] + ChatterMentions(logins[1..])
  }

  /**
   * Who an announcement mentions: the subscribed users, plus, for a massping
   * event, every chatter; None when the chatter lookup of a massping event failed.
   */
  function Audience(users: seq<User>, subs: seq<EventSubscription>, massping: bool,
                    chatters: Option<seq<string>>): (r: Option<set<string>>)
    ensures r.None? <==> massping && chatters.None?
    ensures r.Some? ==> forall m :: m in r.value <==>
              (exists u :: u in users && Subscribed(u, subs) && m == "@" + u.aliasName)
              || (massping && exists k :: 0 <= k < |chatters.value| && m == "@" + chatters.value[k])
  {
    var subscribed := set m | m in SubscriberMentions(users, subs);
    if !massping then Some(subscribed)
    else match chatters
      case None => None
      case Some(logins) =>
        var mentions := ChatterMentions(logins);
        assert forall m :: m in mentions <==> exists k :: 0 <= k < |logins| && m == "@" + logins[k];
        Some(subscribed + set m | m in mentions)
  }

  /** `order` lists every member of `audience` exactly once (how the set is iterated). */
  predicate Enumerates(order: seq<string>, audience: set<string>)
  {
    && Utils.Distinct(order)
    && (forall m :: m in audience ==> m in order)
    && (forall k :: 0 <= k < |order| ==> order[k] in audience)
  }

  // ---------------------------------------------------------------------
  // Announcement lines
  // ---------------------------------------------------------------------

  /** `300 - line.len()` on `usize`: wraps around (release build) when the line is longer than 300 bytes. */
  function Budget(line: string): (b: nat)
    ensures |line| <= ANNOUNCE_LIMIT ==> b == ANNOUNCE_LIMIT - |line|
    ensures ANNOUNCE_LIMIT < |line| <= U64_LIMIT ==> b == U64_LIMIT + ANNOUNCE_LIMIT - |line|
  {
    (ANNOUNCE_LIMIT - |line|) % U64_LIMIT
  }

  /** The text of one announcement line for one chunk of mentions. */
  function Decorated(line: string, chunk: string): string
  {
    ZAP + " " + line + " " + DOT + " " + chunk
  }

  function DecorateAll(line: string, chunks: seq<string>): (texts: seq<string>)
    ensures |texts| == |chunks|
    ensures forall k :: 0 <= k < |chunks| ==> texts[k] == Decorated(line, chunks[k])
  {
    if |chunks| == 0 then [] else [Decorated(line, chunks[0])] + DecorateAll(line, chunks[1..])
  }

  /**
   * The announcement of `line` to `audience`, iterated in `order`: the bare
   * line when nobody is mentioned, else the mentions joined with `, `, wrapped
   * under the budget left by the line, one decorated line per chunk.
   */
  function Announce(line: string, audience: set<string>, order: seq<string>): (texts: seq<string>)
    ensures |texts| >= 1
    ensures audience == {} ==> texts == [ZAP + " " + line]
  {
    if audience == {} then [ZAP + " " + line]
    else DecorateAll(line, Utils.SplitAndWrapLines(Text.Join(order, MENTION_SEP), MENTION_SEP, Budget(line)))
  }

  /**
   * A non-empty audience is announced in consecutive chunks: the chunks are
   * the wrapper's groups of the mentions in iteration order, and every member
   * of the audience is in exactly one chunk.
   */
  lemma AnnounceChunks(line: string, audience: set<string>, order: seq<string>)
    requires audience != {} && Enumerates(order, audience)
    requires forall k :: 0 <= k < |order| ==> !Contains(order[k], MENTION_SEP)
    ensures var groups := Utils.WrapTokens(order, MENTION_SEP, Budget(line));
              && Utils.WrapShape(groups, MENTION_SEP, Budget(line))
              && Utils.Flatten(groups) == order
              && |groups| == |Announce(line, audience, order)|
              && (forall k :: 0 <= k < |groups| ==>
                    Announce(line, audience, order)[k] == Decorated(line, Text.Join(groups[k], MENTION_SEP)))
              && (forall m :: m in audience ==> exists k :: 0 <= k < |groups| && m in groups[k])
              && (forall m, k1, k2 :: 0 <= k1 < k2 < |groups| && m in groups[k1] ==> m !in groups[k2])
  {
    var m0 :| m0 in audience;
    assert |order| >= 1;
    assert FirstCharUnique(MENTION_SEP);
    SplitJoin(order, MENTION_SEP);
    var groups := Utils.WrapTokens(order, MENTION_SEP, Budget(line));
    forall m | m in audience
      ensures exists k :: 0 <= k < |groups| && m in groups[k]
    {
      Utils.FlattenMember(groups, m);
    }
    forall m, k1, k2 | 0 <= k1 < k2 < |groups| && m in groups[k1]
      ensures m !in groups[k2]
    {
      Utils.FlattenDistinct(groups, k1, k2, m);
    }
  }

  // ---------------------------------------------------------------------
  // handle_stream_event
  // ---------------------------------------------------------------------

  /** What the handler reads for one event: each database load and the chatter lookup may fail. */
  datatype EventInputs = EventInputs(
    channel: Option<Channel>,
    subscriptions: Option<seq<EventSubscription>>,
    users: Option<seq<User>>,
    chatters: Option<seq<string>>,
    order: seq<string>)

  /**
   * The messages one event sends: nothing when a database load failed or when
   * the chatter lookup of a massping event failed; otherwise the announcement of
   * the event's message, with its placeholders filled from the notification's
   * parameters, in the event's channel.
   */
  function EventSends(e: Event, inputs: EventInputs, parameters: seq<string>): (sends: seq<Send>)
    ensures inputs.channel.None? || inputs.subscriptions.None? || inputs.users.None? ==> sends == []
    ensures Massping in e.flags && inputs.chatters.None? ==> sends == []
    ensures forall k :: 0 <= k < |sends| ==> sends[k].Say? && sends[k].channel == inputs.channel.value.aliasName
  {
    match (inputs.channel, inputs.subscriptions, inputs.users)
    case (Some(channel), Some(subs), Some(users)) =>
      (match Audience(users, subs, Massping in e.flags, inputs.chatters)
       case None => []
       case Some(audience) =>
         var line := Localization.ReplacePlaceholders(e.message, Localization.ParsePlaceholders(e.message), parameters, None);
         SayAll(channel.aliasName, Announce(line, audience, inputs.order)))
    case _ => []
  }

  function SayAll(channel: string, texts: seq<string>): (sends: seq<Send>)
    ensures |sends| == |texts|
    ensures forall k :: 0 <= k < |texts| ==> sends[k] == Say(channel, texts[k])
  {
    if |texts| == 0 then [] else [Say(channel, texts[0])] + SayAll(channel, texts[1..])
  }

  /** An event with an empty audience sends exactly one line, the bare decorated message. */
  lemma EmptyAudienceOneLine(e: Event, inputs: EventInputs, parameters: seq<string>)
    requires inputs.channel.Some? && inputs.subscriptions.Some? && inputs.users.Some?
    requires Audience(inputs.users.value, inputs.subscriptions.value, Massping in e.flags, inputs.chatters) == Some({})
    ensures EventSends(e, inputs, parameters) ==
              [Say(inputs.channel.value.aliasName,
                   ZAP + " " + Localization.ReplacePlaceholders(e.message, Localization.ParsePlaceholders(e.message), parameters, None))]
  {
  }

  /** The events the handler loads: those for this broadcaster and this kind of event, in stored order. */
  function Matching(events: seq<Event>, targetId: int, eventType: EventType): (r: seq<Event>)
    ensures forall e :: e in r <==> e in events && e.targetAliasId == Some(targetId) && e.eventType == eventType
    ensures |r| <= |events|
    ensures (forall e :: e in events ==> e.targetAliasId != Some(targetId) || e.eventType != eventType) ==> r == []
  {
    if |events| == 0 then []
    else
      var rest := Matching(events[1..], targetId, eventType);
      assert forall e :: e in events <==> e == events[0] || e in events[1..];
      if events[0].targetAliasId == Some(targetId) && events[0].eventType == eventType
      then [events[0]] + rest else rest
  }

  /** The events handled one after another, each one's messages all sent before the next starts. */
  function SendsInTurn(events: seq<Event>, inputs: Event -> EventInputs, parameters: seq<string>): seq<Send>
  {
    if |events| == 0 then []
    else EventSends(events[0], inputs(events[0]), parameters) + SendsInTurn(events[1..], inputs, parameters)
  }

  /**
   * `handle_stream_event`: the broadcaster id arrives as text and goes through
   * `parse::<i32>().unwrap()`, so an id that is not a 32-bit number panics
   * (None); nothing is sent when the events cannot be loaded; otherwise the
   * matching events in turn.
   */
  function HandleStreamEvent(events: Option<seq<Event>>, targetId: string, eventType: EventType,
                             parameters: seq<string>, inputs: Event -> EventInputs): (r: Option<seq<Send>>)
    ensures r.None? <==> ParseI32(targetId).None?
    ensures r.Some? && events.None? ==> r.value == []
    ensures r.Some? && events.Some? ==>
              r.value == SendsInTurn(Matching(events.value, ParseI32(targetId).value, eventType), inputs, parameters)
  {
    match ParseI32(targetId)
    case None => None
    case Some(id) =>
      match events
      case None => Some([])
      case Some(es) => Some(SendsInTurn(Matching(es, id, eventType), inputs, parameters))
  }

  /**
   * The ids Twitch hands out print as non-negative 32-bit numbers; for one of
   * them the handler never panics, and an event for another broadcaster or of
   * another type sends nothing.
   */
  lemma PrintedIdHandled(events: seq<Event>, n: nat, eventType: EventType,
                         parameters: seq<string>, inputs: Event -> EventInputs)
    requires n < I32_LIMIT
    requires forall e :: e in events ==> e.targetAliasId != Some(n as int) || e.eventType != eventType
    ensures HandleStreamEvent(Some(events), NatToString(n), eventType, parameters, inputs) == Some([])
  {
    ParseNatToString(n, I32_LIMIT);
    assert IsDigit(NatToString(n)[0]);
  }

  /**
   * Handling in turn is sequential composition: the messages of a run of events
   * are those of its first part followed by those of the rest, so an event that
   * sends nothing (a failed load or chatter lookup) leaves the others unaffected.
   */
  lemma {:induction false} SendsInTurnAppend(a: seq<Event>, b: seq<Event>, inputs: Event -> EventInputs, parameters: seq<string>)
    ensures SendsInTurn(a + b, inputs, parameters) == SendsInTurn(a, inputs, parameters) + SendsInTurn(b, inputs, parameters)
  {
    if |a| > 0 {
      assert (a + b)[1..] == a[1..] + b;
      SendsInTurnAppend(a[1..], b, inputs, parameters);
    } else {
      assert a + b == b;
    }
  }

  // ---------------------------------------------------------------------
  // handle_timers
  // ---------------------------------------------------------------------

  /** A timer is due once its interval has elapsed since it last ran (whole seconds). */
  predicate Due(now: int, t: Timer)
  {
    now - t.lastExecutedAt >= t.intervalSec
  }

  /**
   * What one timer line sends: the words after the first, rejoined, must be
   * non-empty; a first word `/me` sends them as an action, anything else sends
   * the whole line.
   */
  function TimerLineSend(channel: string, line: string): (r: Option<Send>)
    ensures r.None? <==> After(line, ' ') == ""
    ensures r.Some? && Before(line, ' ') == "/me" ==> r.value == Me(channel, After(line, ' '))
    ensures r.Some? && Before(line, ' ') != "/me" ==> r.value == Say(channel, line)
  {
    var split := Split(line, " ");
    var first := split[0];
    var rest := Join(split[1..], " ");
    SplitAtChar(line, ' ');
    if rest == "" then None
    else if first == "/me" then Some(Me(channel, rest))
    else Some(Say(channel, line))
  }

  /** The lines of a due timer, in order, skipping those with nothing after the first word. */
  function TimerLineSends(channel: string, lines: seq<string>): (sends: seq<Send>)
    ensures |sends| <= |lines|
    ensures lines == [] ==> sends == []
  {
    if |lines| == 0 then []
    else OptionToSends(TimerLineSend(channel, lines[0])) + TimerLineSends(channel, lines[1..])
  }

  function OptionToSends(o: Option<Send>): (s: seq<Send>)
    ensures o.None? ==> s == []
    ensures o.Some? ==> s == [o.value]
  {
    match o
    case None => []
    case Some(v) => [v]
  }

  /** One timer on one tick: a due timer sends its lines and is stamped with `now`; otherwise nothing happens. */
  function RunTimer(now: int, channel: string, t: Timer): (r: (seq<Send>, Timer))
    ensures !Due(now, t) ==> r == ([], t)
    ensures Due(now, t) ==> r.1 == t.(lastExecutedAt := now)
    ensures Due(now, t) ==> r.0 == TimerLineSends(channel, t.messages)
  {
    if now - t.lastExecutedAt < t.intervalSec then ([], t)
    else (TimerLineSends(channel, t.messages), t.(lastExecutedAt := now))
  }

  /** A timer with a positive interval runs at most once per instant. */
  lemma RunTimerOncePerInstant(now: int, channel: string, t: Timer)
    requires t.intervalSec > 0
    ensures RunTimer(now, channel, RunTimer(now, channel, t).1).0 == []
  {
  }

  /** `handle_timers` for one channel: its enabled timers in turn; disabled timers are neither run nor changed. */
  function RunTimers(now: int, channel: string, timers: seq<Timer>): (r: (seq<Send>, seq<Timer>))
    ensures |r.1| == |timers|
    ensures forall k :: 0 <= k < |timers| && !timers[k].isEnabled ==> r.1[k] == timers[k]
    ensures forall k :: 0 <= k < |timers| && timers[k].isEnabled ==> r.1[k] == RunTimer(now, channel, timers[k]).1
  {
    if |timers| == 0 then ([], [])
    else
      var rest := RunTimers(now, channel, timers[1..]);
      if timers[0].isEnabled then
        var (sends, t) := RunTimer(now, channel, timers[0]);
        (sends + rest.0, [t] + rest.1)
      else
        (rest.0, [timers[0]] + rest.1)
  }

  /** No timer that is disabled or not yet due sends anything. */
  lemma {:induction false} QuietTimersSendNothing(now: int, channel: string, timers: seq<Timer>)
    requires forall k :: 0 <= k < |timers| ==> !timers[k].isEnabled || !Due(now, timers[k])
    ensures RunTimers(now, channel, timers).0 == []
  {
    if |timers| > 0 {
      QuietTimersSendNothing(now, channel, timers[1..]);
    }
  }
}

=== FILE: holiday_command.dfy ===
/**
 * `!holiday` (`bot/src/modules/holiday.rs`): a random holiday of a day, read
 * from the holiday service. The message picks the day; today's, tomorrow's
 * and yesterday's dates are inputs, as is the service's answer and the random
 * pick.
 */
module HolidayCommand {
  import opened Options
  import opened Text
  import opened Models
  import opened Commands
  import Localization

  /** A calendar day as `(month, day)`; neither part is range-checked when it comes from the message. */
  datatype Date = Date(month: nat, day: nat)

  /** The three dates the clock provides. */
  datatype Clock = Clock(today: Date, tomorrow: Date, yesterday: Date)

  /** The spellings that shift the day; `tomorrow` spelled correctly is not one of them. */
  const TOMORROW_WORD: string := "tommorow"
  const YESTERDAY_WORD: string := "yesterday"

  /** `.N`: the month N of today's day when 1 <= N <= 12, today otherwise. */
  function MonthOnly(rest: string, today: Date): (d: Date)
    ensures d.day == today.day
    ensures match ParseUnsigned(rest, U32_LIMIT)
            case Some(v) => d.month == (if 1 <= v <= 12 then v else today.month)
            case None => d.month == today.month
  {
    match ParseUnsigned(rest, U32_LIMIT)
    case Some(v) => if 1 <= v <= 12 then Date(v, today.day) else today
    case None => today
  }

  /**
   * The message split on `.`: with two or more pieces the first two are day
   * and month, both `u32`; a single piece is a day of today's month. Any
   * piece that does not parse gives today.
   */
  function DayAndMonth(message: string, today: Date): (d: Date)
  {
    var pieces := Split(message, ".");
    if |pieces| >= 2 then
      match (ParseUnsigned(pieces[0], U32_LIMIT), ParseUnsigned(pieces[1], U32_LIMIT))
      case (Some(day), Some(month)) => Date(month, day)
      case _ => today
    else
      match ParseUnsigned(pieces[0], U32_LIMIT)
      case Some(day) => Date(today.month, day)
      case None => today
  }

  /** The date the message asks for. */
  function Requested(message: Option<string>, clock: Clock): (d: Date)
    ensures message.None? ==> d == clock.today
    ensures message == Some(TOMORROW_WORD) ==> d == clock.tomorrow
    ensures message == Some(YESTERDAY_WORD) ==> d == clock.yesterday
  {
    match message
    case None => clock.today
    case Some(m) =>
      if m == TOMORROW_WORD then clock.tomorrow
      else if m == YESTERDAY_WORD then clock.yesterday
      else if |m| > 0 && m[0] == '.' then MonthOnly(m[1..], clock.today)
      else DayAndMonth(m, clock.today)
  }

  /** The split on `.` seen through the first and second dot. */
  lemma DayAndMonthPieces(message: string)
    ensures Split(message, ".")[0] == Before(message, '.')
    ensures |Split(message, ".")| >= 2 <==> '.' in message
    ensures |Split(message, ".")| >= 2 ==> Split(message, ".")[1] == Before(After(message, '.'), '.')
  {
    assert "." == ['.'];
    SplitAtChar(message, '.');
    assert CharIndex(message, '.').Some? <==> '.' in message;
  }

  /** `a.b` with no dot in `a` splits into `a` and the part of `b` before its first dot. */
  lemma DotPieces(a: string, b: string)
    requires CharIndex(a, '.') == None
    ensures var pieces := Split(a + "." + b, ".");
            |pieces| >= 2 && pieces[0] == a && pieces[1] == Before(b, '.')
  {
    var s := a + "." + b;
    assert s[|a|] == '.';
    assert forall j :: 0 <= j < |a| ==> s[j] == a[j];
    assert CharIndex(s, '.') == Some(|a|);
    assert s[..|a|] == a;
    assert s[|a| + 1..] == b;
    DayAndMonthPieces(s);
  }

  /** `d.m` with both parts decimal numbers in `u32` asks for month m, day d, with no range check. */
  lemma DayDotMonth(d: nat, m: nat, clock: Clock)
    requires d < U32_LIMIT && m < U32_LIMIT
    ensures Requested(Some(NatToString(d) + "." + NatToString(m)), clock) == Date(m, d)
  {
    var s := NatToString(d) + "." + NatToString(m);
    NoDot(NatToString(d));
    NoDot(NatToString(m));
    DotPieces(NatToString(d), NatToString(m));
    ParseNatToString(d, U32_LIMIT);
    ParseNatToString(m, U32_LIMIT);
    assert DayAndMonth(s, clock.today) == Date(m, d);
    assert s != TOMORROW_WORD && s != YESTERDAY_WORD && s[0] != '.' by {
      assert IsDigit(s[0]);
    }
  }

  /** Decimal numbers have no dot. */
  lemma NoDot(s: string)
    requires AllDigits(s)
    ensures CharIndex(s, '.') == None
  {
    assert forall j :: 0 <= j < |s| ==> s[j] != '.';
  }

  /** A bare number d asks for day d of today's month. */
  lemma DayOnly(d: nat, clock: Clock)
    requires d < U32_LIMIT
    ensures Requested(Some(NatToString(d)), clock) == Date(clock.today.month, d)
  {
    var s := NatToString(d);
    NoDot(s);
    DayAndMonthPieces(s);
    ParseNatToString(d, U32_LIMIT);
    assert s != TOMORROW_WORD && s != YESTERDAY_WORD && s[0] != '.' by {
      assert IsDigit(s[0]);
    }
  }

  /** `.N` asks for month N of today's day exactly when 1 <= N <= 12. */
  lemma DotMonth(n: nat, clock: Clock)
    requires n < U32_LIMIT
    ensures Requested(Some("." + NatToString(n)), clock)
            == (if 1 <= n <= 12 then Date(n, clock.today.day) else clock.today)
  {
    var s := "." + NatToString(n);
    assert s[1..] == NatToString(n);
    ParseNatToString(n, U32_LIMIT);
  }

  /** The correct spelling `tomorrow` is not recognised and gives today. */
  lemma TomorrowSpelledRight(clock: Clock)
    ensures Requested(Some("tomorrow"), clock) == clock.today
  {
    var s := "tomorrow";
    NoDotInTomorrow();
    DayAndMonthPieces(s);
    assert ParseUnsigned(s, U32_LIMIT).None? by {
      assert !IsDigit(s[0]);
    }
  }

  lemma NoDotInTomorrow()
    ensures CharIndex("tomorrow", '.') == None
  {
    assert forall j :: 0 <= j < |"tomorrow"| ==> "tomorrow"[j] != '.';
  }

  /** The service's answer for the day. */
  datatype Answer =
      TransportError(description: string)
    | NotFoundStatus
    | Body(holidays: Option<seq<string>>)   // None: the body is not a list of strings

  /** The first index holding `h`. */
  function Position(hs: seq<string>, h: string): (p: nat)
    requires h in hs
    ensures p < |hs| && hs[p] == h
    ensures forall j :: 0 <= j < p ==> hs[j] != h
  {
    if hs[0] == h then 0
    else
      assert h in hs[1..];
      1 + Position(hs[1..], h)
  }

  /** `pick` stands for the random choice: the holiday shown is the one at `pick` modulo the count. */
  function Execute(request: Request, clock: Clock, answer: Answer, pick: nat): (r: Result<Response, ResponseError>)
    ensures var d := Requested(request.message, clock);
            var day := NatToString(d.day);
            var month := NatToString(d.month);
            (answer.NotFoundStatus? ==> r == Err(IncorrectArgument(day + "." + month)))
            && (answer.TransportError? ==> r == Err(ExternalApiError(0, Some(answer.description))))
            && (answer == Body(None) ==> r == Err(SomethingWentWrong))
            && (answer == Body(Some([])) ==> r == Ok(Single(ByRequest(Localization.CommandHolidayEmpty, [day, month]))))
            && (answer.Body? && answer.holidays.Some? && |answer.holidays.value| > 0 ==>
                  r.Ok? && r.value.Single? && r.value.text.ByRequest?
                  && r.value.text.id == Localization.CommandHolidayResponse
                  && |r.value.text.parameters| == 5
                  && r.value.text.parameters[..2] == [day, month]
                  && r.value.text.parameters[3] == NatToString(|answer.holidays.value|)
                  && r.value.text.parameters[4] in answer.holidays.value)
  {
    var d := Requested(request.message, clock);
    var day := NatToString(d.day);
    var month := NatToString(d.month);
    match answer
    case NotFoundStatus => Err(IncorrectArgument(day + "." + month))
    case TransportError(e) => Err(ExternalApiError(0, Some(e)))
    case Body(None) => Err(SomethingWentWrong)
    case Body(Some(hs)) =>
      if |hs| == 0 then Ok(Single(ByRequest(Localization.CommandHolidayEmpty, [day, month])))
      else
        var h := hs[pick % |hs|];
        Ok(Single(ByRequest(Localization.CommandHolidayResponse,
          [day, month, NatToString(Position(hs, h)), NatToString(|hs|), h])))
  }

  /**
   * The reported position is the first occurrence of the picked holiday: it is
   * the pick itself when the list has no repeats, and can be smaller otherwise.
   */
  lemma PositionOfPick(hs: seq<string>, pick: nat)
    requires |hs| > 0
    ensures Position(hs, hs[pick % |hs|]) <= pick % |hs|
    ensures (forall i, j :: 0 <= i < j < |hs| ==> hs[i] != hs[j]) ==> Position(hs, hs[pick % |hs|]) == pick % |hs|
  {
  }

  /**
   * A repeated holiday is never reported at a later copy's index: when the pick
   * lands on the copy at `j` and an earlier copy sits at `i`, the reported
   * position is at most `i`, so strictly less than the pick.
   */
  lemma RepeatReportsFirst(hs: seq<string>, i: nat, j: nat)
    requires i < j < |hs| && hs[i] == hs[j]
    ensures Position(hs, hs[j]) <= i < j
  {
  }
}

=== FILE: legacy_localization.dfy ===
/**
 * The older localizer of `src/localization.rs`: five lines, and positional
 * `{}` slots filled from a parameter list.
 */
module LegacyLocalization {
  import opened Options
  import opened Text
  import Localization

  datatype LineId =
      CommandPingResponse | CommandSpamNoCount | CommandSpamNoMessage
    | CommandSpamInvalidCount | CommandSpamResponse

  /** `LineId::from_string`: exactly five keys are known. */
  function LineIdFromString(key: string): (r: Option<LineId>)
    ensures r.Some? <==> key in {"cmd.ping.response", "cmd.spam.no_count", "cmd.spam.no_message",
                                 "cmd.spam.invalid_count", "cmd.spam.response"}
  {
    match key
    case "cmd.ping.response" => Some(CommandPingResponse)
    case "cmd.spam.no_count" => Some(CommandSpamNoCount)
    case "cmd.spam.no_message" => Some(CommandSpamNoMessage)
    case "cmd.spam.invalid_count" => Some(CommandSpamInvalidCount)
    case "cmd.spam.response" => Some(CommandSpamResponse)
    case _ => None
  }

  /** The key each line is listed under. */
  function LineIdKey(id: LineId): string
  {
    match id
    case CommandPingResponse => "cmd.ping.response"
    case CommandSpamNoCount => "cmd.spam.no_count"
    case CommandSpamNoMessage => "cmd.spam.no_message"
    case CommandSpamInvalidCount => "cmd.spam.invalid_count"
    case CommandSpamResponse => "cmd.spam.response"
  }

  /** Every line is loaded from its key and from no other. */
  lemma LineIdKeyRoundTrip(key: string, id: LineId)
    ensures LineIdFromString(key) == Some(id) <==> LineIdKey(id) == key
  {
  }

  /** The value for slot `i`: the `i`-th parameter, or nothing when there are fewer parameters. */
  function Slot(parameters: seq<string>, i: nat): string
  {
    if i < |parameters| then parameters[i] else ""
  }

  /**
   * The fold of `get_formatted_text` over the pieces of the line split at `{}`,
   * the first of `parts` having index `i`: each piece followed by its parameter.
   */
  function Interleave(parts: seq<string>, parameters: seq<string>, i: nat): string
    decreases |parts|
  {
    if |parts| == 0 then "" else parts[0] + Slot(parameters, i) + Interleave(parts[1..], parameters, i + 1)
  }

  /** `get_formatted_text`: None exactly when the line is missing. */
  function GetFormattedText(locales: Localization.Locales<LineId>, locale: string, id: LineId,
                            parameters: seq<string>): (r: Option<string>)
    ensures r.None? <==> Localization.GetLiteralText(locales, locale, id).None?
  {
    match Localization.GetLiteralText(locales, locale, id)
    case Some(line) => Some(Interleave(Split(line, "{}"), parameters, 0))
    case None => None
  }

  // ----- what the fold does with the slots -----

  /** Parameters past the last slot but one are never read. */
  lemma {:induction false} ExtraParametersDropped(parts: seq<string>, parameters: seq<string>, i: nat)
    requires |parameters| >= i + |parts|
    ensures Interleave(parts, parameters, i) == Interleave(parts, parameters[..i + |parts|], i)
    decreases |parts|
  {
    if |parts| > 0 {
      ExtraParametersDropped(parts[1..], parameters, i + 1);
      ExtraParametersDropped(parts[1..], parameters[..i + |parts|], i + 1);
      assert parameters[..i + |parts|][..i + 1 + |parts[1..]|] == parameters[..i + |parts|];
    }
  }

  /**
   * With at least one parameter per piece, the parameter after the last slot is
   * appended after the last piece.
   */
  lemma {:induction false} ParameterAfterLastPiece(parts: seq<string>, parameters: seq<string>, i: nat)
    requires |parts| >= 1 && |parameters| >= i + |parts|
    ensures Interleave(parts, parameters, i)
         == Interleave(parts, parameters[..i + |parts| - 1], i) + parameters[i + |parts| - 1]
    decreases |parts|
  {
    var m := i + |parts| - 1;
    if |parts| == 1 {
      assert Interleave(parts[1..], parameters, i + 1) == "";
      assert Interleave(parts[1..], parameters[..m], i + 1) == "";
    } else {
      ParameterAfterLastPiece(parts[1..], parameters, i + 1);
      assert Slot(parameters[..m], i) == parameters[i];
    }
  }

  /** Without parameters every `{}` is simply removed. */
  lemma {:induction false} NoParametersRemovesSlots(parts: seq<string>, i: nat)
    ensures Interleave(parts, [], i) == Join(parts, "")
    decreases |parts|
  {
    if |parts| > 1 {
      NoParametersRemovesSlots(parts[1..], i + 1);
    }
  }

  /** Filling every slot with `{}` itself and giving nothing more rebuilds the pieces joined at `{}`. */
  lemma {:induction false} MarkersRestoreLine(parts: seq<string>, parameters: seq<string>, i: nat)
    requires |parts| >= 1 && |parameters| == i + |parts| - 1
    requires forall j :: i <= j < |parameters| ==> parameters[j] == "{}"
    ensures Interleave(parts, parameters, i) == Join(parts, "{}")
    decreases |parts|
  {
    if |parts| > 1 {
      MarkersRestoreLine(parts[1..], parameters, i + 1);
      JoinCons(parts[0], parts[1..], "{}");
      assert [parts[0]] + parts[1..] == parts;
    }
  }

  /** The `i`-th `{}` of a line receives the `i`-th parameter: passing the markers back gives the line. */
  lemma SlotsInOrder(locales: Localization.Locales<LineId>, locale: string, id: LineId, parameters: seq<string>)
    requires Localization.GetLiteralText(locales, locale, id).Some?
    requires |parameters| == |Split(locales[locale][id], "{}")| - 1
    requires forall j :: 0 <= j < |parameters| ==> parameters[j] == "{}"
    ensures GetFormattedText(locales, locale, id, parameters) == Some(locales[locale][id])
  {
    MarkersRestoreLine(Split(locales[locale][id], "{}"), parameters, 0);
  }

  /** A line without `{}`, given no parameters, comes back unchanged. */
  lemma PlainLineUnchanged(locales: Localization.Locales<LineId>, locale: string, id: LineId)
    requires Localization.GetLiteralText(locales, locale, id).Some?
    requires !Contains(locales[locale][id], "{}")
    ensures GetFormattedText(locales, locale, id, []) == Some(locales[locale][id])
  {
    var line := locales[locale][id];
    SplitNoOccurrence(line, "{}");
    NoParametersRemovesSlots([line], 0);
  }
}

=== FILE: localization.dfy ===
/**
 * Localized chat lines (`bot/src/localization.rs`): the line-id key table, the
 * per-locale lookup, the `{placeholder}` scanner and the substitution of
 * placeholder values.
 */
module Localization {
  import opened Options
  import opened Text
  import opened Models

  // ---------------------------------------------------------------------
  // Line ids
  // ---------------------------------------------------------------------

  datatype LineId =
      ArgumentSubcommand | ArgumentMessage | ArgumentInterval | ArgumentName | ArgumentTarget
    | ArgumentValue | ArgumentAmount | MsgHint | HintUrlSpam | HintUrlMassping | HintUrlHoliday
    | HintUrlJoin | HintUrlTimer | HintUrlCmd | HintUrlEvent | HintUrlNotify | HintUrlSet
    | HintUrlEcount | HintUrlEtop | HintUrlEsim | MsgError | ErrorNotEnoughArguments
    | ErrorWrongArgumentType | ErrorIncorrectArgument | ErrorIncompatibleName
    | ErrorNamesakeCreation | ErrorExternalAPIError | ErrorNotFound | ErrorInsufficientRights
    | ErrorSomethingWentWrong | MiscDescending | MiscAscending | EmotesPushed | EmotesUpdated
    | EmotesPulled | Provider7TV | MsgNoMessage | CommandPingResponse | CommandSpamNoCount
    | CommandSpamInvalidCount | CommandSpamResponse | CommandHolidayEmpty | CommandHolidayResponse
    | CommandJoinAlreadyJoined | CommandJoinResponse | CommandJoinResponseInChat
    | JoinOtherchatroom | CommandTimerDeleted | CommandTimerEnabled | CommandTimerDisabled
    | CommandTimerInfo | CommandTimerInterval | CommandTimerMessage | CommandTimerNew | TimerList
    | TimerListEmpty | CommandCustomCommandDeleted | CommandCustomCommandEnabled
    | CommandCustomCommandDisabled | CommandCustomCommandInfo | CommandCustomCommandMessage
    | CommandCustomCommandNew | CustomcommandList | CustomcommandListEmpty | EventOn | EventOff
    | EventFlagOn | EventFlagOff | NotifySub | NotifyAlreadySub | NotifyUnsub | NotifyAlreadyUnsub
    | NotifySubs | NotifyNoSubs | NotifyList | NotifyListEmpty | SettingsPrefix | SettingsLocale
    | SettingsFeatureOn | SettingsFeatureOff | EmoteCountUsage | EmoteCountNotFound
    | EmoteTopResponse | EmoteTopNoEmotes | EmoteSimilaritySetSimilar
    | EmoteSimilaritySetNotSimilar | UserIdFound | UserIdChatban | EventAlreadyExistsError
    | TimerAlreadyExistsError | CustomCommandAlreadyExistsError

  /** The key each line is listed under, the table of `LineId::from_string` read the other way. */
  function LineIdKey(id: LineId): (key: Option<string>)
  {
    match id
    case ArgumentSubcommand | ArgumentMessage | ArgumentInterval | ArgumentName | ArgumentTarget | ArgumentValue | ArgumentAmount => ArgumentKey(id)
    case MsgHint | HintUrlSpam | HintUrlMassping | HintUrlHoliday | HintUrlJoin | HintUrlTimer | HintUrlCmd | HintUrlEvent | HintUrlNotify | HintUrlSet | HintUrlEcount | HintUrlEtop | HintUrlEsim => HintKey(id)
    case MsgError | ErrorNotEnoughArguments | ErrorWrongArgumentType | ErrorIncorrectArgument | ErrorIncompatibleName | ErrorNamesakeCreation | ErrorExternalAPIError | ErrorNotFound | ErrorInsufficientRights | ErrorSomethingWentWrong => ErrorKey(id)
    case MiscDescending | MiscAscending | Provider7TV | EmotesUpdated | EmotesPulled | EmotesPushed => SharedWordKey(id)
    case MsgNoMessage | CommandPingResponse | CommandSpamNoCount | CommandSpamInvalidCount | CommandSpamResponse | CommandHolidayEmpty | CommandHolidayResponse => SimpleCommandKey(id)
    case CommandJoinAlreadyJoined | CommandJoinResponse | CommandJoinResponseInChat | JoinOtherchatroom => JoinKey(id)
    case CommandTimerDeleted | CommandTimerEnabled | CommandTimerDisabled | CommandTimerInfo | CommandTimerInterval | CommandTimerMessage | CommandTimerNew => TimerReplyKey(id)
    case TimerList | TimerListEmpty => TimerListKey(id)
    case CommandCustomCommandDeleted | CommandCustomCommandEnabled | CommandCustomCommandDisabled | CommandCustomCommandInfo | CommandCustomCommandMessage | CommandCustomCommandNew => CustomCommandReplyKey(id)
    case CustomcommandList | CustomcommandListEmpty | CustomCommandAlreadyExistsError => CustomCommandListKey(id)
    case EventOn | EventOff | EventFlagOn | EventFlagOff | EventAlreadyExistsError => EventKey(id)
    case NotifySub | NotifyAlreadySub | NotifyUnsub | NotifyAlreadyUnsub | NotifySubs | NotifyNoSubs | NotifyList | NotifyListEmpty => NotifyKey(id)
    case SettingsPrefix | SettingsLocale | SettingsFeatureOn | SettingsFeatureOff => SettingsKey(id)
    case EmoteCountUsage | EmoteCountNotFound | EmoteTopResponse | EmoteTopNoEmotes | EmoteSimilaritySetSimilar | EmoteSimilaritySetNotSimilar => EmoteStatsKey(id)
    case UserIdFound | UserIdChatban => UserIdKey(id)
    case TimerAlreadyExistsError => None
  }

  // `LineId::from_string` matches the key against every listed key in one `match`.
  // The keys are distinct, so the same match split by topic is the same function;
  // each topic also has its table read the other way, from line to key.

  /** Keys of argument names. */
  function ArgumentLine(key: string): (r: Option<LineId>)
    ensures r.Some? ==> ArgumentKey(r.value) == Some(key)
  {
    match key
    case "argument.subcommand" => Some(ArgumentSubcommand)
    case "argument.message" => Some(ArgumentMessage)
    case "argument.interval" => Some(ArgumentInterval)
    case "argument.name" => Some(ArgumentName)
    case "argument.target" => Some(ArgumentTarget)
    case "argument.value" => Some(ArgumentValue)
    case "argument.amount" => Some(ArgumentAmount)
    case _ => None
  }

  function ArgumentKey(id: LineId): Option<string>
  {
    match id
    case ArgumentSubcommand => Some("argument.subcommand")
    case ArgumentMessage => Some("argument.message")
    case ArgumentInterval => Some("argument.interval")
    case ArgumentName => Some("argument.name")
    case ArgumentTarget => Some("argument.target")
    case ArgumentValue => Some("argument.value")
    case ArgumentAmount => Some("argument.amount")
    case _ => None
  }

  /** Keys of hints and help links. */
  function HintLine(key: string): (r: Option<LineId>)
    ensures r.Some? ==> HintKey(r.value) == Some(key)
  {
    match key
    case "msg.hint" => Some(MsgHint)
    case "hint.url.spam" => Some(HintUrlSpam)
    case "hint.url.massping" => Some(HintUrlMassping)
    case "hint.url.holiday" => Some(HintUrlHoliday)
    case "hint.url.join" => Some(HintUrlJoin)
    case "hint.url.timer" => Some(HintUrlTimer)
    case "hint.url.cmd" => Some(HintUrlCmd)
    case "hint.url.event" => Some(HintUrlEvent)
    case "hint.url.notify" => Some(HintUrlNotify)
    case "hint.url.set" => Some(HintUrlSet)
    case "hint.url.ecount" => Some(HintUrlEcount)
    case "hint.url.etop" => Some(HintUrlEtop)
    case "hint.url.esim" => Some(HintUrlEsim)
    case _ => None
  }

  function HintKey(id: LineId): Option<string>
  {
    match id
    case MsgHint => Some("msg.hint")
    case HintUrlSpam => Some("hint.url.spam")
    case HintUrlMassping => Some("hint.url.massping")
    case HintUrlHoliday => Some("hint.url.holiday")
    case HintUrlJoin => Some("hint.url.join")
    case HintUrlTimer => Some("hint.url.timer")
    case HintUrlCmd => Some("hint.url.cmd")
    case HintUrlEvent => Some("hint.url.event")
    case HintUrlNotify => Some("hint.url.notify")
    case HintUrlSet => Some("hint.url.set")
    case HintUrlEcount => Some("hint.url.ecount")
    case HintUrlEtop => Some("hint.url.etop")
    case HintUrlEsim => Some("hint.url.esim")
    case _ => None
  }

  /** Keys of error messages. */
  function ErrorLine(key: string): (r: Option<LineId>)
    ensures r.Some? ==> ErrorKey(r.value) == Some(key)
  {
    match key
    case "msg.error" => Some(MsgError)
    case "error.not_enough_arguments" => Some(ErrorNotEnoughArguments)
    case "error.wrong_argument_type" => Some(ErrorWrongArgumentType)
    case "error.incorrect_argument" => Some(ErrorIncorrectArgument)
    case "error.incompatible_name" => Some(ErrorIncompatibleName)
    case "error.namesake_creation" => Some(ErrorNamesakeCreation)
    case "error.external_api_error" => Some(ErrorExternalAPIError)
    case "error.not_found" => Some(ErrorNotFound)
    case "error.insufficient_rights" => Some(ErrorInsufficientRights)
    case "error.something_went_wrong" => Some(ErrorSomethingWentWrong)
    case _ => None
  }

  function ErrorKey(id: LineId): Option<string>
  {
    match id
    case MsgError => Some("msg.error")
    case ErrorNotEnoughArguments => Some("error.not_enough_arguments")
    case ErrorWrongArgumentType => Some("error.wrong_argument_type")
    case ErrorIncorrectArgument => Some("error.incorrect_argument")
    case ErrorIncompatibleName => Some("error.incompatible_name")
    case ErrorNamesakeCreation => Some("error.namesake_creation")
    case ErrorExternalAPIError => Some("error.external_api_error")
    case ErrorNotFound => Some("error.not_found")
    case ErrorInsufficientRights => Some("error.insufficient_rights")
    case ErrorSomethingWentWrong => Some("error.something_went_wrong")
    case _ => None
  }

  /** Keys of shared words: sort orders, providers and emote changes. */
  function SharedWordLine(key: string): (r: Option<LineId>)
    ensures r.Some? ==> SharedWordKey(r.value) == Some(key)
  {
    match key
    case "misc.descending" => Some(MiscDescending)
    case "misc.ascending" => Some(MiscAscending)
    case "provider.7tv" => Some(Provider7TV)
    case "emotes.update" => Some(EmotesUpdated)
    case "emotes.pull" => Some(EmotesPulled)
    case "emotes.push" => Some(EmotesPushed)
    case _ => None
  }

  function SharedWordKey(id: LineId): Option<string>
  {
    match id
    case MiscDescending => Some("misc.descending")
    case MiscAscending => Some("misc.ascending")
    case Provider7TV => Some("provider.7tv")
    case EmotesUpdated => Some("emotes.update")
    case EmotesPulled => Some("emotes.pull")
    case EmotesPushed => Some("emotes.push")
    case _ => None
  }

  /** Keys of the ping, spam and holiday replies. */
  function SimpleCommandLine(key: string): (r: Option<LineId>)
    ensures r.Some? ==> SimpleCommandKey(r.value) == Some(key)
  {
    match key
    case "msg.no_message" => Some(MsgNoMessage)
    case "cmd.ping.response" => Some(CommandPingResponse)
    case "cmd.spam.no_count" => Some(CommandSpamNoCount)
    case "cmd.spam.invalid_count" => Some(CommandSpamInvalidCount)
    case "cmd.spam.response" => Some(CommandSpamResponse)
    case "cmd.holiday.empty" => Some(CommandHolidayEmpty)
    case "cmd.holiday.response" => Some(CommandHolidayResponse)
    case _ => None
  }

  function SimpleCommandKey(id: LineId): Option<string>
  {
    match id
    case MsgNoMessage => Some("msg.no_message")
    case CommandPingResponse => Some("cmd.ping.response")
    case CommandSpamNoCount => Some("cmd.spam.no_count")
    case CommandSpamInvalidCount => Some("cmd.spam.invalid_count")
    case CommandSpamResponse => Some("cmd.spam.response")
    case CommandHolidayEmpty => Some("cmd.holiday.empty")
    case CommandHolidayResponse => Some("cmd.holiday.response")
    case _ => None
  }

  /** Keys of join replies. */
  function JoinLine(key: string): (r: Option<LineId>)
    ensures r.Some? ==> JoinKey(r.value) == Some(key)
  {
    match key
    case "cmd.join.already_joined" => Some(CommandJoinAlreadyJoined)
    case "cmd.join.response" => Some(CommandJoinResponse)
    case "cmd.join.response_in_chat" => Some(CommandJoinResponseInChat)
    case "join.other_chat_room" => Some(JoinOtherchatroom)
    case _ => None
  }

  function JoinKey(id: LineId): Option<string>
  {
    match id
    case CommandJoinAlreadyJoined => Some("cmd.join.already_joined")
    case CommandJoinResponse => Some("cmd.join.response")
    case CommandJoinResponseInChat => Some("cmd.join.response_in_chat")
    case JoinOtherchatroom => Some("join.other_chat_room")
    case _ => None
  }

  /** Keys of timer replies. */
  function TimerReplyLine(key: string): (r: Option<LineId>)
    ensures r.Some? ==> TimerReplyKey(r.value) == Some(key)
  {
    match key
    case "cmd.timer.deleted" => Some(CommandTimerDeleted)
    case "cmd.timer.enabled" => Some(CommandTimerEnabled)
    case "cmd.timer.disabled" => Some(CommandTimerDisabled)
    case "cmd.timer.info" => Some(CommandTimerInfo)
    case "cmd.timer.interval" => Some(CommandTimerInterval)
    case "cmd.timer.message" => Some(CommandTimerMessage)
    case "cmd.timer.new" => Some(CommandTimerNew)
    case _ => None
  }

  function TimerReplyKey(id: LineId): Option<string>
  {
    match id
    case CommandTimerDeleted => Some("cmd.timer.deleted")
    case CommandTimerEnabled => Some("cmd.timer.enabled")
    case CommandTimerDisabled => Some("cmd.timer.disabled")
    case CommandTimerInfo => Some("cmd.timer.info")
    case CommandTimerInterval => Some("cmd.timer.interval")
    case CommandTimerMessage => Some("cmd.timer.message")
    case CommandTimerNew => Some("cmd.timer.new")
    case _ => None
  }

  /** Keys of timer lists. */
  function TimerListLine(key: string): (r: Option<LineId>)
    ensures r.Some? ==> TimerListKey(r.value) == Some(key)
  {
    match key
    case "timer.list" => Some(TimerList)
    case "timer.list.empty" => Some(TimerListEmpty)
    case _ => None
  }

  function TimerListKey(id: LineId): Option<string>
  {
    match id
    case TimerList => Some("timer.list")
    case TimerListEmpty => Some("timer.list.empty")
    case _ => None
  }

  /** Keys of custom command replies. */
  function CustomCommandReplyLine(key: string): (r: Option<LineId>)
    ensures r.Some? ==> CustomCommandReplyKey(r.value) == Some(key)
  {
    match key
    case "cmd.customcommand.deleted" => Some(CommandCustomCommandDeleted)
    case "cmd.customcommand.enabled" => Some(CommandCustomCommandEnabled)
    case "cmd.customcommand.disabled" => Some(CommandCustomCommandDisabled)
    case "cmd.customcommand.info" => Some(CommandCustomCommandInfo)
    case "cmd.customcommand.message" => Some(CommandCustomCommandMessage)
    case "cmd.customcommand.new" => Some(CommandCustomCommandNew)
    case _ => None
  }

  function CustomCommandReplyKey(id: LineId): Option<string>
  {
    match id
    case CommandCustomCommandDeleted => Some("cmd.customcommand.deleted")
    case CommandCustomCommandEnabled => Some("cmd.customcommand.enabled")
    case CommandCustomCommandDisabled => Some("cmd.customcommand.disabled")
    case CommandCustomCommandInfo => Some("cmd.customcommand.info")
    case CommandCustomCommandMessage => Some("cmd.customcommand.message")
    case CommandCustomCommandNew => Some("cmd.customcommand.new")
    case _ => None
  }

  /** Keys of custom command lists and errors. */
  function CustomCommandListLine(key: string): (r: Option<LineId>)
    ensures r.Some? ==> CustomCommandListKey(r.value) == Some(key)
  {
    match key
    case "customcommand.list" => Some(CustomcommandList)
    case "customcommand.list.empty" => Some(CustomcommandListEmpty)
    case "error.customcommands.already_exists" => Some(CustomCommandAlreadyExistsError)
    case _ => None
  }

  function CustomCommandListKey(id: LineId): Option<string>
  {
    match id
    case CustomcommandList => Some("customcommand.list")
    case CustomcommandListEmpty => Some("customcommand.list.empty")
    case CustomCommandAlreadyExistsError => Some("error.customcommands.already_exists")
    case _ => None
  }

  /** Keys of event replies. */
  function EventLine(key: string): (r: Option<LineId>)
    ensures r.Some? ==> EventKey(r.value) == Some(key)
  {
    match key
    case "event.on" => Some(EventOn)
    case "event.off" => Some(EventOff)
    case "event.flag.on" => Some(EventFlagOn)
    case "event.flag.off" => Some(EventFlagOff)
    case "event.already_exists" => Some(EventAlreadyExistsError)
    case _ => None
  }

  function EventKey(id: LineId): Option<string>
  {
    match id
    case EventOn => Some("event.on")
    case EventOff => Some("event.off")
    case EventFlagOn => Some("event.flag.on")
    case EventFlagOff => Some("event.flag.off")
    case EventAlreadyExistsError => Some("event.already_exists")
    case _ => None
  }

  /** Keys of notification replies. */
  function NotifyLine(key: string): (r: Option<LineId>)
    ensures r.Some? ==> NotifyKey(r.value) == Some(key)
  {
    match key
    case "notify.sub" => Some(NotifySub)
    case "notify.already_sub" => Some(NotifyAlreadySub)
    case "notify.unsub" => Some(NotifyUnsub)
    case "notify.already_unsub" => Some(NotifyAlreadyUnsub)
    case "notify.subs" => Some(NotifySubs)
    case "notify.no_subs" => Some(NotifyNoSubs)
    case "notify.list" => Some(NotifyList)
    case "notify.list.empty" => Some(NotifyListEmpty)
    case _ => None
  }

  function NotifyKey(id: LineId): Option<string>
  {
    match id
    case NotifySub => Some("notify.sub")
    case NotifyAlreadySub => Some("notify.already_sub")
    case NotifyUnsub => Some("notify.unsub")
    case NotifyAlreadyUnsub => Some("notify.already_unsub")
    case NotifySubs => Some("notify.subs")
    case NotifyNoSubs => Some("notify.no_subs")
    case NotifyList => Some("notify.list")
    case NotifyListEmpty => Some("notify.list.empty")
    case _ => None
  }

  /** Keys of settings replies. */
  function SettingsLine(key: string): (r: Option<LineId>)
    ensures r.Some? ==> SettingsKey(r.value) == Some(key)
  {
    match key
    case "settings.prefix" => Some(SettingsPrefix)
    case "settings.locale" => Some(SettingsLocale)
    case "settings.feature.on" => Some(SettingsFeatureOn)
    case "settings.feature.off" => Some(SettingsFeatureOff)
    case _ => None
  }

  function SettingsKey(id: LineId): Option<string>
  {
    match id
    case SettingsPrefix => Some("settings.prefix")
    case SettingsLocale => Some("settings.locale")
    case SettingsFeatureOn => Some("settings.feature.on")
    case SettingsFeatureOff => Some("settings.feature.off")
    case _ => None
  }

  /** Keys of emote statistics replies. */
  function EmoteStatsLine(key: string): (r: Option<LineId>)
    ensures r.Some? ==> EmoteStatsKey(r.value) == Some(key)
  {
    match key
    case "emote_count.usage" => Some(EmoteCountUsage)
    case "emote_count.not_found" => Some(EmoteCountNotFound)
    case "emote_top.response" => Some(EmoteTopResponse)
    case "emote_top.no_emotes" => Some(EmoteTopNoEmotes)
    case "emote_similarity.set_similar" => Some(EmoteSimilaritySetSimilar)
    case "emote_similarity.set_not_similar" => Some(EmoteSimilaritySetNotSimilar)
    case _ => None
  }

  function EmoteStatsKey(id: LineId): Option<string>
  {
    match id
    case EmoteCountUsage => Some("emote_count.usage")
    case EmoteCountNotFound => Some("emote_count.not_found")
    case EmoteTopResponse => Some("emote_top.response")
    case EmoteTopNoEmotes => Some("emote_top.no_emotes")
    case EmoteSimilaritySetSimilar => Some("emote_similarity.set_similar")
    case EmoteSimilaritySetNotSimilar => Some("emote_similarity.set_not_similar")
    case _ => None
  }

  /** Keys of user id replies. */
  function UserIdLine(key: string): (r: Option<LineId>)
    ensures r.Some? ==> UserIdKey(r.value) == Some(key)
  {
    match key
    case "userid.found" => Some(UserIdFound)
    case "userid.chat_ban" => Some(UserIdChatban)
    case _ => None
  }

  function UserIdKey(id: LineId): Option<string>
  {
    match id
    case UserIdFound => Some("userid.found")
    case UserIdChatban => Some("userid.chat_ban")
    case _ => None
  }

  /**
   * `LineId::from_string`: the line a localization file key names; a key that is
   * not listed gives None.
   */
  function LineIdFromString(key: string): (r: Option<LineId>)
    ensures r.Some? ==> LineIdKey(r.value) == Some(key)
  {
    if ArgumentLine(key).Some? then ArgumentLine(key)
    else if HintLine(key).Some? then HintLine(key)
    else if ErrorLine(key).Some? then ErrorLine(key)
    else if SharedWordLine(key).Some? then SharedWordLine(key)
    else if SimpleCommandLine(key).Some? then SimpleCommandLine(key)
    else if JoinLine(key).Some? then JoinLine(key)
    else if TimerReplyLine(key).Some? then TimerReplyLine(key)
    else if TimerListLine(key).Some? then TimerListLine(key)
    else if CustomCommandReplyLine(key).Some? then CustomCommandReplyLine(key)
    else if CustomCommandListLine(key).Some? then CustomCommandListLine(key)
    else if EventLine(key).Some? then EventLine(key)
    else if NotifyLine(key).Some? then NotifyLine(key)
    else if SettingsLine(key).Some? then SettingsLine(key)
    else if EmoteStatsLine(key).Some? then EmoteStatsLine(key)
    else UserIdLine(key)
  }

  /** Two keys that name the same line are the same key. */
  lemma LineIdFromStringInjective(k1: string, k2: string)
    requires LineIdFromString(k1).Some? && LineIdFromString(k1) == LineIdFromString(k2)
    ensures k1 == k2
  {
  }

  lemma TimerAlreadyExistsUnkeyed()
    ensures LineIdKey(TimerAlreadyExistsError) == None
  {
  }

  /** No key loads `TimerAlreadyExistsError`. */
  lemma TimerAlreadyExistsNeverLoaded(key: string)
    ensures LineIdFromString(key) != Some(TimerAlreadyExistsError)
  {
    TimerAlreadyExistsUnkeyed();
  }

  /** The variant's name, as the derived `Debug` prints it. */
  function LineIdName(id: LineId): string
  {
    match id
    case ArgumentSubcommand => "ArgumentSubcommand"
    case ArgumentMessage => "ArgumentMessage"
    case ArgumentInterval => "ArgumentInterval"
    case ArgumentName => "ArgumentName"
    case ArgumentTarget => "ArgumentTarget"
    case ArgumentValue => "ArgumentValue"
    case ArgumentAmount => "ArgumentAmount"
    case MsgHint => "MsgHint"
    case HintUrlSpam => "HintUrlSpam"
    case HintUrlMassping => "HintUrlMassping"
    case HintUrlHoliday => "HintUrlHoliday"
    case HintUrlJoin => "HintUrlJoin"
    case HintUrlTimer => "HintUrlTimer"
    case HintUrlCmd => "HintUrlCmd"
    case HintUrlEvent => "HintUrlEvent"
    case HintUrlNotify => "HintUrlNotify"
    case HintUrlSet => "HintUrlSet"
    case HintUrlEcount => "HintUrlEcount"
    case HintUrlEtop => "HintUrlEtop"
    case HintUrlEsim => "HintUrlEsim"
    case MsgError => "MsgError"
    case ErrorNotEnoughArguments => "ErrorNotEnoughArguments"
    case ErrorWrongArgumentType => "ErrorWrongArgumentType"
    case ErrorIncorrectArgument => "ErrorIncorrectArgument"
    case ErrorIncompatibleName => "ErrorIncompatibleName"
    case ErrorNamesakeCreation => "ErrorNamesakeCreation"
    case ErrorExternalAPIError => "ErrorExternalAPIError"
    case ErrorNotFound => "ErrorNotFound"
    case ErrorInsufficientRights => "ErrorInsufficientRights"
    case ErrorSomethingWentWrong => "ErrorSomethingWentWrong"
    case MiscDescending => "MiscDescending"
    case MiscAscending => "MiscAscending"
    case EmotesPushed => "EmotesPushed"
    case EmotesUpdated => "EmotesUpdated"
    case EmotesPulled => "EmotesPulled"
    case Provider7TV => "Provider7TV"
    case MsgNoMessage => "MsgNoMessage"
    case CommandPingResponse => "CommandPingResponse"
    case CommandSpamNoCount => "CommandSpamNoCount"
    case CommandSpamInvalidCount => "CommandSpamInvalidCount"
    case CommandSpamResponse => "CommandSpamResponse"
    case CommandHolidayEmpty => "CommandHolidayEmpty"
    case CommandHolidayResponse => "CommandHolidayResponse"
    case CommandJoinAlreadyJoined => "CommandJoinAlreadyJoined"
    case CommandJoinResponse => "CommandJoinResponse"
    case CommandJoinResponseInChat => "CommandJoinResponseInChat"
    case JoinOtherchatroom => "JoinOtherchatroom"
    case CommandTimerDeleted => "CommandTimerDeleted"
    case CommandTimerEnabled => "CommandTimerEnabled"
    case CommandTimerDisabled => "CommandTimerDisabled"
    case CommandTimerInfo => "CommandTimerInfo"
    case CommandTimerInterval => "CommandTimerInterval"
    case CommandTimerMessage => "CommandTimerMessage"
    case CommandTimerNew => "CommandTimerNew"
    case TimerList => "TimerList"
    case TimerListEmpty => "TimerListEmpty"
    case CommandCustomCommandDeleted => "CommandCustomCommandDeleted"
    case CommandCustomCommandEnabled => "CommandCustomCommandEnabled"
    case CommandCustomCommandDisabled => "CommandCustomCommandDisabled"
    case CommandCustomCommandInfo => "CommandCustomCommandInfo"
    case CommandCustomCommandMessage => "CommandCustomCommandMessage"
    case CommandCustomCommandNew => "CommandCustomCommandNew"
    case CustomcommandList => "CustomcommandList"
    case CustomcommandListEmpty => "CustomcommandListEmpty"
    case EventOn => "EventOn"
    case EventOff => "EventOff"
    case EventFlagOn => "EventFlagOn"
    case EventFlagOff => "EventFlagOff"
    case NotifySub => "NotifySub"
    case NotifyAlreadySub => "NotifyAlreadySub"
    case NotifyUnsub => "NotifyUnsub"
    case NotifyAlreadyUnsub => "NotifyAlreadyUnsub"
    case NotifySubs => "NotifySubs"
    case NotifyNoSubs => "NotifyNoSubs"
    case NotifyList => "NotifyList"
    case NotifyListEmpty => "NotifyListEmpty"
    case SettingsPrefix => "SettingsPrefix"
    case SettingsLocale => "SettingsLocale"
    case SettingsFeatureOn => "SettingsFeatureOn"
    case SettingsFeatureOff => "SettingsFeatureOff"
    case EmoteCountUsage => "EmoteCountUsage"
    case EmoteCountNotFound => "EmoteCountNotFound"
    case EmoteTopResponse => "EmoteTopResponse"
    case EmoteTopNoEmotes => "EmoteTopNoEmotes"
    case EmoteSimilaritySetSimilar => "EmoteSimilaritySetSimilar"
    case EmoteSimilaritySetNotSimilar => "EmoteSimilaritySetNotSimilar"
    case UserIdFound => "UserIdFound"
    case UserIdChatban => "UserIdChatban"
    case EventAlreadyExistsError => "EventAlreadyExistsError"
    case TimerAlreadyExistsError => "TimerAlreadyExistsError"
    case CustomCommandAlreadyExistsError => "CustomCommandAlreadyExistsError"
  }

  // ---------------------------------------------------------------------
  // Lookup
  // ---------------------------------------------------------------------

  /** The loaded localizations: locale name to its lines. */
  type Locales<Id> = map<string, map<Id, string>>

  /** `get_literal_text`: the raw line, present only when both the locale and the line are. */
  function GetLiteralText<Id>(locales: Locales<Id>, locale: string, id: Id): (r: Option<string>)
    ensures r.Some? <==> locale in locales && id in locales[locale]
    ensures r.Some? ==> r.value == locales[locale][id]
  {
    if locale in locales && id in locales[locale] then Some(locales[locale][id]) else None
  }

  // ---------------------------------------------------------------------
  // Placeholders
  // ---------------------------------------------------------------------

  /** A `u8` value. */
  type Byte = n: nat | n < U8_LIMIT

  datatype LinePlaceholder =
      SenderAliasName | SenderAliasId
    | TargetAliasName | TargetAliasId
    | RequestMessage | RequestSubcommandId | RequestCommand
    | Argument(index: Byte)

  /** `LinePlaceholder::from_string`: a `u8` number is an argument index; seven names are request fields. */
  function PlaceholderFromString(s: string): (r: Option<LinePlaceholder>)
    ensures ParseUnsigned(s, U8_LIMIT).Some? ==> r == Some(Argument(ParseUnsigned(s, U8_LIMIT).value))
    ensures r.Some? && r.value.Argument? ==> ParseUnsigned(s, U8_LIMIT) == Some(r.value.index)
  {
    match ParseUnsigned(s, U8_LIMIT)
    case Some(v) => Some(Argument(v))
    case None =>
      match s
      case "sender.alias_name" => Some(SenderAliasName)
      case "sender.alias_id" => Some(SenderAliasId)
      case "target.alias_name" => Some(TargetAliasName)
      case "target.alias_id" => Some(TargetAliasId)
      case "request.message" => Some(RequestMessage)
      case "request.subcommand_id" => Some(RequestSubcommandId)
      case "request.command" => Some(RequestCommand)
      case _ => None
  }

  /** `Display for LinePlaceholder`. */
  function PlaceholderDisplay(p: LinePlaceholder): string
  {
    match p
    case SenderAliasName => "sender.alias_name"
    case SenderAliasId => "sender.alias_id"
    case TargetAliasName => "target.alias_name"
    case TargetAliasId => "target.alias_id"
    case RequestMessage => "request.message"
    case RequestSubcommandId => "request.subcommand_id"
    case RequestCommand => "request.command"
    case Argument(v) => NatToString(v)
  }

  /** Printing a placeholder and parsing it back gives the same placeholder. */
  lemma PlaceholderRoundTrip(p: LinePlaceholder)
    ensures PlaceholderFromString(PlaceholderDisplay(p)) == Some(p)
  {
    match p
    case Argument(v) => ParseNatToString(v, U8_LIMIT);
    case _ => NamedPlaceholderRoundTrip(p);
  }

  /** The request-field placeholders: their names start with a letter, so they never parse as an index. */
  lemma NamedPlaceholderRoundTrip(p: LinePlaceholder)
    requires !p.Argument?
    ensures PlaceholderFromString(PlaceholderDisplay(p)) == Some(p)
  {
    var name := PlaceholderDisplay(p);
    assert 'a' <= name[0] <= 'z';
    assert ParseUnsigned(name, U8_LIMIT).None?;
  }

  function OptionToSeq<T>(o: Option<T>): (s: seq<T>)
    ensures |s| <= 1
    ensures o.Some? ==> s == [o.value]
    ensures o.None? <==> s == []
  {
    match o
    case Some(v) => [v]
    case None => []
  }

  /**
   * The loop of `parse_placeholders` over the rest `s` of the line: `{` starts
   * reading (keeping the buffer), `}` stops it, emits the buffer if it names a
   * placeholder and clears it, and other characters are buffered only while
   * reading.
   */
  function ScanPlaceholders(s: string, reading: bool, buffer: string): seq<LinePlaceholder>
    decreases |s|
  {
    if |s| == 0 then []
    else if s[0] == '{' then ScanPlaceholders(s[1..], true, buffer)
    else if s[0] == '}' then OptionToSeq(PlaceholderFromString(buffer)) + ScanPlaceholders(s[1..], false, "")
    else ScanPlaceholders(s[1..], reading, if reading then buffer + [s[0]] else buffer)
  }

  /** `parse_placeholders`. */
  function ParsePlaceholders(line: string): seq<LinePlaceholder>
  {
    ScanPlaceholders(line, false, "")
  }

  /** `s` with every `c` removed. */
  function Without(s: string, c: char): string
  {
    if |s| == 0 then "" else (if s[0] == c then "" else [s[0]]) + Without(s[1..], c)
  }

  /** What a segment free of `}` leaves in the buffer: the text after its first `{`, with every `{` dropped. */
  function SegmentBuffer(seg: string): string
  {
    match CharIndex(seg, '{')
    case None => ""
    case Some(i) => Without(seg[i + 1..], '{')
  }

  /**
   * Reference reading of a template: cut it at every `}`; each piece before a
   * `}` yields the placeholder its buffer names, if any; the tail after the last
   * `}` yields nothing.
   */
  function SegmentPlaceholders(line: string): seq<LinePlaceholder>
    decreases |line|
  {
    match CharIndex(line, '}')
    case None => []
    case Some(p) => OptionToSeq(PlaceholderFromString(SegmentBuffer(line[..p]))) + SegmentPlaceholders(line[p + 1..])
  }

  predicate NoClose(s: string)
  {
    forall j :: 0 <= j < |s| ==> s[j] != '}'
  }

  /** The buffer after scanning a segment free of `}`. */
  function Buffered(seg: string, reading: bool, buffer: string): string
    decreases |seg|
  {
    if |seg| == 0 then buffer
    else if seg[0] == '{' then Buffered(seg[1..], true, buffer)
    else Buffered(seg[1..], reading, if reading then buffer + [seg[0]] else buffer)
  }

  lemma {:induction false} ScanNoClose(s: string, reading: bool, buffer: string)
    requires NoClose(s)
    ensures ScanPlaceholders(s, reading, buffer) == []
    decreases |s|
  {
    if |s| > 0 {
      ScanNoClose(s[1..], if s[0] == '{' then true else reading,
        if s[0] != '{' && reading then buffer + [s[0]] else buffer);
    }
  }

  lemma {:induction false} ScanThroughSegment(seg: string, rest: string, reading: bool, buffer: string)
    requires NoClose(seg)
    ensures ScanPlaceholders(seg + "}" + rest, reading, buffer)
         == OptionToSeq(PlaceholderFromString(Buffered(seg, reading, buffer))) + ScanPlaceholders(rest, false, "")
    decreases |seg|
  {
    var s := seg + "}" + rest;
    if |seg| == 0 {
      assert s[1..] == rest;
    } else {
      assert s[1..] == seg[1..] + "}" + rest;
      ScanThroughSegment(seg[1..], rest, if seg[0] == '{' then true else reading,
        if seg[0] != '{' && reading then buffer + [seg[0]] else buffer);
    }
  }

  lemma {:induction false} BufferedReading(seg: string, buffer: string)
    ensures Buffered(seg, true, buffer) == buffer + Without(seg, '{')
    decreases |seg|
  {
    if |seg| > 0 {
      if seg[0] == '{' {
        BufferedReading(seg[1..], buffer);
      } else {
        BufferedReading(seg[1..], buffer + [seg[0]]);
      }
    }
  }

  lemma {:induction false} BufferedFromStart(seg: string)
    ensures Buffered(seg, false, "") == SegmentBuffer(seg)
    decreases |seg|
  {
    if |seg| > 0 {
      if seg[0] == '{' {
        BufferedReading(seg[1..], "");
      } else {
        BufferedFromStart(seg[1..]);
        match CharIndex(seg[1..], '{')
        case None =>
        case Some(i) =>
          assert seg[1..][i + 1..] == seg[i + 2..];
      }
    }
  }

  /** The character scanner agrees with the segment reading on every template. */
  lemma {:induction false} ParseMatchesSegments(line: string)
    ensures ParsePlaceholders(line) == SegmentPlaceholders(line)
    decreases |line|
  {
    match CharIndex(line, '}')
    case None =>
      ScanNoClose(line, false, "");
    case Some(p) =>
      var seg, rest := line[..p], line[p + 1..];
      assert line == seg + "}" + rest;
      ScanThroughSegment(seg, rest, false, "");
      BufferedFromStart(seg);
      ParseMatchesSegments(rest);
  }

  function CountChar(s: string, c: char): nat
  {
    if |s| == 0 then 0 else (if s[0] == c then 1 else 0) + CountChar(s[1..], c)
  }

  /** At most one placeholder per `}`. */
  lemma {:induction false} AtMostOnePerClose(s: string, reading: bool, buffer: string)
    ensures |ScanPlaceholders(s, reading, buffer)| <= CountChar(s, '}')
    decreases |s|
  {
    if |s| > 0 {
      AtMostOnePerClose(s[1..], if s[0] == '{' then true else if s[0] == '}' then false else reading,
        if s[0] == '}' then "" else if s[0] != '{' && reading then buffer + [s[0]] else buffer);
    }
  }

  /** A second `{` does not reset the buffer, so the characters before it spoil the name. */
  lemma NestedOpenSpoilsName()
    ensures ParsePlaceholders("{a{0}") == []
  {
    assert ParseUnsigned("a0", U8_LIMIT).None?;
    assert PlaceholderFromString("a0") == None;
    assert "a" + ['0'] == "a0";
    assert ScanPlaceholders("}", true, "a0") == [];
    assert ScanPlaceholders("0}", true, "a") == [];
    assert ScanPlaceholders("{0}", true, "a") == [];
    assert "" + ['a'] == "a";
    assert ScanPlaceholders("a{0}", true, "") == [];
  }

  lemma {:induction false} ScanNoOpen(s: string)
    requires forall j :: 0 <= j < |s| ==> s[j] != '{'
    ensures ScanPlaceholders(s, false, "") == []
    decreases |s|
  {
    if |s| > 0 {
      ScanNoOpen(s[1..]);
      assert ParseUnsigned("", U8_LIMIT).None?;
    }
  }

  // ---------------------------------------------------------------------
  // Substitution
  // ---------------------------------------------------------------------

  /** The text a placeholder stands for in a line: its name in braces. */
  function Pattern(p: LinePlaceholder): (s: string)
    ensures |s| >= 2 && s[0] == '{'
  {
    "{" + PlaceholderDisplay(p) + "}"
  }

  /**
   * The value `replace_placeholders` puts in place of `p`: an argument index
   * within range takes that parameter, request fields come from the request,
   * and anything without a value is left as its own pattern.
   */
  function Replacement(p: LinePlaceholder, parameters: seq<string>, request: Option<Request>): (r: string)
    ensures p.Argument? && p.index < |parameters| ==> r == parameters[p.index]
    ensures p.Argument? && p.index >= |parameters| ==> r == Pattern(p)
    ensures !p.Argument? && request.None? ==> r == Pattern(p)
  {
    match p
    case Argument(v) => if v < |parameters| then parameters[v] else Pattern(p)
    case _ =>
      match request
      case None => Pattern(p)
      case Some(q) =>
        match p
        case SenderAliasName => q.sender.aliasName
        case SenderAliasId => IntToString(q.sender.aliasId)
        case TargetAliasName => q.channel.aliasName
        case TargetAliasId => IntToString(q.channel.aliasId)
        case RequestMessage => q.message.GetOr("")
        case RequestSubcommandId => q.subcommandId.GetOr("")
        case RequestCommand => q.commandId
        case Argument(_) => Pattern(p)
  }

  /** `replace_placeholders`: each placeholder in turn, every occurrence of its pattern replaced. */
  function ReplacePlaceholders(line: string, placeholders: seq<LinePlaceholder>, parameters: seq<string>,
                               request: Option<Request>): string
    decreases |placeholders|
  {
    if |placeholders| == 0 then line
    else
      var p := placeholders[0];
      ReplacePlaceholders(ReplaceAll(line, Pattern(p), Replacement(p, parameters, request)),
                          placeholders[1..], parameters, request)
  }

  /** With no request and no parameters every placeholder stays, so the line is unchanged. */
  lemma {:induction false} ReplaceWithoutValues(line: string, placeholders: seq<LinePlaceholder>)
    ensures ReplacePlaceholders(line, placeholders, [], None) == line
    decreases |placeholders|
  {
    if |placeholders| > 0 {
      ReplaceAllSelf(line, Pattern(placeholders[0]));
      ReplaceWithoutValues(line, placeholders[1..]);
    }
  }

  // ---------------------------------------------------------------------
  // Formatting
  // ---------------------------------------------------------------------

  /**
   * The prefix of the missing-line notice, byte for byte as the source file
   * holds it: the UTF-8 bytes of U+1F6A8 read as Windows-1252 characters and
   * encoded again ("ðŸš¨", eight bytes).
   */
  const ALARM: string := "\U{C3}\U{B0}\U{C5}\U{B8}\U{C5}\U{A1}\U{C2}\U{A8}"

  /** The text shown when a locale has no such line. */
  function MissingLine(id: LineId, locale: string): string
  {
    ALARM + " No localization line for " + LineIdName(id) + " in " + locale + "!"
  }

  /** `format_text_internal`: the line with its placeholders substituted, or the missing-line notice. */
  function FormatTextInternal(locales: Locales<LineId>, locale: string, id: LineId, parameters: seq<string>,
                              request: Option<Request>): string
  {
    match GetLiteralText(locales, locale, id)
    case Some(line) => ReplacePlaceholders(line, ParsePlaceholders(line), parameters, request)
    case None => MissingLine(id, locale)
  }

  /** `get_formatted_text`: never None; formats without a request. */
  function GetFormattedText(locales: Locales<LineId>, locale: string, id: LineId, parameters: seq<string>): (r: Option<string>)
    ensures r.Some?
    ensures GetLiteralText(locales, locale, id).None? ==> r.value == MissingLine(id, locale)
    ensures parameters == [] && GetLiteralText(locales, locale, id).Some? ==>
              r.value == GetLiteralText(locales, locale, id).value
  {
    var text := FormatTextInternal(locales, locale, id, parameters, None);
    if parameters == [] && GetLiteralText(locales, locale, id).Some? then
      ReplaceWithoutValues(locales[locale][id], ParsePlaceholders(locales[locale][id]));
      Some(text)
    else
      Some(text)
  }

  /** `formatted_text_by_request`: formats in the channel's language with the request's fields. */
  function FormattedTextByRequest(locales: Locales<LineId>, request: Request, id: LineId, parameters: seq<string>): (r: string)
    ensures GetLiteralText(locales, request.channelPreference.language, id).None? ==>
              r == MissingLine(id, request.channelPreference.language)
  {
    FormatTextInternal(locales, request.channelPreference.language, id, parameters, Some(request))
  }

  /** A line without any `{` is printed verbatim, whatever the parameters and request. */
  lemma PlainLineVerbatim(locales: Locales<LineId>, locale: string, id: LineId, parameters: seq<string>,
                          request: Option<Request>)
    requires GetLiteralText(locales, locale, id).Some?
    requires forall j :: 0 <= j < |locales[locale][id]| ==> locales[locale][id][j] != '{'
    ensures FormatTextInternal(locales, locale, id, parameters, request) == locales[locale][id]
  {
    ScanNoOpen(locales[locale][id]);
  }
}

=== FILE: massping.dfy ===
/**
 * The `!massping` line packer of `bot/src/modules/massping.rs`: every chatter of
 * the channel is mentioned as `@login, `, mentions are packed into lines under a
 * 500-byte limit that counts the message appended to each line.
 */
module Massping {
  import opened Options
  import opened Commands
  import Utils

  /** Byte limit the packer tests each extended line (message included) against. */
  const LINE_LIMIT: nat := 500

  /** How one chatter is mentioned. */
  function Mention(login: string): (m: string)
    ensures |m| == |login| + 3
  {
    "@" + login + ", "
  }

  /** The mentions of `logins`, in order. */
  function Mentions(logins: seq<string>): (s: string)
    ensures |logins| > 0 ==> |s| > 0
  {
    if |logins| == 0 then "" else Mentions(logins[..|logins| - 1]) + Mention(logins[|logins| - 1])
  }

  lemma MentionsSnoc(logins: seq<string>, login: string)
    ensures Mentions(logins + [login]) == Mentions(logins) + Mention(login)
  {
    assert (logins + [login])[..|logins|] == logins;
  }

  /** The packer's test: the line extended with this chatter, message appended, reaches the limit. */
  predicate Overflows(line: string, login: string, message: string)
  {
    |line + Mention(login) + message| >= LINE_LIMIT
  }

  /**
   * The grouping the packer produces: a new line is opened exactly when the
   * current line would overflow, and every other chatter (the very first one
   * included, when it fits next to the empty first line) extends the current line.
   */
  predicate MentionShape(groups: seq<seq<string>>, message: string)
  {
    && |groups| >= 1
    && (forall k :: 1 <= k < |groups| ==>
          |groups[k]| >= 1 && Overflows(Mentions(groups[k - 1]), groups[k][0], message))
    && (forall k, j :: 0 <= k < |groups| && 0 <= j < |groups[k]| && (j > 0 || k == 0) ==>
          !Overflows(Mentions(groups[k][..j]), groups[k][j], message))
  }

  /** `lines` are the packed groups of `chatters`, in order, each followed by the message. */
  predicate Packing(groups: seq<seq<string>>, chatters: seq<string>, message: string, lines: seq<string>)
  {
    && MentionShape(groups, message)
    && Utils.Flatten(groups) == chatters
    && |lines| == |groups|
    && (forall k :: 0 <= k < |lines| ==> lines[k] == Mentions(groups[k]) + message)
  }

  /** The loop state: one line per group, each line the mentions of its group. */
  predicate LinesOfGroups(lines: seq<string>, groups: seq<seq<string>>, message: string)
  {
    && |lines| == |groups|
    && (forall k :: 0 <= k < |lines| ==> lines[k] == Mentions(groups[k]))
    && MentionShape(groups, message)
  }

  /** The message appended to every line (the final `map` of the command). */
  function AppendMessage(lines: seq<string>, message: string): (out: seq<string>)
    ensures |out| == |lines|
    ensures forall k :: 0 <= k < |lines| ==> out[k] == lines[k] + message
  {
    if |lines| == 0 then [] else [lines[0] + message] + AppendMessage(lines[1..], message)
  }

  /**
   * The packing loop: `lines` starts as one empty line; a chatter that would
   * overflow the current line moves `index` to a fresh line; the chatter's
   * mention is appended to the line at `index`. Finally the message is appended
   * to every line.
   */
  method PackMentions(chatters: seq<string>, message: string) returns (out: seq<string>)
    ensures |out| >= 1
    ensures exists groups :: Packing(groups, chatters, message, out)
    ensures |chatters| == 0 ==> out == [message]
    ensures |chatters| > 0 ==> (out[0] == message <==> |Mention(chatters[0]) + message| >= LINE_LIMIT)
  {
    var lines: seq<string> := [""];
    var index: nat := 0;
    ghost var groups: seq<seq<string>> := [[]];
    for i := 0 to |chatters|
      invariant |lines| == index + 1
      invariant LinesOfGroups(lines, groups, message)
      invariant Utils.Flatten(groups) == chatters[..i]
    {
      var chatter := chatters[i];
      assert chatters[..i + 1] == chatters[..i] + [chatter];
      var flush := |lines[index] + "@" + chatter + ", " + message| >= LINE_LIMIT;
      if flush {
        index := index + 1;
      }
      var line: string := "";
      var rest := lines;
      if index < |lines| {
        line := lines[index];
        rest := lines[..index] + lines[index + 1..];
      }
      var next := rest[..index] + [line + "@" + chatter + ", "] + rest[index..];
      InsertAtEnd(lines, index, line, chatter);
      if flush {
        FlushStep(lines, groups, chatter, message);
        groups := groups + [[chatter]];
      } else {
        StayStep(lines, groups, chatter, message);
        groups := groups[..index] + [groups[index] + [chatter]];
      }
      lines := next;
    }
    assert chatters[..|chatters|] == chatters;
    out := AppendMessage(lines, message);
    assert Packing(groups, chatters, message, out);
    if |chatters| == 0 {
      NoChattersOneLine(groups, chatters, message, out);
    } else {
      FirstLineBare(groups, chatters, message, out);
    }
  }

  /** Removing the line at `index` (if any) and inserting the extended line there replaces or adds the last line. */
  lemma InsertAtEnd(lines: seq<string>, index: nat, line: string, chatter: string)
    requires index == |lines| || index == |lines| - 1
    requires line == (if index < |lines| then lines[index] else "")
    ensures var rest := if index < |lines| then lines[..index] + lines[index + 1..] else lines;
            rest[..index] + [line + "@" + chatter + ", "] + rest[index..] == lines[..index] + [line + Mention(chatter)]
  {
    var rest := if index < |lines| then lines[..index] + lines[index + 1..] else lines;
    assert rest == lines[..index];
    assert rest[..index] == rest && rest[index..] == [];
    assert line + "@" + chatter + ", " == line + Mention(chatter);
  }

  /** A chatter that overflows the current line opens a new one. */
  lemma FlushStep(lines: seq<string>, groups: seq<seq<string>>, chatter: string, message: string)
    requires LinesOfGroups(lines, groups, message) && |lines| >= 1
    requires Overflows(lines[|lines| - 1], chatter, message)
    ensures LinesOfGroups(lines + ["" + Mention(chatter)], groups + [[chatter]], message)
    ensures Utils.Flatten(groups + [[chatter]]) == Utils.Flatten(groups) + [chatter]
  {
    Utils.FlattenSnoc(groups, [chatter]);
    AddGroupShape(groups, chatter, message);
    assert Mentions([chatter]) == Mentions([]) + Mention(chatter) by {
      MentionsSnoc([], chatter);
    }
  }

  /** A chatter that fits is appended to the current line. */
  lemma StayStep(lines: seq<string>, groups: seq<seq<string>>, chatter: string, message: string)
    requires LinesOfGroups(lines, groups, message) && |lines| >= 1
    requires !Overflows(lines[|lines| - 1], chatter, message)
    ensures var n := |lines| - 1;
            LinesOfGroups(lines[..n] + [lines[n] + Mention(chatter)], groups[..n] + [groups[n] + [chatter]], message)
    ensures var n := |lines| - 1;
            Utils.Flatten(groups[..n] + [groups[n] + [chatter]]) == Utils.Flatten(groups) + [chatter]
  {
    var n := |lines| - 1;
    Utils.FlattenExtendLast(groups, chatter);
    MentionsSnoc(groups[n], chatter);
    ExtendGroupShape(groups, chatter, message);
  }

  lemma AddGroupShape(groups: seq<seq<string>>, chatter: string, message: string)
    requires MentionShape(groups, message)
    requires Overflows(Mentions(groups[|groups| - 1]), chatter, message)
    ensures MentionShape(groups + [[chatter]], message)
  {
    var g := groups + [[chatter]];
    forall k, j | 0 <= k < |g| && 0 <= j < |g[k]| && (j > 0 || k == 0)
      ensures !Overflows(Mentions(g[k][..j]), g[k][j], message)
    {
      assert k < |groups|;
    }
  }

  lemma ExtendGroupShape(groups: seq<seq<string>>, chatter: string, message: string)
    requires MentionShape(groups, message)
    requires !Overflows(Mentions(groups[|groups| - 1]), chatter, message)
    ensures MentionShape(groups[..|groups| - 1] + [groups[|groups| - 1] + [chatter]], message)
  {
    var n := |groups| - 1;
    var g := groups[..n] + [groups[n] + [chatter]];
    forall k | 1 <= k < |g|
      ensures |g[k]| >= 1 && Overflows(Mentions(g[k - 1]), g[k][0], message)
    {
      if k == n {
        assert |groups[n]| >= 1;
        assert g[k][0] == groups[n][0];
      }
    }
    forall k, j | 0 <= k < |g| && 0 <= j < |g[k]| && (j > 0 || k == 0)
      ensures !Overflows(Mentions(g[k][..j]), g[k][j], message)
    {
      if k == n {
        if j == |groups[n]| {
          assert g[k][..j] == groups[n];
        } else {
          assert g[k][..j] == groups[n][..j];
        }
      }
    }
  }

  /** Every group after the first is non-empty, so no chatters leaves only the first, empty, line. */
  lemma {:induction false} NoChattersOneLine(groups: seq<seq<string>>, chatters: seq<string>, message: string, lines: seq<string>)
    requires Packing(groups, chatters, message, lines)
    requires |chatters| == 0
    ensures lines == [message]
  {
    FlattenLength(groups);
    assert |groups| == 1 && groups[0] == [];
    assert lines[0] == "" + message == message;
  }

  /** When every group after the first is non-empty, each adds at least one element. */
  lemma {:induction false} FlattenLength(groups: seq<seq<string>>)
    requires forall k :: 1 <= k < |groups| ==> |groups[k]| >= 1
    ensures |groups| > 0 ==> |Utils.Flatten(groups)| >= |groups| - 1 + |groups[0]|
  {
    if |groups| > 1 {
      FlattenLength(groups[1..]);
    }
  }

  /** The flattened groups are empty exactly when every group is. */
  lemma {:induction false} FlattenEmpty(groups: seq<seq<string>>)
    ensures Utils.Flatten(groups) == [] <==> forall k :: 0 <= k < |groups| ==> groups[k] == []
  {
    if |groups| > 0 {
      FlattenEmpty(groups[1..]);
      assert forall k :: 1 <= k < |groups| ==> groups[k] == groups[1..][k - 1];
    }
  }

  /**
   * The first line carries no mention exactly when the first chatter alone,
   * with the message, reaches the limit.
   */
  lemma FirstLineBare(groups: seq<seq<string>>, chatters: seq<string>, message: string, lines: seq<string>)
    requires Packing(groups, chatters, message, lines)
    requires |chatters| > 0
    ensures lines[0] == message <==> |Mention(chatters[0]) + message| >= LINE_LIMIT
  {
    assert Utils.Flatten(groups) == groups[0] + Utils.Flatten(groups[1..]);
    FlattenEmpty(groups);
    if groups[0] == [] {
      assert |groups| > 1;
      assert Utils.Flatten(groups[1..]) == groups[1] + Utils.Flatten(groups[2..]);
      assert groups[1][0] == chatters[0];
      assert Overflows("", chatters[0], message);
      assert "" + Mention(chatters[0]) + message == Mention(chatters[0]) + message;
    } else {
      assert groups[0][0] == chatters[0];
      assert groups[0][..0] == [];
      assert !Overflows("", chatters[0], message);
      assert "" + Mention(chatters[0]) + message == Mention(chatters[0]) + message;
      assert |lines[0]| > |message|;
    }
  }

  /** A line holding two or more mentions stays under the limit, message included. */
  lemma MultiMentionLineUnderLimit(groups: seq<seq<string>>, chatters: seq<string>, message: string, lines: seq<string>, k: nat)
    requires Packing(groups, chatters, message, lines)
    requires k < |groups| && (|groups[k]| >= 2 || (k == 0 && |groups[k]| >= 1))
    ensures |lines[k]| < LINE_LIMIT
  {
    var g := groups[k];
    var j := |g| - 1;
    assert !Overflows(Mentions(g[..j]), g[j], message);
    assert g[..j] + [g[j]] == g;
    MentionsSnoc(g[..j], g[j]);
  }

  /**
   * `MasspingCommand::execute`: a failed chatter lookup is reported as missing
   * rights; otherwise the packed lines, with a missing message taken as empty.
   */
  method Execute(chatters: Option<seq<string>>, message: Option<string>) returns (r: Result<Response, ResponseError>)
    ensures chatters.None? ==> r == Err(InsufficientRights)
    ensures chatters.Some? ==> r.Ok? && r.value.Multiple? && |r.value.texts| >= 1
    ensures chatters.Some? ==> exists lines :: r.value == Multiple(RawTexts(lines))
                                && (exists groups :: Packing(groups, chatters.value, message.GetOr(""), lines))
  {
    if chatters.None? {
      return Err(InsufficientRights);
    }
    var lines := PackMentions(chatters.value, message.GetOr(""));
    r := Ok(Multiple(RawTexts(lines)));
  }
}

=== FILE: models.dfy ===
/**
 * The database entities and enumerations of `common/src/models.rs`, and the
 * parsed chat request every command receives (`bot/src/commands/request.rs`).
 * Timestamps are whole seconds; database ids are plain integers.
 */
module Models {
  import opened Options

  // ---------------------------------------------------------------------
  // EventType
  // ---------------------------------------------------------------------

  datatype EventType = Live | Offline | Title | Category | Custom

  /** `EventType::from_str`: total; the four known names map to their variants, everything else to Custom. */
  function EventTypeFromStr(s: string): (t: EventType)
    ensures t == Live <==> s == "live"
    ensures t == Offline <==> s == "offline"
    ensures t == Title <==> s == "title"
    ensures t == Category <==> s == "category"
    ensures t == Custom <==> s != "live" && s != "offline" && s != "title" && s != "category"
  {
    match s
    case "live" => Live
    case "offline" => Offline
    case "title" => Title
    case "category" => Category
    case _ => Custom
  }

  /** `EventType::to_string`: the lower-case variant name. */
  function EventTypeToString(t: EventType): string
  {
    match t
    case Live => "live"
    case Offline => "offline"
    case Title => "title"
    case Category => "category"
    case Custom => "custom"
  }

  /** Printing an event type and parsing it back gives the same type, so printing is injective. */
  lemma EventTypeRoundTrip(t: EventType)
    ensures EventTypeFromStr(EventTypeToString(t)) == t
  {
  }

  lemma EventTypeToStringInjective(a: EventType, b: EventType)
    requires EventTypeToString(a) == EventTypeToString(b)
    ensures a == b
  {
    EventTypeRoundTrip(a);
    EventTypeRoundTrip(b);
  }

  // ---------------------------------------------------------------------
  // EventFlag
  // ---------------------------------------------------------------------

  datatype EventFlag = Massping

  /** `EventFlag::from_str`: only the exact name `massping` is a flag. */
  function EventFlagFromStr(s: string): (r: Option<EventFlag>)
    ensures r.Some? <==> s == "massping"
  {
    if s == "massping" then Some(Massping) else None
  }

  // ---------------------------------------------------------------------
  // LevelOfRights
  // ---------------------------------------------------------------------

  /** Declared in increasing order, which is the derived `Ord`. */
  datatype LevelOfRights = Suspended | Subscriber | User | Vip | Moderator | Broadcaster

  /** Position in the declaration. */
  function Rank(l: LevelOfRights): nat
  {
    match l
    case Suspended => 0
    case Subscriber => 1
    case User => 2
    case Vip => 3
    case Moderator => 4
    case Broadcaster => 5
  }

  /** The derived `<` on levels. */
  predicate Below(a: LevelOfRights, b: LevelOfRights)
  {
    Rank(a) < Rank(b)
  }

  /** The derived order is the declaration order, and it is a strict total order. */
  lemma LevelOrder(a: LevelOfRights, b: LevelOfRights, c: LevelOfRights)
    ensures Below(Suspended, Subscriber) && Below(Subscriber, LevelOfRights.User) && Below(LevelOfRights.User, Vip)
    ensures Below(Vip, Moderator) && Below(Moderator, Broadcaster)
    ensures !Below(a, a)
    ensures Below(a, b) || a == b || Below(b, a)
    ensures Below(a, b) && Below(b, c) ==> Below(a, c)
    ensures Below(a, b) ==> !Below(b, a)
  {
  }

  // ---------------------------------------------------------------------
  // Entities
  // ---------------------------------------------------------------------

  /** A joined chat room; `aliasId` and `aliasName` are its Twitch id and login. */
  datatype Channel = Channel(id: int, aliasId: int, aliasName: string)

  datatype ChannelPreference = ChannelPreference(channelId: int, prefix: string, language: string)

  datatype User = User(id: int, aliasId: int, aliasName: string)

  datatype Event = Event(
    id: int,
    channelId: int,
    targetAliasId: Option<int>,
    customAliasId: Option<string>,
    eventType: EventType,
    flags: seq<EventFlag>,
    message: string)

  datatype EventSubscription = EventSubscription(id: int, eventId: int, userId: int)

  datatype Timer = Timer(
    id: int,
    name: string,
    channelId: int,
    messages: seq<string>,
    intervalSec: int,
    lastExecutedAt: int,
    isEnabled: bool)

  datatype CustomCommand = CustomCommand(
    id: int,
    channelId: int,
    name: string,
    messages: seq<string>,
    isEnabled: bool)

  datatype Right = Right(id: int, userId: int, channelId: int, level: LevelOfRights)

  /** A chat message that passed prefix, command and rights checks. */
  datatype Request = Request(
    commandId: string,
    subcommandId: Option<string>,
    message: Option<string>,
    sender: User,
    channel: Channel,
    channelPreference: ChannelPreference,
    rights: Right)

  const DEFAULT_PREFIX: string := "~"
  const DEFAULT_LANGUAGE: string := "english"
}

=== FILE: notify_command.dfy ===
/**
 * `!notify` (`bot/src/modules/notify.rs`): a user subscribes to (`sub`) or
 * unsubscribes from (`unsub`) one of the channel's stream events.
 */
module NotifyCommand {
  import opened Options
  import opened Text
  import opened Models
  import opened Commands
  import opened EventTargets
  import Localization

  /** A change to the subscription table. */
  datatype Effect =
      InsertSubscription(eventId: int, userId: int)
    | DeleteSubscription(subscriptionId: int)

  datatype Outcome = Outcome(result: Result<Response, ResponseError>, effects: seq<Effect>)

  /** What the command reads: the Twitch user lookup, the channel's events, the sender's subscriptions. */
  datatype Inputs = Inputs(lookup: Option<string>, events: seq<Event>, subscriptions: seq<EventSubscription>)

  function Fail(e: ResponseError): Outcome
  {
    Outcome(Err(e), [])
  }

  /** Some subscription is for the event. */
  predicate HasSubscription(subs: seq<EventSubscription>, eventId: int)
  {
    exists y :: y in subs && y.eventId == eventId
  }

  /** The first subscription for the event. */
  function FirstSubscription(subs: seq<EventSubscription>, eventId: int): (y: EventSubscription)
    requires HasSubscription(subs, eventId)
    ensures y in subs && y.eventId == eventId
    ensures exists k :: (0 <= k < |subs| && subs[k] == y && forall j :: 0 <= j < k ==> subs[j].eventId != eventId)
  {
    if subs[0].eventId == eventId then subs[0]
    else
      assert forall y :: y in subs ==> y == subs[0] || y in subs[1..];
      var y := FirstSubscription(subs[1..], eventId);
      var k :| 0 <= k < |subs[1..]| && subs[1..][k] == y && forall j :: 0 <= j < k ==> subs[1..][j].eventId != eventId;
      assert subs[k + 1] == y;
      y
  }

  /** The reply lines all carry the sender, the target name and the event type. */
  function Reply(id: Localization.LineId, request: Request, t: EventTarget): Commands.Text
  {
    Formatted(id, [request.sender.aliasName, t.name, EventTypeToString(t.eventType)])
  }

  /** The sender's subscriptions: those of `all` whose user is the sender. */
  function SenderSubscriptions(all: seq<EventSubscription>, userId: int): (r: seq<EventSubscription>)
    ensures forall y :: y in r <==> y in all && y.userId == userId
  {
    if |all| == 0 then []
    else
      var rest := SenderSubscriptions(all[1..], userId);
      assert forall y :: y in all <==> y == all[0] || y in all[1..];
      if all[0].userId == userId then [all[0]] + rest else rest
  }

  /** The `(subcommand, event found, already subscribed)` table. */
  function Dispatch(sub: string, request: Request, t: EventTarget, found: Option<Event>,
                    subs: seq<EventSubscription>): (r: Outcome)
    ensures found.None? ==> r == Fail(NotFound(NameAndType(t)))
    ensures found.Some? && sub !in {"sub", "unsub"} ==> r == Fail(SomethingWentWrong)
    ensures found.Some? && sub == "sub" && !HasSubscription(subs, found.value.id) ==>
              r == Outcome(Ok(Single(Reply(Localization.NotifySub, request, t))),
                           [InsertSubscription(found.value.id, request.sender.id)])
    ensures found.Some? && sub == "sub" && HasSubscription(subs, found.value.id) ==>
              r == Outcome(Ok(Single(Reply(Localization.NotifyAlreadySub, request, t))), [])
    ensures found.Some? && sub == "unsub" && !HasSubscription(subs, found.value.id) ==>
              r == Outcome(Ok(Single(Reply(Localization.NotifyAlreadyUnsub, request, t))), [])
    ensures found.Some? && sub == "unsub" && HasSubscription(subs, found.value.id) ==>
              r == Outcome(Ok(Single(Reply(Localization.NotifyUnsub, request, t))),
                           [DeleteSubscription(FirstSubscription(subs, found.value.id).id)])
  {
    match found
    case None => Fail(NotFound(NameAndType(t)))
    case Some(e) =>
      var subscribed := HasSubscription(subs, e.id);
      if sub == "sub" && !subscribed then
        Outcome(Ok(Single(Reply(Localization.NotifySub, request, t))), [InsertSubscription(e.id, request.sender.id)])
      else if sub == "sub" then
        Outcome(Ok(Single(Reply(Localization.NotifyAlreadySub, request, t))), [])
      else if sub == "unsub" && !subscribed then
        Outcome(Ok(Single(Reply(Localization.NotifyAlreadyUnsub, request, t))), [])
      else if sub == "unsub" then
        Outcome(Ok(Single(Reply(Localization.NotifyUnsub, request, t))),
                [DeleteSubscription(FirstSubscription(subs, e.id).id)])
      else Fail(SomethingWentWrong)
  }

  /** `NotifyCommand::execute`; None stands for an `unwrap` panic: of the Twitch id parse or of the event lookup. */
  function Execute(request: Request, inputs: Inputs): (r: Option<Outcome>)
    ensures request.subcommandId.None? ==> r == Some(Fail(NotEnoughArguments(Subcommand)))
    ensures request.subcommandId.Some? && request.message.None? ==> r == Some(Fail(NotEnoughArguments(CommandArgument.Target)))
    ensures request.subcommandId.Some? && request.message.Some? && ParseTarget(request.message.value).Err? ==>
              r == Some(Fail(IncorrectArgument(Before(request.message.value, ' '))))
    ensures request.subcommandId.Some? && request.message.Some? && ParseTarget(request.message.value).Ok? ==>
              var t := ParseTarget(request.message.value).value;
              inputs.lookup.None? && t.eventType != Custom ==> r == Some(Fail(NotFound(t.name)))
    ensures r.Some? && r.value.result.Err? ==> r.value.effects == []
    ensures r.None? <==>
              && request.subcommandId.Some? && request.message.Some? && ParseTarget(request.message.value).Ok?
              && var t := ParseTarget(request.message.value).value;
                 && var id := ResolveTarget(t, inputs.lookup);
                    (id.None? || (id.value.Ok? && FindEventAsWritten(inputs.events, t, id.value.value).None?))
    ensures && (forall k :: 0 <= k < |inputs.events| ==> Keyed(inputs.events[k]))
            && (inputs.lookup.Some? ==> ParseI32(inputs.lookup.value).Some?)
            ==> r.Some?
  {
    match (request.subcommandId, request.message)
    case (None, _) => Some(Fail(NotEnoughArguments(Subcommand)))
    case (_, None) => Some(Fail(NotEnoughArguments(CommandArgument.Target)))
    case (Some(sub), Some(message)) =>
      match ParseTarget(message)
      case Err(err) => Some(Fail(err))
      case Ok(t) =>
        match ResolveTarget(t, inputs.lookup)
        case None => None
        case Some(Err(err)) => Some(Fail(err))
        case Some(Ok(targetId)) =>
          match FindEventAsWritten(inputs.events, t, targetId)
          case None => None
          case Some(found) =>
            Some(Dispatch(sub, request, t, found,
                          SenderSubscriptions(inputs.subscriptions, request.sender.id)))
  }

  /** The subscription table after the command's changes, new rows taking the given ids. */
  function Apply(subs: seq<EventSubscription>, effects: seq<Effect>, newId: int): seq<EventSubscription>
    decreases |effects|
  {
    if |effects| == 0 then subs
    else match effects[0]
      case InsertSubscription(eventId, userId) =>
        Apply(subs + [EventSubscription(newId, eventId, userId)], effects[1..], newId)
      case DeleteSubscription(id) =>
        Apply(Remove(subs, id), effects[1..], newId)
  }

  /** The table without the row of this id. */
  function Remove(subs: seq<EventSubscription>, id: int): (r: seq<EventSubscription>)
    ensures forall y :: y in r <==> y in subs && y.id != id
  {
    if |subs| == 0 then []
    else
      var rest := Remove(subs[1..], id);
      assert forall y :: y in subs <==> y == subs[0] || y in subs[1..];
      if subs[0].id == id then rest else [subs[0]] + rest
  }

  /**
   * `sub` is idempotent: once it has added the subscription, `sub` again
   * answers "already subscribed" and changes nothing.
   */
  lemma SubIdempotent(request: Request, t: EventTarget, e: Event, subs: seq<EventSubscription>, newId: int)
    requires !HasSubscription(subs, e.id)
    ensures var first := Dispatch("sub", request, t, Some(e), subs);
            var again := Dispatch("sub", request, t, Some(e), Apply(subs, first.effects, newId));
            again == Outcome(Ok(Single(Reply(Localization.NotifyAlreadySub, request, t))), [])
  {
    var effects := [InsertSubscription(e.id, request.sender.id)];
    var after := Apply(subs, effects, newId);
    var row := EventSubscription(newId, e.id, request.sender.id);
    assert effects[1..] == [];
    assert Apply(subs + [row], effects[1..], newId) == subs + [row];
    assert after == subs + [row];
    assert EventSubscription(newId, e.id, request.sender.id) in after;
  }

  /**
   * `unsub` after `sub` removes what `sub` added: the user is no longer
   * subscribed, provided the new row's id was not already in use.
   */
  lemma UnsubUndoesSub(request: Request, t: EventTarget, e: Event, subs: seq<EventSubscription>, newId: int)
    requires !HasSubscription(subs, e.id)
    requires forall y :: y in subs ==> y.id != newId
    ensures var first := Dispatch("sub", request, t, Some(e), subs);
            var subscribed := Apply(subs, first.effects, newId);
            var second := Dispatch("unsub", request, t, Some(e), subscribed);
            && second.result == Ok(Single(Reply(Localization.NotifyUnsub, request, t)))
            && Apply(subscribed, second.effects, newId) == subs
  {
    var row := EventSubscription(newId, e.id, request.sender.id);
    var subscribed := subs + [row];
    var effects := [InsertSubscription(e.id, request.sender.id)];
    assert effects[1..] == [];
    assert Apply(subs, effects, newId) == subscribed;
    assert row in subscribed;
    var y := FirstSubscription(subscribed, e.id);
    assert y == row by {
      var k :| 0 <= k < |subscribed| && subscribed[k] == y && forall j :: 0 <= j < k ==> subscribed[j].eventId != e.id;
      assert subscribed[k] !in subs ==> k == |subs|;
    }
    RemoveAbsent(subs, newId);
    RemoveSnoc(subs, row);
  }

  lemma {:induction false} RemoveAbsent(subs: seq<EventSubscription>, id: int)
    requires forall y :: y in subs ==> y.id != id
    ensures Remove(subs, id) == subs
  {
    if |subs| > 0 {
      RemoveAbsent(subs[1..], id);
    }
  }

  lemma {:induction false} RemoveSnoc(subs: seq<EventSubscription>, row: EventSubscription)
    ensures Remove(subs + [row], row.id) == Remove(subs, row.id)
  {
    if |subs| > 0 {
      assert (subs + [row])[1..] == subs[1..] + [row];
      RemoveSnoc(subs[1..], row);
    } else {
      assert Remove([row], row.id) == Remove([], row.id);
    }
  }
}

=== FILE: options.dfy ===
/** Optional values and results, standing for Rust's `Option<T>` and `Result<T, E>`. */
module Options {

  datatype Option<+T> = None | Some(value: T) {

    /** The contained value, or `default` when there is none (Rust's `unwrap_or`). */
    function GetOr(default: T): T
    {
      match this
      case Some(v) => v
      case None => default
    }
  }

  datatype Result<+T, +E> = Ok(value: T) | Err(error: E)
}

=== FILE: polling.dfy ===
/**
 * `TwitchLivestreamHelper` (`bot/src/livestream.rs`): a polling detector that
 * compares each Helix answer with its caches and raises Live, Offline and Title
 * events. The watched channels, the Helix answers and the current time are
 * inputs; the events are returned in the order they are raised.
 */
module Polling {
  import opened Options
  import opened Models

  type UserId = string

  /** The online cache (a list) and the title cache (a map). */
  datatype Helper = Helper(online: seq<UserId>, titles: map<UserId, string>)

  /** A live stream from Get Streams; `startedAt` is None when its timestamp does not parse. */
  datatype Stream = Stream(userId: UserId, startedAt: Option<int>)

  /** An entry of Get Channel Information. */
  datatype ChannelInfo = ChannelInfo(broadcasterId: UserId, title: string)

  /** A call of `handle_stream_event`. */
  datatype Raised = Raised(channel: UserId, eventType: EventType, parameters: seq<string>)

  /** Streams that started longer ago than this are not announced. */
  const FRESH_MILLIS: int := 2 * 60 * 1000

  predicate NoDuplicates(xs: seq<UserId>)
  {
    forall i, j :: 0 <= i < j < |xs| ==> xs[i] != xs[j]
  }

  /** Recent enough to announce: started at most two minutes ago, or of unknown start. */
  predicate Fresh(s: Stream, nowMillis: int)
  {
    s.startedAt.None? || nowMillis - s.startedAt.value <= FRESH_MILLIS
  }

  predicate Streaming(streams: seq<Stream>, id: UserId)
  {
    exists k :: 0 <= k < |streams| && streams[k].userId == id
  }

  /** The channel has a stream recent enough to announce. */
  predicate FreshIn(streams: seq<Stream>, id: UserId, nowMillis: int)
  {
    exists k :: 0 <= k < |streams| && streams[k].userId == id && Fresh(streams[k], nowMillis)
  }

  lemma FreshInCons(streams: seq<Stream>, nowMillis: int)
    requires |streams| > 0
    ensures forall x :: FreshIn(streams, x, nowMillis) <==>
              (streams[0].userId == x && Fresh(streams[0], nowMillis)) || FreshIn(streams[1..], x, nowMillis)
  {
    forall x | FreshIn(streams, x, nowMillis)
      ensures (streams[0].userId == x && Fresh(streams[0], nowMillis)) || FreshIn(streams[1..], x, nowMillis)
    {
      var k :| 0 <= k < |streams| && streams[k].userId == x && Fresh(streams[k], nowMillis);
      if k > 0 {
        assert streams[1..][k - 1] == streams[k];
      }
    }
    forall x | FreshIn(streams[1..], x, nowMillis)
      ensures FreshIn(streams, x, nowMillis)
    {
      var k :| 0 <= k < |streams[1..]| && streams[1..][k].userId == x && Fresh(streams[1..][k], nowMillis);
      assert streams[k + 1] == streams[1..][k];
    }
  }

  /** Some event of the list is about this channel. */
  predicate RaisedFor(events: seq<Raised>, id: UserId)
  {
    exists k :: 0 <= k < |events| && events[k].channel == id
  }

  lemma RaisedForCons(e: Raised, rest: seq<Raised>)
    ensures forall x :: RaisedFor([e] + rest, x) <==> e.channel == x || RaisedFor(rest, x)
  {
    var es := [e] + rest;
    assert es[0] == e;
    assert forall k :: 1 <= k < |es| ==> es[k] == rest[k - 1];
    forall x | RaisedFor(rest, x)
      ensures RaisedFor(es, x)
    {
      var k :| 0 <= k < |rest| && rest[k].channel == x;
      assert es[k + 1] == rest[k];
    }
  }

  // ---------------------------------------------------------------------
  // Live and offline
  // ---------------------------------------------------------------------

  /**
   * The channels the first loop appends to the cache, in the order of the
   * answer: each fresh stream whose channel is not cached yet (including by an
   * earlier stream of the same answer).
   */
  function Appended(online: seq<UserId>, streams: seq<Stream>, nowMillis: int): seq<UserId>
    decreases |streams|
  {
    if |streams| == 0 then []
    else if Fresh(streams[0], nowMillis) && streams[0].userId !in online then
      [streams[0].userId] + Appended(online + [streams[0].userId], streams[1..], nowMillis)
    else Appended(online, streams[1..], nowMillis)
  }

  /** The appended channels are exactly the fresh ones not cached before, each once. */
  lemma {:induction false} AppendedSpec(online: seq<UserId>, streams: seq<Stream>, nowMillis: int)
    ensures forall x :: x in Appended(online, streams, nowMillis) <==> x !in online && FreshIn(streams, x, nowMillis)
    ensures NoDuplicates(Appended(online, streams, nowMillis))
    decreases |streams|
  {
    if |streams| > 0 {
      var s := streams[0];
      FreshInCons(streams, nowMillis);
      if Fresh(s, nowMillis) && s.userId !in online {
        var next := online + [s.userId];
        AppendedSpec(next, streams[1..], nowMillis);
        var rest := Appended(next, streams[1..], nowMillis);
        assert forall x :: x in next <==> x in online || x == s.userId;
        assert ([s.userId] + rest)[0] == s.userId;
        assert forall k :: 1 <= k < |rest| + 1 ==> ([s.userId] + rest)[k] == rest[k - 1];
      } else {
        AppendedSpec(online, streams[1..], nowMillis);
      }
    }
  }

  /** Nothing is appended when every fresh stream's channel is already cached. */
  lemma {:induction false} AppendedNone(online: seq<UserId>, streams: seq<Stream>, nowMillis: int)
    requires forall x :: FreshIn(streams, x, nowMillis) ==> x in online
    ensures Appended(online, streams, nowMillis) == []
    decreases |streams|
  {
    if |streams| > 0 {
      FreshInCons(streams, nowMillis);
      AppendedNone(online, streams[1..], nowMillis);
    }
  }

  function LiveEvents(ids: seq<UserId>): (r: seq<Raised>)
    ensures |r| == |ids|
    ensures forall k :: 0 <= k < |ids| ==> r[k] == Raised(ids[k], Live, [])
    ensures forall x :: Raised(x, Live, []) in r <==> x in ids
  {
    if |ids| == 0 then [] else [Raised(ids[0], Live, [])] + LiveEvents(ids[1..])
  }

  /** Two duplicate-free lists with no common element concatenate to a duplicate-free list. */
  lemma ConcatNoDuplicates(xs: seq<UserId>, ys: seq<UserId>)
    ensures NoDuplicates(xs) && NoDuplicates(ys) && (forall y :: y in ys ==> y !in xs)
            ==> NoDuplicates(xs + ys)
  {
    var zs := xs + ys;
    forall i, j | 0 <= i < j < |zs| && NoDuplicates(xs) && NoDuplicates(ys) && (forall y :: y in ys ==> y !in xs)
      ensures zs[i] != zs[j]
    {
      if j >= |xs| && i < |xs| {
        assert zs[j] == ys[j - |xs|] && zs[i] == xs[i];
        assert zs[j] in ys;
      } else if i >= |xs| {
        assert zs[j] == ys[j - |xs|] && zs[i] == ys[i - |xs|];
      }
    }
  }

  /** The first loop: each fresh stream not yet cached is appended to the cache and announced as Live. */
  function GoLive(online: seq<UserId>, streams: seq<Stream>, nowMillis: int): (r: (seq<UserId>, seq<Raised>))
    ensures NoDuplicates(online) ==> NoDuplicates(r.0)
  {
    var appended := Appended(online, streams, nowMillis);
    AppendedSpec(online, streams, nowMillis);
    ConcatNoDuplicates(online, appended);
    (online + appended, LiveEvents(appended))
  }

  /** The second loop: each cached channel without a stream leaves the cache and is announced as Offline. */
  function GoOffline(online: seq<UserId>, streams: seq<Stream>): (r: (seq<UserId>, seq<Raised>))
    ensures forall x :: x in r.0 <==> x in online && Streaming(streams, x)
    ensures forall k :: 0 <= k < |r.1| ==> r.1[k] == Raised(r.1[k].channel, Offline, [])
    ensures forall x :: RaisedFor(r.1, x) <==> x in online && !Streaming(streams, x)
    ensures NoDuplicates(online) ==> NoDuplicates(r.0)
    ensures (forall x :: x in online ==> Streaming(streams, x)) ==> r.1 == []
  {
    if |online| == 0 then ([], [])
    else
      var (cache, rest) := GoOffline(online[1..], streams);
      assert online == [online[0]] + online[1..];
      assert forall x :: x in online <==> x == online[0] || x in online[1..];
      if Streaming(streams, online[0]) then ([online[0]] + cache, rest)
      else
        RaisedForCons(Raised(online[0], Offline, []), rest);
        (cache, [Raised(online[0], Offline, [])] + rest)
  }

  /**
   * `process_live_channels`: with no watched channel, or when Helix fails,
   * nothing changes; otherwise new streams are announced first and then the
   * channels that went offline.
   */
  function ProcessLive(h: Helper, watched: seq<UserId>, streams: Option<seq<Stream>>, nowMillis: int): (r: (Helper, seq<Raised>))
    ensures |watched| == 0 || streams.None? ==> r == (h, [])
    ensures r.0.titles == h.titles
    ensures NoDuplicates(h.online) ==> NoDuplicates(r.0.online)
  {
    if |watched| == 0 || streams.None? then (h, [])
    else
      var (cache, live) := GoLive(h.online, streams.value, nowMillis);
      var (kept, offline) := GoOffline(cache, streams.value);
      (h.(online := kept), live + offline)
  }

  /** A channel is announced Live iff it has a fresh stream and was not cached. */
  lemma LiveIff(h: Helper, watched: seq<UserId>, streams: seq<Stream>, nowMillis: int, x: UserId)
    requires |watched| > 0
    ensures Raised(x, Live, []) in ProcessLive(h, watched, Some(streams), nowMillis).1
            <==> x !in h.online && FreshIn(streams, x, nowMillis)
  {
    var (cache, live) := GoLive(h.online, streams, nowMillis);
    var (kept, offline) := GoOffline(cache, streams);
    assert ProcessLive(h, watched, Some(streams), nowMillis).1 == live + offline;
    assert Raised(x, Live, []) !in offline;
    AppendedSpec(h.online, streams, nowMillis);
  }

  /** A channel is announced Offline iff it was cached and has no stream now. */
  lemma OfflineIff(h: Helper, watched: seq<UserId>, streams: seq<Stream>, nowMillis: int, x: UserId)
    requires |watched| > 0
    ensures Raised(x, Offline, []) in ProcessLive(h, watched, Some(streams), nowMillis).1
            <==> x in h.online && !Streaming(streams, x)
  {
    var (cache, live) := GoLive(h.online, streams, nowMillis);
    var (kept, offline) := GoOffline(cache, streams);
    assert ProcessLive(h, watched, Some(streams), nowMillis).1 == live + offline;
    assert Raised(x, Offline, []) !in live;
    AppendedSpec(h.online, streams, nowMillis);
    assert forall y :: FreshIn(streams, y, nowMillis) ==> Streaming(streams, y);
    if Raised(x, Offline, []) in offline {
      var k :| 0 <= k < |offline| && offline[k] == Raised(x, Offline, []);
      assert RaisedFor(offline, x);
    }
    if x in h.online && !Streaming(streams, x) {
      var k :| 0 <= k < |offline| && offline[k].channel == x;
      assert offline[k] == Raised(x, Offline, []);
    }
  }

  /** After a poll, a channel is cached iff it is streaming and was cached before or is fresh. */
  lemma CachedIff(h: Helper, watched: seq<UserId>, streams: seq<Stream>, nowMillis: int, x: UserId)
    requires |watched| > 0
    ensures x in ProcessLive(h, watched, Some(streams), nowMillis).0.online
            <==> Streaming(streams, x) && (x in h.online || FreshIn(streams, x, nowMillis))
  {
    AppendedSpec(h.online, streams, nowMillis);
    assert FreshIn(streams, x, nowMillis) ==> Streaming(streams, x);
  }

  /**
   * A second poll with the same answer raises nothing: every announced stream is
   * cached, and every channel that went offline has left the cache.
   */
  lemma PollTwiceQuiet(h: Helper, watched: seq<UserId>, streams: seq<Stream>, nowMillis: int)
    requires |watched| > 0
    ensures var after := ProcessLive(h, watched, Some(streams), nowMillis).0;
            ProcessLive(after, watched, Some(streams), nowMillis).1 == []
  {
    var after := ProcessLive(h, watched, Some(streams), nowMillis).0;
    forall x | FreshIn(streams, x, nowMillis)
      ensures x in after.online
    {
      CachedIff(h, watched, streams, nowMillis, x);
    }
    forall x | x in after.online
      ensures Streaming(streams, x)
    {
      CachedIff(h, watched, streams, nowMillis, x);
    }
    AppendedNone(after.online, streams, nowMillis);
    assert after.online + [] == after.online;
  }

  /** A stream that started more than two minutes ago is never cached, so it can never be announced Offline. */
  lemma StaleStreamNeverCached(h: Helper, watched: seq<UserId>, streams: seq<Stream>, nowMillis: int, x: UserId)
    requires |watched| > 0 && x !in h.online
    requires forall k :: 0 <= k < |streams| && streams[k].userId == x ==> !Fresh(streams[k], nowMillis)
    ensures x !in ProcessLive(h, watched, Some(streams), nowMillis).0.online
  {
    CachedIff(h, watched, streams, nowMillis, x);
  }

  // ---------------------------------------------------------------------
  // Titles
  // ---------------------------------------------------------------------

  /**
   * `process_stream_info`'s loop: each channel's title replaces the cached one;
   * a Title event with the old and the new title is raised when a different
   * title was cached.
   */
  function TrackTitles(titles: map<UserId, string>, channels: seq<ChannelInfo>): (r: (map<UserId, string>, seq<Raised>))
    ensures titles.Keys <= r.0.Keys
    ensures forall k :: 0 <= k < |channels| ==> channels[k].broadcasterId in r.0
    ensures forall k :: 0 <= k < |r.1| ==> r.1[k].eventType == Title && |r.1[k].parameters| == 2
    ensures |r.1| <= |channels|
    decreases |channels|
  {
    if |channels| == 0 then (titles, [])
    else
      var c := channels[0];
      var raised := if c.broadcasterId in titles && titles[c.broadcasterId] != c.title
                    then [Raised(c.broadcasterId, Title, [titles[c.broadcasterId], c.title])] else [];
      var (after, rest) := TrackTitles(titles[c.broadcasterId := c.title], channels[1..]);
      assert forall k :: 1 <= k < |channels| ==> channels[k] == channels[1..][k - 1];
      (after, raised + rest)
  }

  function ProcessTitles(h: Helper, watched: seq<UserId>, channels: Option<seq<ChannelInfo>>): (r: (Helper, seq<Raised>))
    ensures |watched| == 0 || channels.None? ==> r == (h, [])
    ensures r.0.online == h.online
  {
    if |watched| == 0 || channels.None? then (h, [])
    else
      var (titles, raised) := TrackTitles(h.titles, channels.value);
      (h.(titles := titles), raised)
  }

  /** One channel seen once: a Title event iff a different title was cached, and its title is cached afterwards. */
  lemma OneChannelTitle(titles: map<UserId, string>, c: ChannelInfo)
    ensures var (after, raised) := TrackTitles(titles, [c]);
            && after[c.broadcasterId] == c.title
            && (raised != [] <==> c.broadcasterId in titles && titles[c.broadcasterId] != c.title)
            && (raised != [] ==> raised == [Raised(c.broadcasterId, Title, [titles[c.broadcasterId], c.title])])
  {
    assert [c][1..] == [];
  }

  /** The first sighting of a channel only caches its title. */
  lemma FirstSightingQuiet(titles: map<UserId, string>, c: ChannelInfo)
    requires c.broadcasterId !in titles
    ensures TrackTitles(titles, [c]).1 == []
  {
    OneChannelTitle(titles, c);
  }

  /** Asking again with the same answer raises no Title event when each channel appears once. */
  lemma {:induction false} TitlesTwiceQuiet(titles: map<UserId, string>, channels: seq<ChannelInfo>)
    requires forall i, j :: 0 <= i < j < |channels| ==> channels[i].broadcasterId != channels[j].broadcasterId
    ensures TrackTitles(TrackTitles(titles, channels).0, channels).1 == []
  {
    TitlesCached(titles, channels);
    TitlesAgree(TrackTitles(titles, channels).0, channels);
  }

  /** After the loop, each channel (appearing once) has its title cached. */
  lemma {:induction false} TitlesCached(titles: map<UserId, string>, channels: seq<ChannelInfo>)
    requires forall i, j :: 0 <= i < j < |channels| ==> channels[i].broadcasterId != channels[j].broadcasterId
    ensures forall k :: 0 <= k < |channels| ==>
              channels[k].broadcasterId in TrackTitles(titles, channels).0
              && TrackTitles(titles, channels).0[channels[k].broadcasterId] == channels[k].title
    decreases |channels|
  {
    if |channels| > 0 {
      var c := channels[0];
      var next := titles[c.broadcasterId := c.title];
      TitlesCached(next, channels[1..]);
      TitlesUntouched(next, channels[1..], c.broadcasterId);
    }
  }

  /** A channel the loop does not visit keeps its cached title. */
  lemma {:induction false} TitlesUntouched(titles: map<UserId, string>, channels: seq<ChannelInfo>, x: UserId)
    requires x in titles
    requires forall k :: 0 <= k < |channels| ==> channels[k].broadcasterId != x
    ensures x in TrackTitles(titles, channels).0 && TrackTitles(titles, channels).0[x] == titles[x]
    decreases |channels|
  {
    if |channels| > 0 {
      TitlesUntouched(titles[channels[0].broadcasterId := channels[0].title], channels[1..], x);
    }
  }

  /** When the cache already holds every channel's title, the loop raises nothing. */
  lemma {:induction false} TitlesAgree(titles: map<UserId, string>, channels: seq<ChannelInfo>)
    requires forall k :: 0 <= k < |channels| ==>
               channels[k].broadcasterId in titles && titles[channels[k].broadcasterId] == channels[k].title
    ensures TrackTitles(titles, channels).1 == []
    decreases |channels|
  {
    if |channels| > 0 {
      var c := channels[0];
      assert titles[c.broadcasterId := c.title] == titles;
      TitlesAgree(titles, channels[1..]);
    }
  }
}

=== FILE: request.dfy ===
/**
 * The pure tail of `Request::try_from` (`bot/src/commands/request.rs`) and
 * `ParsedPrivmsgMessage::parse` (`bot/src/message.rs`): the sender's level of
 * rights, the stored level's update, and the split of a chat line into prefix,
 * command, subcommand and message. The channel, user and rights rows come from
 * the database and are inputs here.
 */
module Requests {
  import opened Options
  import opened Text
  import opened Models

  /** A loaded command as the parser sees it: its name, the level it requires, and its subcommands. */
  datatype CommandSpec = CommandSpec(name: string, requiredRights: LevelOfRights, subcommands: seq<string>)

  // ---------------------------------------------------------------------
  // Level of rights
  // ---------------------------------------------------------------------

  /**
   * `Iterator::any` on a slice iterator, with the iterator reduced to the badge
   * names it has still to visit: it visits up to and including the first match,
   * so a search that fails leaves nothing behind.
   */
  function IterAny(rest: seq<string>, name: string): (r: (bool, seq<string>))
    ensures r.0 <==> name in rest
    ensures !r.0 ==> r.1 == []
    ensures |r.1| <= |rest| && r.1 == rest[|rest| - |r.1|..]
  {
    if |rest| == 0 then (false, [])
    else if rest[0] == name then (true, rest[1..])
    else
      var r := IterAny(rest[1..], name);
      assert rest[1..][|rest[1..]| - |r.1|..] == rest[|rest| - |r.1|..];
      r
  }

  /**
   * The level as the code computes it: one iterator over the badges is shared by
   * the three `any` searches, so once the moderator search fails the iterator is
   * exhausted and the vip and subscriber searches cannot succeed.
   */
  function LevelAsWritten(senderAliasId: int, channelAliasId: int, badges: seq<string>): (l: LevelOfRights)
    ensures l == Broadcaster <==> senderAliasId == channelAliasId
    ensures l == Moderator <==> senderAliasId != channelAliasId && "moderator" in badges
  {
    if senderAliasId == channelAliasId then Broadcaster
    else
      var (moderator, afterModerator) := IterAny(badges, "moderator");
      if moderator then Moderator
      else
        var (vip, afterVip) := IterAny(afterModerator, "vip");
        if vip then Vip
        else
          var (subscriber, _) := IterAny(afterVip, "subscriber");
          if subscriber then Subscriber else LevelOfRights.User
  }

  /** As written, the computed level is only ever Broadcaster, Moderator or User. */
  lemma LevelAsWrittenUnreachable(senderAliasId: int, channelAliasId: int, badges: seq<string>)
    ensures LevelAsWritten(senderAliasId, channelAliasId, badges) in {Broadcaster, Moderator, LevelOfRights.User}
  {
  }

  /** A VIP who is not a moderator is treated as an ordinary user by the code as written. */
  lemma VipBadgeIgnored()
    ensures LevelAsWritten(1, 2, ["vip"]) == LevelOfRights.User
    ensures LevelFromBadges(1, 2, ["vip"]) == Vip
  {
    assert "vip" != "moderator" by { assert "vip"[0] != "moderator"[0]; }
    assert LevelAsWritten(1, 2, ["vip"]) == LevelOfRights.User;
  }

  /**
   * The level the badge chain evidently means: the channel owner is the
   * broadcaster; otherwise the first of moderator, vip and subscriber whose badge
   * the sender wears; otherwise an ordinary user.
   */
  function LevelFromBadges(senderAliasId: int, channelAliasId: int, badges: seq<string>): (l: LevelOfRights)
    ensures l == Broadcaster <==> senderAliasId == channelAliasId
    ensures l == Moderator <==> senderAliasId != channelAliasId && "moderator" in badges
    ensures l == Vip <==> senderAliasId != channelAliasId && "moderator" !in badges && "vip" in badges
    ensures l == Subscriber <==>
              senderAliasId != channelAliasId && "moderator" !in badges && "vip" !in badges && "subscriber" in badges
    ensures l != Suspended
  {
    if senderAliasId == channelAliasId then Broadcaster
    else if "moderator" in badges then Moderator
    else if "vip" in badges then Vip
    else if "subscriber" in badges then Subscriber
    else LevelOfRights.User
  }

  /** The code as written agrees with the intended level except that Vip and Subscriber collapse to User. */
  lemma AsWrittenCollapsesVipAndSubscriber(senderAliasId: int, channelAliasId: int, badges: seq<string>)
    ensures var intended := LevelFromBadges(senderAliasId, channelAliasId, badges);
            LevelAsWritten(senderAliasId, channelAliasId, badges)
              == if intended == Vip || intended == Subscriber then LevelOfRights.User else intended
  {
  }

  // ---------------------------------------------------------------------
  // Stored rights
  // ---------------------------------------------------------------------

  /** A write to the rights table. */
  datatype RightsWrite = InsertRight(level: LevelOfRights) | UpdateLevel(level: LevelOfRights)

  /**
   * The sender's rights after the request: a missing row is inserted with the
   * computed level; a stored level is overwritten by the computed one unless it
   * is Suspended, and only written when it changes.
   */
  function SettleRights(stored: Option<LevelOfRights>, computed: LevelOfRights): (r: (LevelOfRights, seq<RightsWrite>))
    ensures stored == Some(Suspended) ==> r == (Suspended, [])
    ensures stored != Some(Suspended) ==> r.0 == computed
    ensures stored.None? ==> r.1 == [InsertRight(computed)]
    ensures stored.Some? && stored.value != Suspended && stored.value != computed ==> r.1 == [UpdateLevel(computed)]
    ensures stored.Some? && (stored.value == Suspended || stored.value == computed) ==> r.1 == []
  {
    var level := stored.GetOr(computed);
    var inserted := if stored.None? then [InsertRight(computed)] else [];
    if level != Suspended && level != computed then (computed, inserted + [UpdateLevel(computed)])
    else (level, inserted)
  }

  /** Settling the settled level again with the same badges changes nothing and writes nothing. */
  lemma SettleIdempotent(stored: Option<LevelOfRights>, computed: LevelOfRights)
    ensures var (level, _) := SettleRights(stored, computed);
            SettleRights(Some(level), computed) == (level, [])
  {
  }

  // ---------------------------------------------------------------------
  // Prefix, command, subcommand and message
  // ---------------------------------------------------------------------

  /** The first loaded command with this name. */
  function FindCommand(commands: seq<CommandSpec>, name: string): (r: Option<CommandSpec>)
    ensures r.Some? ==> r.value in commands && r.value.name == name
    ensures r.None? <==> forall c :: c in commands ==> c.name != name
  {
    if |commands| == 0 then None
    else if commands[0].name == name then Some(commands[0])
    else
      assert forall c :: c in commands <==> c == commands[0] || c in commands[1..];
      FindCommand(commands[1..], name)
  }

  /** The words left after the command (and subcommand): none, or all of them joined by single spaces. */
  function Remainder(words: seq<string>): (r: Option<string>)
    ensures r.None? <==> words == []
  {
    if words == [] then None else Some(Join(words, " "))
  }

  datatype Parsed = Parsed(commandId: string, subcommandId: Option<string>, message: Option<string>)

  /**
   * The chat line after the prefix, split at single spaces: the first word must
   * be a loaded command the level allows; the second word is its subcommand when
   * the command lists it; the remaining words are the message.
   */
  function ParseRequest(text: string, prefix: string, commands: seq<CommandSpec>, level: LevelOfRights): (r: Option<Parsed>)
  {
    if !StartsWith(text, prefix) then None
    else
      var words := Split(text[|prefix|..], " ");
      match FindCommand(commands, words[0])
      case None => None
      case Some(command) =>
        if Below(level, command.requiredRights) then None
        else if |words| >= 2 && words[1] in command.subcommands then
          Some(Parsed(words[0], Some(words[1]), Remainder(words[2..])))
        else Some(Parsed(words[0], None, Remainder(words[1..])))
  }

  /**
   * What the parse accepts and what it extracts, in terms of the text after the
   * prefix: the command is the text before the first space, the subcommand the
   * next word when listed, and the message everything after the last consumed space.
   */
  lemma ParseRequestSpec(text: string, prefix: string, commands: seq<CommandSpec>, level: LevelOfRights)
    ensures !StartsWith(text, prefix) ==> ParseRequest(text, prefix, commands, level).None?
    ensures StartsWith(text, prefix) ==>
              var body := text[|prefix|..];
              var command := FindCommand(commands, Before(body, ' '));
              var r := ParseRequest(text, prefix, commands, level);
              && (r.Some? <==> command.Some? && !Below(level, command.value.requiredRights))
              && (r.Some? ==> r.value.commandId == Before(body, ' '))
              && (r.Some? && r.value.subcommandId.Some? ==>
                    && CharIndex(body, ' ').Some?
                    && r.value.subcommandId.value == Before(After(body, ' '), ' ')
                    && r.value.subcommandId.value in command.value.subcommands
                    && r.value.message == (if CharIndex(After(body, ' '), ' ').None? then None
                                           else Some(After(After(body, ' '), ' '))))
              && (r.Some? && r.value.subcommandId.None? ==>
                    && (CharIndex(body, ' ').Some? ==> Before(After(body, ' '), ' ') !in command.value.subcommands)
                    && r.value.message == (if CharIndex(body, ' ').None? then None else Some(After(body, ' '))))
  {
    if StartsWith(text, prefix) {
      BodyWords(text[|prefix|..]);
    }
  }

  /**
   * The words of the text after the prefix, in terms of its spaces: the first
   * word, the second, and what `Remainder` makes of the words after each.
   */
  lemma BodyWords(body: string)
    ensures var words := Split(body, " ");
            && words[0] == Before(body, ' ')
            && (|words| >= 2 <==> CharIndex(body, ' ').Some?)
            && Remainder(words[1..]) == (if CharIndex(body, ' ').None? then None else Some(After(body, ' ')))
            && (|words| >= 2 ==>
                  && words[1] == Before(After(body, ' '), ' ')
                  && Remainder(words[2..]) == (if CharIndex(After(body, ' '), ' ').None? then None
                                               else Some(After(After(body, ' '), ' '))))
  {
    var words := Split(body, " ");
    SplitAtChar(body, ' ');
    if CharIndex(body, ' ').Some? {
      var after := After(body, ' ');
      SplitAtChar(after, ' ');
      assert words[1..] == Split(after, " ");
      assert words[2..] == Split(after, " ")[1..];
    }
  }

  /** The parts of an accepted request, put back together, give the chat line. */
  lemma RequestRoundTrip(text: string, prefix: string, commands: seq<CommandSpec>, level: LevelOfRights)
    requires ParseRequest(text, prefix, commands, level).Some?
    ensures var p := ParseRequest(text, prefix, commands, level).value;
            text == prefix + p.commandId
                    + (if p.subcommandId.Some? then " " + p.subcommandId.value else "")
                    + (if p.message.Some? then " " + p.message.value else "")
  {
    var p := ParseRequest(text, prefix, commands, level).value;
    ParsedWords(text, prefix, commands, level);
    var body := text[|prefix|..];
    var after := After(body, ' ');
    BodyWords(body);
    Reassemble(text, prefix);
    assert p.commandId == Before(body, ' ');
    if p.subcommandId.Some? {
      assert CharIndex(body, ' ').Some? && p.subcommandId.value == Before(after, ' ');
      if CharIndex(after, ' ').Some? {
        assert p.message == Some(After(after, ' '));
      } else {
        assert p.message == None;
        assert text == prefix + p.commandId + (" " + p.subcommandId.value) + "";
      }
    } else if CharIndex(body, ' ').Some? {
      assert p.message == Some(after);
      var head := prefix + p.commandId;
      assert head + "" == head;
      assert text == head + (" " + p.message.value);
    } else {
      assert p.message == None;
      assert text == prefix + p.commandId + "" + "";
    }
  }

  /** The text is the prefix followed by its first, second and remaining space-separated parts. */
  lemma Reassemble(text: string, prefix: string)
    requires StartsWith(text, prefix)
    ensures var body := text[|prefix|..];
            var after := After(body, ' ');
            && (CharIndex(body, ' ').None? ==> text == prefix + Before(body, ' '))
            && (CharIndex(body, ' ').Some? ==> text == prefix + Before(body, ' ') + (" " + after))
            && (CharIndex(body, ' ').Some? && CharIndex(after, ' ').None? ==>
                  text == prefix + Before(body, ' ') + (" " + Before(after, ' ')))
            && (CharIndex(body, ' ').Some? && CharIndex(after, ' ').Some? ==>
                  text == prefix + Before(body, ' ') + (" " + Before(after, ' ')) + (" " + After(after, ' ')))
  {
    var body := text[|prefix|..];
    assert text == prefix + body;
    BeforeAfter(body, ' ');
    if CharIndex(body, ' ').Some? {
      var w0, after := Before(body, ' '), After(body, ' ');
      AppendAssoc(w0, " ", after);
      AppendAssoc(prefix, w0, " " + after);
      BeforeAfter(after, ' ');
      if CharIndex(after, ' ').Some? {
        var w1, tail := Before(after, ' '), After(after, ' ');
        AppendAssoc(w1, " ", tail);
        AppendAssoc(" ", w1, " " + tail);
        AppendAssoc(prefix + w0, " " + w1, " " + tail);
      }
    }
  }



  /** An accepted parse in terms of the words of the text after the prefix. */
  lemma ParsedWords(text: string, prefix: string, commands: seq<CommandSpec>, level: LevelOfRights)
    requires ParseRequest(text, prefix, commands, level).Some?
    ensures StartsWith(text, prefix)
    ensures var words := Split(text[|prefix|..], " ");
            var p := ParseRequest(text, prefix, commands, level).value;
            && p.commandId == words[0]
            && (p.subcommandId.Some? ==> |words| >= 2 && p.subcommandId.value == words[1] && p.message == Remainder(words[2..]))
            && (p.subcommandId.None? ==> p.message == Remainder(words[1..]))
  {
  }

  /** A sender whose stored level is Suspended can only use commands that require nothing more. */
  lemma SuspendedOnlyBasic(text: string, commands: seq<CommandSpec>, sender: User, badges: seq<string>,
                           channel: Channel, preference: ChannelPreference, stored: Right)
    requires stored.level == Suspended
    requires TryFrom(text, commands, sender, badges, channel, preference, Some(stored)).0.Some?
    ensures StartsWith(text, preference.prefix)
    ensures var command := FindCommand(commands, Before(text[|preference.prefix|..], ' '));
            command.Some? && command.value.requiredRights == Suspended
  {
    assert ParseRequest(text, preference.prefix, commands, Suspended).Some?;
    BodyWords(text[|preference.prefix|..]);
  }

  /**
   * The request once the sender's level has been computed from the badges:
   * the computed level settles the stored rights, and the settled level is the
   * one the command's requirement is checked against. A missing rights row is
   * created for the sender in this channel with id 0. The rights writes come
   * first and are made for every message, whether or not it is a command.
   */
  function RequestAtLevel(text: string, commands: seq<CommandSpec>, sender: User, level: LevelOfRights,
                          channel: Channel, preference: ChannelPreference, stored: Option<Right>)
    : (r: (Option<Request>, seq<RightsWrite>))
    ensures var settled := SettleRights(if stored.Some? then Some(stored.value.level) else None, level).0;
            && (r.0.None? <==> ParseRequest(text, preference.prefix, commands, settled).None?)
            && (r.0.Some? ==> && r.0.value.rights.level == settled
                              && r.0.value.sender == sender && r.0.value.channel == channel
                              && r.0.value.channelPreference == preference)
    ensures stored.None? ==> r.1 == [InsertRight(level)]
    ensures stored.Some? ==> r.1 == if stored.value.level in {Suspended, level} then [] else [UpdateLevel(level)]
  {
    var row := stored.GetOr(Right(0, sender.id, channel.id, level));
    var (settled, writes) := SettleRights(if stored.Some? then Some(stored.value.level) else None, level);
    match ParseRequest(text, preference.prefix, commands, settled)
    case None => (None, writes)
    case Some(p) => (Some(Request(p.commandId, p.subcommandId, p.message, sender, channel, preference, row.(level := settled))), writes)
  }

  /**
   * `Request::try_from` once the channel, preferences, user and rights rows are
   * loaded, with the level computed as the code computes it (`LevelAsWritten`),
   * so a sender whose only badge is vip or subscriber is settled as a User.
   */
  function TryFrom(text: string, commands: seq<CommandSpec>, sender: User, badges: seq<string>,
                   channel: Channel, preference: ChannelPreference, stored: Option<Right>)
    : (r: (Option<Request>, seq<RightsWrite>))
    ensures var level := LevelAsWritten(sender.aliasId, channel.aliasId, badges);
            var settled := SettleRights(if stored.Some? then Some(stored.value.level) else None, level).0;
            && (r.0.None? <==> ParseRequest(text, preference.prefix, commands, settled).None?)
            && (r.0.Some? ==> && r.0.value.rights.level == settled
                              && r.0.value.sender == sender && r.0.value.channel == channel
                              && r.0.value.channelPreference == preference)
            && r.1 == SettleRights(if stored.Some? then Some(stored.value.level) else None, level).1
    ensures r.0.Some? && (stored.None? || stored.value.level != Suspended) ==>
              r.0.value.rights.level in {Broadcaster, Moderator, LevelOfRights.User}
  {
    LevelAsWrittenUnreachable(sender.aliasId, channel.aliasId, badges);
    RequestAtLevel(text, commands, sender, LevelAsWritten(sender.aliasId, channel.aliasId, badges), channel, preference, stored)
  }

  /** `Request::try_from` with the evidently intended level (`LevelFromBadges`) in place of the code's. */
  function TryFromIntended(text: string, commands: seq<CommandSpec>, sender: User, badges: seq<string>,
                           channel: Channel, preference: ChannelPreference, stored: Option<Right>)
    : (r: (Option<Request>, seq<RightsWrite>))
    ensures var level := LevelFromBadges(sender.aliasId, channel.aliasId, badges);
            var settled := SettleRights(if stored.Some? then Some(stored.value.level) else None, level).0;
            && (r.0.None? <==> ParseRequest(text, preference.prefix, commands, settled).None?)
            && (r.0.Some? ==> && r.0.value.rights.level == settled
                              && r.0.value.sender == sender && r.0.value.channel == channel
                              && r.0.value.channelPreference == preference)
            && r.1 == SettleRights(if stored.Some? then Some(stored.value.level) else None, level).1
  {
    RequestAtLevel(text, commands, sender, LevelFromBadges(sender.aliasId, channel.aliasId, badges), channel, preference, stored)
  }

  /**
   * The two agree whenever the sender has a stored Suspended row, or the
   * intended level is neither Vip nor Subscriber.
   */
  lemma TryFromAgreesWithIntended(text: string, commands: seq<CommandSpec>, sender: User, badges: seq<string>,
                                  channel: Channel, preference: ChannelPreference, stored: Option<Right>)
    requires (stored.Some? && stored.value.level == Suspended)
             || LevelFromBadges(sender.aliasId, channel.aliasId, badges) !in {Vip, Subscriber}
    ensures TryFrom(text, commands, sender, badges, channel, preference, stored)
            == TryFromIntended(text, commands, sender, badges, channel, preference, stored)
  {
    var asWritten := LevelAsWritten(sender.aliasId, channel.aliasId, badges);
    var intended := LevelFromBadges(sender.aliasId, channel.aliasId, badges);
    AsWrittenCollapsesVipAndSubscriber(sender.aliasId, channel.aliasId, badges);
    if asWritten != intended {
      SuspendedIgnoresLevel(text, commands, sender, asWritten, intended, channel, preference, stored.value);
    }
  }

  /** With a stored Suspended row, the computed level makes no difference to the request or the writes. */
  lemma SuspendedIgnoresLevel(text: string, commands: seq<CommandSpec>, sender: User, a: LevelOfRights, b: LevelOfRights,
                              channel: Channel, preference: ChannelPreference, stored: Right)
    requires stored.level == Suspended
    ensures RequestAtLevel(text, commands, sender, a, channel, preference, Some(stored))
            == RequestAtLevel(text, commands, sender, b, channel, preference, Some(stored))
  {
    assert SettleRights(Some(Suspended), a) == SettleRights(Some(Suspended), b);
  }

  // ---------------------------------------------------------------------
  // ParsedPrivmsgMessage
  // ---------------------------------------------------------------------

  datatype ParsedPrivmsg = ParsedPrivmsg(commandId: string, message: Option<string>)

  /** U+20AC EURO SIGN, as its three UTF-8 bytes. */
  const EURO: string := "\U{E2}\U{82}\U{AC}"

  /**
   * `ParsedPrivmsgMessage::parse`: only the first space-separated word is looked
   * at; it must start with the prefix character and name a loaded command once
   * that character is dropped. The prefix is the UTF-8 encoding of the Rust
   * `char` (one to four bytes), so dropping the first character of a word that
   * starts with it drops exactly those bytes, as the char-indexed `substring`
   * does.
   */
  function ParsePrivmsg(message: string, prefix: string, commands: seq<CommandSpec>): (r: Option<ParsedPrivmsg>)
  {
    var words := Split(message, " ");
    var word := words[0];
    if !StartsWith(word, prefix) then None
    else if FindCommand(commands, word[|prefix|..]).None? then None
    else Some(ParsedPrivmsg(word[|prefix|..], Remainder(words[1..])))
  }

  /** The parse in terms of the text: accepted iff the first word is the prefix and a command name; the message is what follows the first space. */
  lemma ParsePrivmsgSpec(message: string, prefix: string, commands: seq<CommandSpec>)
    ensures var word := Before(message, ' ');
            var r := ParsePrivmsg(message, prefix, commands);
            && (r.Some? <==> StartsWith(word, prefix) && FindCommand(commands, word[|prefix|..]).Some?)
            && (r.Some? ==> r.value.commandId == word[|prefix|..]
                            && r.value.message == (if CharIndex(message, ' ').None? then None else Some(After(message, ' '))))
  {
    SplitAtChar(message, ' ');
  }

  /** A line that starts with a space has an empty first word and is never a command (a `char` encodes to at least one byte). */
  lemma LeadingSpaceIgnored(message: string, prefix: string, commands: seq<CommandSpec>)
    requires |message| >= 1 && message[0] == ' '
    requires |prefix| >= 1
    ensures ParsePrivmsg(message, prefix, commands).None?
  {
    SplitAtChar(message, ' ');
    assert CharIndex(message, ' ') == Some(0);
  }

  /**
   * Printing a command line and parsing it back: the prefix and a command name
   * without spaces, a space, then any message, give that name and that message.
   */
  lemma PrivmsgRoundTrip(prefix: string, name: string, msg: string, commands: seq<CommandSpec>)
    requires CharIndex(prefix + name, ' ').None? && FindCommand(commands, name).Some?
    ensures ParsePrivmsg(prefix + name + " " + msg, prefix, commands) == Some(ParsedPrivmsg(name, Some(msg)))
  {
    var word := prefix + name;
    var line := word + " " + msg;
    assert forall j :: 0 <= j < |word| ==> line[j] == word[j];
    assert line[|word|] == ' ';
    assert CharIndex(line, ' ') == Some(|word|);
    assert line[..|word|] == word;
    assert line[|word| + 1..] == msg;
    assert word[..|prefix|] == prefix && word[|prefix|..] == name;
    ParsePrivmsgSpec(line, prefix, commands);
  }

  /** The euro sign is three bytes; a word made of it and a command name parses to that name. */
  lemma MultiBytePrefix(name: string, commands: seq<CommandSpec>)
    requires FindCommand(commands, name).Some? && CharIndex(name, ' ').None?
    ensures ParsePrivmsg(EURO + name, EURO, commands) == Some(ParsedPrivmsg(name, None))
  {
    var word := EURO + name;
    assert forall j :: 0 <= j < |word| ==> word[j] != ' ';
    assert CharIndex(word, ' ').None?;
    SplitAtChar(word, ' ');
    assert word[|EURO|..] == name;
  }
}

=== FILE: seventv.dfy ===
/**
 * The 7TV EventAPI client (`bot/src/seventv/mod.rs`) as a pure transition
 * system. Its state is the shared set of channels waiting to be subscribed
 * (`awaiting`), the client's own set of subscribed channels (`listening`), the
 * session id and the reconnect URL. Everything the network and the 7TV REST
 * API answer is an input; what the client does to the outside is returned as
 * a sequence of actions.
 */
module SevenTv {
  import opened Options
  import Localization

  /** A Twitch user id, as the text Twitch gives it. */
  type UserId = string

  datatype Client = Client(awaiting: set<UserId>, listening: set<UserId>, sessionId: Option<string>, reconnectUrl: string)

  /** Frames the client writes to the socket. */
  datatype OutFrame =
      Subscribe(emoteSetId: string)  // op 35, `emote_set.update` on that emote set
    | Resume(sessionId: string)      // op 34

  /** What the client does to the outside, in order. */
  datatype Action =
      Send(frame: OutFrame)
    | CloseSocket
    | Connect(url: string)
    | Say(channel: string, text: string)

  /**
   * How a step ends: the `run` loop goes on, it returns an error (`?` on a
   * failed call), or it is still inside the reconnect loop after a Close when
   * the given connect outcomes run out.
   */
  datatype Status = Running | Failed | Reconnecting

  datatype Step = Step(client: Client, actions: seq<Action>, status: Status)

  /** The 7TV websocket URL the client is built with. */
  const SEVENTV_WEBSOCKET_URL: string := "wss://events.7tv.io/v3"

  function New(): (c: Client)
    ensures c.awaiting == {} && c.listening == {} && c.sessionId.None?
  {
    Client({}, {}, None, SEVENTV_WEBSOCKET_URL)
  }

  // ---------------------------------------------------------------------
  // Registry
  // ---------------------------------------------------------------------

  /** `flip_channels`: every subscribed channel goes back to waiting, ready to be subscribed again. */
  function Flip(c: Client): (d: Client)
    ensures d.awaiting == c.awaiting + c.listening && d.listening == {}
    ensures d.sessionId == c.sessionId && d.reconnectUrl == c.reconnectUrl
  {
    c.(awaiting := c.awaiting + c.listening, listening := {})
  }

  /** The channels a drain tries: waiting and not yet subscribed. */
  function Pending(c: Client): set<UserId>
  {
    c.awaiting - c.listening
  }

  /** `order` lists every element of `ids` exactly once: the iteration order of a `HashSet`. */
  predicate Enumerates(order: seq<UserId>, ids: set<UserId>)
  {
    && (forall i, j :: 0 <= i < j < |order| ==> order[i] != order[j])
    && (forall k :: 0 <= k < |order| ==> order[k] in ids)
    && (forall x :: x in ids ==> x in order)
  }

  /** The channels of `order` whose subscription goes through: 7TV knows the user and the frame is sent. */
  function Subscribable(order: seq<UserId>, emoteSets: map<UserId, string>, failing: set<UserId>): set<UserId>
  {
    set x | x in order && x in emoteSets && x !in failing
  }

  /**
   * `listen_channel`: when 7TV knows the Twitch user (`emoteSets` maps it to its
   * emote set), an op-35 subscribe frame is sent and the channel becomes
   * subscribed; a failed send (`failing`) ends the drain with an error. The
   * channel is never taken out of `awaiting` here.
   */
  function Listen(c: Client, id: UserId, emoteSets: map<UserId, string>, failing: set<UserId>): (r: Step)
    ensures r.client.awaiting == c.awaiting && r.client.sessionId == c.sessionId && r.client.reconnectUrl == c.reconnectUrl
    ensures id !in emoteSets ==> r == Step(c, [], Running)
    ensures id in emoteSets ==> r.actions == [Send(Subscribe(emoteSets[id]))]
    ensures id in emoteSets && id !in failing ==> r.client.listening == c.listening + {id} && r.status == Running
    ensures id in emoteSets && id in failing ==> r.client == c && r.status == Failed
    ensures r.status != Reconnecting
  {
    if id !in emoteSets then Step(c, [], Running)
    else if id in failing then Step(c, [Send(Subscribe(emoteSets[id]))], Failed)
    else Step(c.(listening := c.listening + {id}), [Send(Subscribe(emoteSets[id]))], Running)
  }

  /** `listen_channel` for each id in turn, stopping at the first failed send. */
  function ListenAll(c: Client, order: seq<UserId>, emoteSets: map<UserId, string>, failing: set<UserId>): (r: Step)
    ensures r.client.awaiting == c.awaiting && r.client.sessionId == c.sessionId && r.client.reconnectUrl == c.reconnectUrl
    ensures c.listening <= r.client.listening <= c.listening + Subscribable(order, emoteSets, failing)
    ensures r.status == Failed <==> exists k :: 0 <= k < |order| && order[k] in emoteSets && order[k] in failing
    ensures r.status == Running ==> r.client.listening == c.listening + Subscribable(order, emoteSets, failing)
    ensures |r.actions| <= |order| && r.status != Reconnecting
    decreases |order|
  {
    if |order| == 0 then Step(c, [], Running)
    else
      var first := Listen(c, order[0], emoteSets, failing);
      if first.status == Failed then first
      else
        var rest := ListenAll(first.client, order[1..], emoteSets, failing);
        assert Subscribable(order, emoteSets, failing)
            == Subscribable([order[0]], emoteSets, failing) + Subscribable(order[1..], emoteSets, failing);
        assert forall x :: x in order[1..] ==> x in order;
        Step(rest.client, first.actions + rest.actions, rest.status)
  }

  /**
   * `process_awaiting_channels`: the shared set is cut down to the channels not
   * yet subscribed before any network call, and each of them (in the set's
   * iteration order `order`) is subscribed. It runs whatever the session.
   */
  function Drain(c: Client, order: seq<UserId>, emoteSets: map<UserId, string>, failing: set<UserId>): (r: Step)
    requires Enumerates(order, Pending(c))
    ensures r.client.awaiting == c.awaiting - c.listening
    ensures r.client.sessionId == c.sessionId && r.client.reconnectUrl == c.reconnectUrl
    ensures c.listening <= r.client.listening
    ensures r.status == Running ==>
              r.client.listening == c.listening + (set x | x in Pending(c) && x in emoteSets && x !in failing)
    ensures r.status == Failed <==> exists x :: x in Pending(c) && x in emoteSets && x in failing
    ensures Pending(c) == {} ==> r == Step(c.(awaiting := c.awaiting - c.listening), [], Running)
    ensures r.status != Reconnecting
  {
    var d := c.(awaiting := c.awaiting - c.listening);
    var r := ListenAll(d, order, emoteSets, failing);
    assert Subscribable(order, emoteSets, failing) == (set x | x in Pending(c) && x in emoteSets && x !in failing);
    assert (exists k :: 0 <= k < |order| && order[k] in emoteSets && order[k] in failing)
       <==> (exists x :: x in Pending(c) && x in emoteSets && x in failing);
    r
  }

  /** When no send fails, the iteration order of the waiting set does not matter. */
  lemma DrainOrderIrrelevant(c: Client, o1: seq<UserId>, o2: seq<UserId>, emoteSets: map<UserId, string>, failing: set<UserId>)
    requires Enumerates(o1, Pending(c)) && Enumerates(o2, Pending(c))
    requires Drain(c, o1, emoteSets, failing).status == Running
    ensures Drain(c, o2, emoteSets, failing).client == Drain(c, o1, emoteSets, failing).client
  {
  }

  /**
   * After a drain with no failed send, the next drain only retries the channels
   * 7TV did not know: the subscribed ones are dropped from the shared set then.
   */
  lemma NextDrainRetriesUnknown(c: Client, order: seq<UserId>, emoteSets: map<UserId, string>, failing: set<UserId>)
    requires Enumerates(order, Pending(c))
    requires Drain(c, order, emoteSets, failing).status == Running
    ensures Pending(Drain(c, order, emoteSets, failing).client) == set x | x in Pending(c) && x !in emoteSets
  {
    var d := Drain(c, order, emoteSets, failing).client;
    assert forall x :: x in Pending(c) && x in emoteSets ==> x !in failing;
    assert d.listening == c.listening + (set x | x in Pending(c) && x in emoteSets);
  }

  /** After a flip, the next drain tries every channel that was waiting or subscribed. */
  lemma FlipResubscribesAll(c: Client)
    ensures Pending(Flip(c)) == c.awaiting + c.listening
  {
  }

  // ---------------------------------------------------------------------
  // Session
  // ---------------------------------------------------------------------

  /** `resume_session`: sends op 34 with the stored session id; with no session it sends nothing. */
  function ResumeSession(c: Client, sendOk: bool): (r: Step)
    ensures r.client == c
    ensures c.sessionId.None? ==> r == Step(c, [], Running)
    ensures c.sessionId.Some? ==> r.actions == [Send(Resume(c.sessionId.value))]
                                  && (r.status == Failed <==> !sendOk)
  {
    match c.sessionId
    case None => Step(c, [], Running)
    case Some(id) => Step(c, [Send(Resume(id))], if sendOk then Running else Failed)
  }

  /** The answers the outside world gives during one step. */
  datatype Env = Env(
    order: seq<UserId>,                 // iteration order of the channels a drain tries
    emoteSets: map<UserId, string>,     // 7TV user lookup by Twitch id: the user's emote set
    failing: set<UserId>,               // channels whose subscribe frame fails to send
    sendOk: bool,                       // whether a resume frame is sent
    closeOk: bool,                      // whether closing the socket succeeds
    connectOk: bool,                    // whether a single connect succeeds
    retries: seq<bool>,                 // outcomes of the successive reconnects after a Close
    dispatch: DispatchEnv)

  /**
   * Hello (op 1): without a session, the id is stored and the channels are
   * drained; with one, the old session is resumed and the new id dropped.
   */
  function Hello(c: Client, sessionId: string, env: Env): (r: Step)
    requires c.sessionId.None? ==> Enumerates(env.order, Pending(c))
    ensures c.sessionId.None? ==> r.client.sessionId == Some(sessionId)
                                  && r == Drain(c.(sessionId := Some(sessionId)), env.order, env.emoteSets, env.failing)
    ensures c.sessionId.Some? ==> r == ResumeSession(c, env.sendOk) && r.client.sessionId == c.sessionId
  {
    if c.sessionId.None? then Drain(c.(sessionId := Some(sessionId)), env.order, env.emoteSets, env.failing)
    else ResumeSession(c, env.sendOk)
  }

  /** Reconnect (op 4): flip, close, and connect again to the unchanged reconnect URL; the session is kept. */
  function Reconnect(c: Client, env: Env): (r: Step)
    ensures r.client == Flip(c)
    ensures !env.closeOk ==> r == Step(Flip(c), [CloseSocket], Failed)
    ensures env.closeOk ==> r.actions == [CloseSocket, Connect(c.reconnectUrl)] && (r.status == Running <==> env.connectOk)
  {
    if !env.closeOk then Step(Flip(c), [CloseSocket], Failed)
    else Step(Flip(c), [CloseSocket, Connect(c.reconnectUrl)], if env.connectOk then Running else Failed)
  }

  // ---------------------------------------------------------------------
  // Reconnecting after Close
  // ---------------------------------------------------------------------

  function Failures(outcomes: seq<bool>): nat
  {
    if |outcomes| == 0 then 0 else (if outcomes[0] then 0 else 1) + Failures(outcomes[1..])
  }

  /**
   * The retry loop after a Close frame as written: each pass connects once and
   * only a failure counts; the loop exits once three connects have failed.
   * `CloseRetryAsWritten(outcomes, attempts)` is the number of connects made
   * before the loop exits, or None when the given outcomes run out first.
   */
  function CloseRetryAsWritten(outcomes: seq<bool>, attempts: nat): (r: Option<nat>)
    ensures r.Some? ==> r.value <= |outcomes|
  {
    if attempts > 2 then Some(0)
    else if |outcomes| == 0 then None
    else match CloseRetryAsWritten(outcomes[1..], if outcomes[0] then attempts else attempts + 1)
      case None => None
      case Some(n) => Some(n + 1)
  }

  /**
   * As written, the loop leaves exactly when the third connect has failed, however
   * many succeeded in between: the last outcome it consumed is that third failure.
   */
  lemma {:induction false} CloseRetryAsWrittenExits(outcomes: seq<bool>, attempts: nat)
    requires attempts <= 3
    ensures CloseRetryAsWritten(outcomes, attempts).Some? <==> attempts + Failures(outcomes) >= 3
    ensures CloseRetryAsWritten(outcomes, attempts).Some? ==>
              attempts + Failures(outcomes[..CloseRetryAsWritten(outcomes, attempts).value]) == 3
    ensures attempts <= 2 && CloseRetryAsWritten(outcomes, attempts).Some? ==>
              CloseRetryAsWritten(outcomes, attempts).value > 0
              && !outcomes[CloseRetryAsWritten(outcomes, attempts).value - 1]
  {
    if attempts > 2 {
      assert outcomes[..0] == [];
    } else if |outcomes| > 0 {
      var next := if outcomes[0] then attempts else attempts + 1;
      CloseRetryAsWrittenExits(outcomes[1..], next);
      var r := CloseRetryAsWritten(outcomes[1..], next);
      if r.Some? {
        assert outcomes[..r.value + 1][1..] == outcomes[1..][..r.value];
      }
    }
  }

  /** As written, a Close followed by connects that all succeed never leaves the loop: the client reconnects forever. */
  lemma CloseRetryNeverEndsOnSuccess(n: nat)
    ensures CloseRetryAsWritten(seq(n, _ => true), 0).None?
  {
    AllSuccessNoFailures(n);
    CloseRetryAsWrittenExits(seq(n, _ => true), 0);
  }

  lemma {:induction false} AllSuccessNoFailures(n: nat)
    ensures Failures(seq(n, _ => true)) == 0
  {
    if n > 0 {
      assert seq(n, _ => true)[1..] == seq(n - 1, _ => true);
      AllSuccessNoFailures(n - 1);
    }
  }

  /**
   * The retry loop as evidently intended: at most three connects, stopping at
   * the first that succeeds. The result is the number of connects made and
   * whether the client is connected again.
   */
  function CloseRetry(outcomes: seq<bool>, attempts: nat): (r: (nat, bool))
    requires attempts <= 3
    ensures r.0 <= 3 - attempts && r.0 <= |outcomes|
    ensures r.1 <==> exists k :: 0 <= k < r.0 && outcomes[k]
    ensures r.1 ==> outcomes[r.0 - 1] && forall k :: 0 <= k < r.0 - 1 ==> !outcomes[k]
    ensures !r.1 ==> r.0 == if |outcomes| < 3 - attempts then |outcomes| else 3 - attempts
    decreases 3 - attempts
  {
    if attempts == 3 || |outcomes| == 0 then (0, false)
    else if outcomes[0] then (1, true)
    else
      var (n, ok) := CloseRetry(outcomes[1..], attempts + 1);
      (n + 1, ok)
  }

  /**
   * Close: flip, then run the reconnect loop as written, every connect to the
   * reconnect URL; the session is kept. The loop is left only after the third
   * failed connect; when the outcomes run out first the client is still
   * reconnecting.
   */
  function Close(c: Client, env: Env): (r: Step)
    ensures r.client == Flip(c) && r.status != Failed && |r.actions| <= |env.retries|
    ensures r.status == Running <==> Failures(env.retries) >= 3
    ensures r.status == Running ==> Failures(env.retries[..|r.actions|]) == 3
    ensures r.status == Running ==> |r.actions| > 0 && !env.retries[|r.actions| - 1]
    ensures r.status == Reconnecting ==> |r.actions| == |env.retries|
    ensures forall k :: 0 <= k < |r.actions| ==> r.actions[k] == Connect(c.reconnectUrl)
  {
    CloseRetryAsWrittenExits(env.retries, 0);
    match CloseRetryAsWritten(env.retries, 0)
    case Some(n) => Step(Flip(c), seq(n, _ => Connect(c.reconnectUrl)), Running)
    case None => Step(Flip(c), seq(|env.retries|, _ => Connect(c.reconnectUrl)), Reconnecting)
  }

  /**
   * Close with the evidently intended loop: at most three connects, stopping at
   * the first that succeeds.
   */
  function CloseIntended(c: Client, env: Env): (r: Step)
    ensures r.client == Flip(c) && r.status == Running
    ensures 1 <= |r.actions| <= 3 || (|env.retries| == 0 && r.actions == [])
    ensures forall k :: 0 <= k < |r.actions| ==> r.actions[k] == Connect(c.reconnectUrl)
  {
    var (n, _) := CloseRetry(env.retries, 0);
    Step(Flip(c), seq(n, _ => Connect(c.reconnectUrl)), Running)
  }

  /** The written and the intended loops agree when the first three connects all fail. */
  lemma CloseAgreesWhenThreeFail(c: Client, env: Env)
    requires |env.retries| >= 3 && !env.retries[0] && !env.retries[1] && !env.retries[2]
    ensures Close(c, env) == CloseIntended(c, env)
  {
    var t := env.retries;
    assert CloseRetryAsWritten(t[1..][1..][1..], 3) == Some(0);
    assert CloseRetryAsWritten(t[1..][1..], 2) == Some(1);
    assert CloseRetryAsWritten(t[1..], 1) == Some(2);
    assert CloseRetryAsWritten(t, 0) == Some(3);
    assert CloseRetry(t[1..][1..][1..], 3) == (0, false);
    assert CloseRetry(t, 0) == (3, false);
  }

  // ---------------------------------------------------------------------
  // Dispatch (op 0)
  // ---------------------------------------------------------------------

  datatype Connection = Connection(platform: string, username: string)

  datatype Actor = Actor(username: string, connections: seq<Connection>)

  /** An entry of `pushed`, `pulled` or `updated`: the emote's new and old names, when given. */
  datatype EmoteChange = EmoteChange(value: Option<string>, oldValue: Option<string>)

  datatype DispatchBody = DispatchBody(
    eventType: string,
    actor: Actor,
    pushed: Option<seq<EmoteChange>>,
    pulled: Option<seq<EmoteChange>>,
    updated: Option<seq<EmoteChange>>)

  datatype ChannelFeature = Notify7TVUpdates | OtherFeature

  /**
   * The channel that owns the emote set, reached through the emote set, its
   * owner, the owner's 7TV user and its Twitch connection: its login, language
   * and features (None for a feature string that does not parse).
   */
  datatype Owner = Owner(aliasName: string, language: string, features: seq<Option<ChannelFeature>>)

  /**
   * How the owner chain ends: a step that finds nothing (the emote set, its
   * owner, the owner's 7TV user, its Twitch connection) ends the dispatch
   * quietly; a Twitch id that does not parse as an `i32`, or a missing channel
   * or channel preference row, panics.
   */
  datatype OwnerLookup = NoOwner | LookupPanics | Found(owner: Owner)

  /** The lookups a dispatch needs. */
  datatype DispatchEnv = DispatchEnv(lookup: OwnerLookup, locales: Localization.Locales<Localization.LineId>)

  /** The first connection on the given platform. */
  function FindPlatform(connections: seq<Connection>, platform: string): (r: Option<Connection>)
    ensures r.Some? ==> r.value in connections && r.value.platform == platform
    ensures r.None? <==> forall c :: c in connections ==> c.platform != platform
  {
    if |connections| == 0 then None
    else if connections[0].platform == platform then Some(connections[0])
    else
      assert forall c :: c in connections <==> c == connections[0] || c in connections[1..];
      FindPlatform(connections[1..], platform)
  }

  /** The actor's Twitch username when they linked Twitch, else their 7TV username. */
  function ActorName(actor: Actor): (name: string)
    ensures FindPlatform(actor.connections, "TWITCH").None? ==> name == actor.username
    ensures FindPlatform(actor.connections, "TWITCH").Some? ==> name == FindPlatform(actor.connections, "TWITCH").value.username
  {
    match FindPlatform(actor.connections, "TWITCH")
    case Some(c) => c.username
    case None => actor.username
  }

  datatype ChangeKind = Pushed | Pulled | Updated

  /** The line announcing each kind of change. */
  function ChangeLine(kind: ChangeKind): Localization.LineId
  {
    match kind
    case Pushed => Localization.EmotesPushed
    case Pulled => Localization.EmotesPulled
    case Updated => Localization.EmotesUpdated
  }

  /** The emote names a change contributes: the new name when pushed, the old when pulled, both when updated. */
  function ChangeNames(kind: ChangeKind, e: EmoteChange): (r: Option<seq<string>>)
    ensures kind == Pushed ==> (r.Some? <==> e.value.Some?) && (r.Some? ==> r.value == [e.value.value])
    ensures kind == Pulled ==> (r.Some? <==> e.oldValue.Some?) && (r.Some? ==> r.value == [e.oldValue.value])
    ensures kind == Updated ==> (r.Some? <==> e.value.Some? && e.oldValue.Some?)
                                && (r.Some? ==> r.value == [e.oldValue.value, e.value.value])
  {
    match kind
    case Pushed => if e.value.Some? then Some([e.value.value]) else None
    case Pulled => if e.oldValue.Some? then Some([e.oldValue.value]) else None
    case Updated => if e.value.Some? && e.oldValue.Some? then Some([e.oldValue.value, e.value.value]) else None
  }

  /**
   * One announcement for the change: the change's line with the provider, the
   * actor and the change's emote names (`ChangeNames`) as its arguments.
   */
  function Announcement(locales: Localization.Locales<Localization.LineId>, language: string, provider: string,
                        actor: string, kind: ChangeKind, e: EmoteChange): string
    requires ChangeNames(kind, e).Some?
  {
    Localization.GetFormattedText(locales, language, ChangeLine(kind), [provider, actor] + ChangeNames(kind, e).value).value
  }

  /** The announcements of one list of changes, in order; None when a needed name is missing (an `unwrap` panics). */
  function Announcements(locales: Localization.Locales<Localization.LineId>, language: string, provider: string,
                         actor: string, kind: ChangeKind, changes: seq<EmoteChange>): (r: Option<seq<string>>)
    ensures r.Some? <==> forall k :: 0 <= k < |changes| ==> ChangeNames(kind, changes[k]).Some?
    ensures r.Some? ==> |r.value| == |changes|
    ensures r.Some? ==> forall k {:trigger changes[k]} :: 0 <= k < |changes| ==>
              r.value[k] == Announcement(locales, language, provider, actor, kind, changes[k])
  {
    if |changes| == 0 then Some([])
    else match ChangeNames(kind, changes[0])
      case None => None
      case Some(_) =>
        match Announcements(locales, language, provider, actor, kind, changes[1..])
        case None => None
        case Some(rest) =>
          Some([Announcement(locales, language, provider, actor, kind, changes[0])] + rest)
  }

  function ChangesOf(changes: Option<seq<EmoteChange>>): seq<EmoteChange>
  {
    changes.GetOr([])
  }

  predicate WantsUpdates(owner: Owner)
  {
    exists k :: 0 <= k < |owner.features| && owner.features[k] == Some(Notify7TVUpdates)
  }

  /** Every change of the list carries the names its kind needs. */
  predicate NamesPresent(kind: ChangeKind, changes: seq<EmoteChange>)
  {
    forall k :: 0 <= k < |changes| ==> ChangeNames(kind, changes[k]).Some?
  }

  /**
   * `handle_dispatch`: only `emote_set.update`, and only for a channel with the
   * 7TV-updates feature, is announced: one line per emote, pushed first, then
   * pulled, then updated. None stands for a panic: a failed owner lookup, a
   * missing emote name, or a missing provider line. The provider line is looked
   * up once per change, so without changes its absence does no harm.
   */
  function HandleDispatch(body: DispatchBody, env: DispatchEnv): (r: Option<seq<Action>>)
    ensures body.eventType != "emote_set.update" || env.lookup.NoOwner? ==> r == Some([])
    ensures body.eventType == "emote_set.update" && env.lookup.LookupPanics? ==> r.None?
    ensures body.eventType == "emote_set.update" && env.lookup.Found? && !WantsUpdates(env.lookup.owner) ==> r == Some([])
    ensures body.eventType == "emote_set.update" && env.lookup.Found? && WantsUpdates(env.lookup.owner) ==>
              var p, q, u := ChangesOf(body.pushed), ChangesOf(body.pulled), ChangesOf(body.updated);
              && (r.None? <==> !NamesPresent(Pushed, p) || !NamesPresent(Pulled, q) || !NamesPresent(Updated, u)
                               || (|p| + |q| + |u| > 0
                                   && Localization.GetLiteralText(env.locales, env.lookup.owner.language,
                                                                  Localization.Provider7TV).None?))
              && (|p| + |q| + |u| == 0 ==> r == Some([]))
  {
    if body.eventType != "emote_set.update" then Some([])
    else match env.lookup
      case NoOwner => Some([])
      case LookupPanics => None
      case Found(owner) =>
        var p, q, u := ChangesOf(body.pushed), ChangesOf(body.pulled), ChangesOf(body.updated);
        if !WantsUpdates(owner) || |p| + |q| + |u| == 0 then Some([])
        else match Localization.GetLiteralText(env.locales, owner.language, Localization.Provider7TV)
          case None => None
          case Some(provider) =>
            var actor := ActorName(body.actor);
            var pushed := Announcements(env.locales, owner.language, provider, actor, Pushed, p);
            var pulled := Announcements(env.locales, owner.language, provider, actor, Pulled, q);
            var updated := Announcements(env.locales, owner.language, provider, actor, Updated, u);
            if pushed.None? || pulled.None? || updated.None? then None
            else Some(SayAll(owner.aliasName, pushed.value + pulled.value + updated.value))
  }

  function SayAll(channel: string, texts: seq<string>): (actions: seq<Action>)
    ensures |actions| == |texts|
    ensures forall k :: 0 <= k < |texts| ==> actions[k] == Say(channel, texts[k])
  {
    if |texts| == 0 then [] else [Say(channel, texts[0])] + SayAll(channel, texts[1..])
  }

  /**
   * A handled dispatch says one line per emote in the owner's channel: the
   * pushed emotes' lines first, then the pulled, then the updated, each list in
   * its own order.
   */
  lemma DispatchOrder(body: DispatchBody, env: DispatchEnv)
    requires body.eventType == "emote_set.update" && env.lookup.Found? && WantsUpdates(env.lookup.owner)
    requires HandleDispatch(body, env).Some?
    ensures var owner := env.lookup.owner;
            var actor := ActorName(body.actor);
            var p := ChangesOf(body.pushed);
            var q := ChangesOf(body.pulled);
            var u := ChangesOf(body.updated);
            var actions := HandleDispatch(body, env).value;
            && |actions| == |p| + |q| + |u|
            && (|actions| > 0 ==>
                  && owner.language in env.locales && Localization.Provider7TV in env.locales[owner.language]
                  && var provider := env.locales[owner.language][Localization.Provider7TV];
                  && (forall k :: 0 <= k < |p| ==>
                        actions[k] == Say(owner.aliasName, Announcement(env.locales, owner.language, provider, actor, Pushed,
                                                                        p[k])))
                  && (forall k :: 0 <= k < |q| ==>
                        actions[|p| + k] == Say(owner.aliasName, Announcement(env.locales, owner.language, provider, actor,
                                                                              Pulled, q[k])))
                  && (forall k :: 0 <= k < |u| ==>
                        actions[|p| + |q| + k] == Say(owner.aliasName, Announcement(env.locales, owner.language, provider,
                                                                                    actor, Updated, u[k]))))
  {
    var owner := env.lookup.owner;
    if |ChangesOf(body.pushed)| + |ChangesOf(body.pulled)| + |ChangesOf(body.updated)| > 0 {
      DispatchTexts(body, env);
      SayAnnouncements(owner.aliasName, env.locales, owner.language, env.locales[owner.language][Localization.Provider7TV],
                       ActorName(body.actor), ChangesOf(body.pushed), ChangesOf(body.pulled), ChangesOf(body.updated));
    }
  }

  lemma DispatchTexts(body: DispatchBody, env: DispatchEnv)
    requires body.eventType == "emote_set.update" && env.lookup.Found? && WantsUpdates(env.lookup.owner)
    requires |ChangesOf(body.pushed)| + |ChangesOf(body.pulled)| + |ChangesOf(body.updated)| > 0
    requires HandleDispatch(body, env).Some?
    ensures var owner := env.lookup.owner;
            && owner.language in env.locales && Localization.Provider7TV in env.locales[owner.language]
            && var provider := env.locales[owner.language][Localization.Provider7TV];
            var actor := ActorName(body.actor);
            var pushed := Announcements(env.locales, owner.language, provider, actor, Pushed, ChangesOf(body.pushed));
            var pulled := Announcements(env.locales, owner.language, provider, actor, Pulled, ChangesOf(body.pulled));
            var updated := Announcements(env.locales, owner.language, provider, actor, Updated, ChangesOf(body.updated));
            && pushed.Some? && pulled.Some? && updated.Some?
            && HandleDispatch(body, env).value == SayAll(owner.aliasName, pushed.value + pulled.value + updated.value)
  {
    var owner := env.lookup.owner;
    assert Localization.GetLiteralText(env.locales, owner.language, Localization.Provider7TV)
        == Some(env.locales[owner.language][Localization.Provider7TV]);
  }

  /** Saying the pushed, pulled and updated announcements in turn says each change's line at its offset. */
  lemma SayAnnouncements(channel: string, locales: Localization.Locales<Localization.LineId>, language: string,
                         provider: string, actor: string, p: seq<EmoteChange>, q: seq<EmoteChange>, u: seq<EmoteChange>)
    requires Announcements(locales, language, provider, actor, Pushed, p).Some?
    requires Announcements(locales, language, provider, actor, Pulled, q).Some?
    requires Announcements(locales, language, provider, actor, Updated, u).Some?
    ensures var actions := SayAll(channel, Announcements(locales, language, provider, actor, Pushed, p).value
                                           + Announcements(locales, language, provider, actor, Pulled, q).value
                                           + Announcements(locales, language, provider, actor, Updated, u).value);
            && |actions| == |p| + |q| + |u|
            && (forall k :: 0 <= k < |p| ==>
                  actions[k] == Say(channel, Announcement(locales, language, provider, actor, Pushed, p[k])))
            && (forall k :: 0 <= k < |q| ==>
                  actions[|p| + k] == Say(channel, Announcement(locales, language, provider, actor, Pulled, q[k])))
            && (forall k :: 0 <= k < |u| ==>
                  actions[|p| + |q| + k] == Say(channel, Announcement(locales, language, provider, actor, Updated, u[k])))
  {
    var a := Announcements(locales, language, provider, actor, Pushed, p).value;
    var b := Announcements(locales, language, provider, actor, Pulled, q).value;
    var c := Announcements(locales, language, provider, actor, Updated, u).value;
    SayAllThree(channel, a, b, c);
  }

  /** Saying three lists one after the other says each list's lines at their offsets. */
  lemma SayAllThree(channel: string, a: seq<string>, b: seq<string>, c: seq<string>)
    ensures var actions := SayAll(channel, a + b + c);
            && |actions| == |a| + |b| + |c|
            && (forall k {:trigger a[k]} :: 0 <= k < |a| ==> actions[k] == Say(channel, a[k]))
            && (forall k {:trigger b[k]} :: 0 <= k < |b| ==> actions[|a| + k] == Say(channel, b[k]))
            && (forall k {:trigger c[k]} :: 0 <= k < |c| ==> actions[|a| + |b| + k] == Say(channel, c[k]))
  {
    var texts := a + b + c;
    assert forall k :: 0 <= k < |b| ==> texts[|a| + k] == b[k];
    assert forall k :: 0 <= k < |c| ==> texts[|a| + |b| + k] == c[k];
  }

  // ---------------------------------------------------------------------
  // Frames
  // ---------------------------------------------------------------------

  /** The decoded `d` of a payload: the shapes the client parses it into. */
  datatype PayloadData = DispatchData(body: DispatchBody) | HelloData(sessionId: string) | OtherData

  datatype Payload = Payload(op: int, d: PayloadData)

  /** A frame from the socket: text (None when it is not a payload), Close, or anything else. */
  datatype Frame = TextFrame(payload: Option<Payload>) | CloseFrame | OtherFrame

  /**
   * `process_message`. Dispatch (0) and Hello (1) act when their data decodes;
   * Reconnect (4) flips and reconnects; Heartbeat (2), Error (6), End of Stream
   * (7), other opcodes and undecodable text change nothing. None stands for a
   * panic inside a dispatch.
   */
  function ProcessMessage(c: Client, frame: Frame, env: Env): (r: Option<Step>)
    requires c.sessionId.None? ==> Enumerates(env.order, Pending(c))
    ensures frame == OtherFrame || frame == TextFrame(None) ==> r == Some(Step(c, [], Running))
    ensures frame.TextFrame? && frame.payload.Some? && frame.payload.value.op !in {0, 1, 4} ==> r == Some(Step(c, [], Running))
    ensures frame == CloseFrame ==> r == Some(Close(c, env))
    ensures frame.TextFrame? && frame.payload.Some? && frame.payload.value.op == 4 ==> r == Some(Reconnect(c, env))
    ensures frame.TextFrame? && frame.payload.Some? && frame.payload.value.op == 1 && frame.payload.value.d.HelloData? ==>
              r == Some(Hello(c, frame.payload.value.d.sessionId, env))
    ensures r.Some? && frame.TextFrame? && frame.payload.Some? && frame.payload.value.op == 0 ==>
              r.value.client == c && r.value.status == Running
  {
    match frame
    case OtherFrame => Some(Step(c, [], Running))
    case CloseFrame => Some(Close(c, env))
    case TextFrame(None) => Some(Step(c, [], Running))
    case TextFrame(Some(payload)) =>
      if payload.op == 0 then
        if payload.d.DispatchData? then
          match HandleDispatch(payload.d.body, env.dispatch)
          case None => None
          case Some(actions) => Some(Step(c, actions, Running))
        else Some(Step(c, [], Running))
      else if payload.op == 1 then
        if payload.d.HelloData? then Some(Hello(c, payload.d.sessionId, env)) else Some(Step(c, [], Running))
      else if payload.op == 4 then Some(Reconnect(c, env))
      else Some(Step(c, [], Running))
  }

  /** Heartbeats never change the client, so the session, the URL and both sets survive any number of them. */
  lemma HeartbeatsChangeNothing(c: Client, env: Env, payloads: seq<Payload>)
    requires forall k :: 0 <= k < |payloads| ==> payloads[k].op == 2
    requires c.sessionId.None? ==> Enumerates(env.order, Pending(c))
    ensures forall k :: 0 <= k < |payloads| ==> ProcessMessage(c, TextFrame(Some(payloads[k])), env) == Some(Step(c, [], Running))
  {
  }

  /** A second Hello never replaces the session: the stored id is resumed instead. */
  lemma HelloKeepsFirstSession(c: Client, first: string, second: string, env: Env)
    requires c.sessionId.None? && Enumerates(env.order, Pending(c))
    ensures var afterFirst := Hello(c, first, env).client;
            afterFirst.sessionId == Some(first)
            && Hello(afterFirst, second, env) == ResumeSession(afterFirst, env.sendOk)
            && Hello(afterFirst, second, env).actions == [Send(Resume(first))]
  {
  }

  /** The reconnect URL never changes: no frame, Close or Reconnect replaces it. */
  lemma ReconnectUrlConstant(c: Client, frame: Frame, env: Env)
    requires c.sessionId.None? ==> Enumerates(env.order, Pending(c))
    requires ProcessMessage(c, frame, env).Some?
    ensures ProcessMessage(c, frame, env).value.client.reconnectUrl == c.reconnectUrl
  {
  }
}

=== FILE: spam_command.dfy ===
/**
 * `!spam` (`src/modules/spam.rs`, the older crate's copy): `spam N text`
 * repeats `text` N times. Replies go through the older positional localizer,
 * whose `get_formatted_text(...).unwrap()` panics on a missing line.
 */
module SpamCommand {
  import opened Options
  import opened Text
  import Localization
  import LegacyLocalization

  /** The command's answer: the lines to send, or a panic. */
  datatype Outcome = Lines(lines: seq<string>) | Panicked

  /** The count word as `i32`, or -1 when it does not parse. */
  function Count(word: string): (c: int)
    ensures ParseI32(word).Some? ==> c == ParseI32(word).value
    ensures ParseI32(word).None? ==> c == -1
  {
    match ParseI32(word)
    case Some(c) => c
    case None => -1
  }

  /** `count` copies of `text`. */
  function Repeat(text: string, count: nat): (r: seq<string>)
    ensures |r| == count
    ensures forall k :: 0 <= k < count ==> r[k] == text
  {
    if count == 0 then [] else [text] + Repeat(text, count - 1)
  }

  /** A localized line with the given parameters, or a panic when the line is missing. */
  function Say(locales: Localization.Locales<LegacyLocalization.LineId>, language: string,
               id: LegacyLocalization.LineId, parameters: seq<string>): (r: Outcome)
    ensures r.Panicked? <==> Localization.GetLiteralText(locales, language, id).None?
    ensures r.Lines? ==> |r.lines| == 1
  {
    match LegacyLocalization.GetFormattedText(locales, language, id, parameters)
    case Some(line) => Lines([line])
    case None => Panicked
  }

  /**
   * The message split on single spaces: the first piece is the count, the rest
   * joined back with spaces is the text. `NoMessage` is the older localizer's
   * line for a missing text.
   */
  function Execute(message: Option<string>, senderName: string, language: string,
                   locales: Localization.Locales<LegacyLocalization.LineId>): (r: Outcome)
    ensures message.None? ==> r == Panicked
  {
    match message
    case None => Panicked
    case Some(msg) =>
      var pieces := Split(msg, " ");
      var count := Count(pieces[0]);
      if count <= 0 then
        Say(locales, language, LegacyLocalization.CommandSpamInvalidCount, [senderName, pieces[0]])
      else
        var text := Join(pieces[1..], " ");
        if text == "" then Say(locales, language, LegacyLocalization.CommandSpamNoMessage, [senderName])
        else Lines(Repeat(text, count))
  }

  /**
   * The count is the part before the first space and the text everything after
   * it. A positive count and a non-empty text give exactly `count` copies of
   * the text; a count that is not a positive `i32` gives the invalid-count line
   * with the original word; the no-count line is never used.
   */
  lemma ExecuteSpec(msg: string, senderName: string, language: string,
                    locales: Localization.Locales<LegacyLocalization.LineId>)
    ensures var count := Count(Before(msg, ' '));
            var text := After(msg, ' ');
            var r := Execute(Some(msg), senderName, language, locales);
            (count <= 0 ==> r == Say(locales, language, LegacyLocalization.CommandSpamInvalidCount, [senderName, Before(msg, ' ')]))
            && (count > 0 && text == "" ==> r == Say(locales, language, LegacyLocalization.CommandSpamNoMessage, [senderName]))
            && (count > 0 && text != "" ==> r == Lines(Repeat(text, count)))
  {
    assert " " == [' '];
    SplitAtChar(msg, ' ');
  }

  /** `spam N text` with 0 < N < 2^31 and a non-empty text repeats the text N times. */
  lemma RepeatsText(n: nat, text: string, senderName: string, language: string,
                    locales: Localization.Locales<LegacyLocalization.LineId>)
    requires 0 < n < I32_LIMIT && text != ""
    ensures Execute(Some(NatToString(n) + " " + text), senderName, language, locales) == Lines(Repeat(text, n))
  {
    var w := NatToString(n);
    var msg := w + " " + text;
    assert msg[|w|] == ' ';
    assert forall j :: 0 <= j < |w| ==> msg[j] == w[j] && IsDigit(w[j]);
    assert CharIndex(msg, ' ') == Some(|w|);
    assert msg[..|w|] == w;
    assert msg[|w| + 1..] == text;
    ParseNatToString(n, I32_LIMIT);
    assert ParseI32(w) == Some(n as int) by {
      assert IsDigit(w[0]);
    }
    ExecuteSpec(msg, senderName, language, locales);
  }

  /** A count of zero is refused with the word as written. */
  lemma ZeroRefused(text: string, senderName: string, language: string,
                    locales: Localization.Locales<LegacyLocalization.LineId>)
    ensures Execute(Some("0 " + text), senderName, language, locales)
            == Say(locales, language, LegacyLocalization.CommandSpamInvalidCount, [senderName, "0"])
  {
    var msg := "0 " + text;
    assert CharIndex(msg, ' ') == Some(1);
    assert msg[..1] == "0";
    assert ParseI32("0") == Some(0) by {
      assert ParseUnsigned("0", I32_LIMIT) == Some(0);
    }
    ExecuteSpec(msg, senderName, language, locales);
  }
}

=== FILE: stats.dfy ===
/**
 * The emote statistics service both `!etop` and `!ecount` read
 * (`bot/src/models/stats.rs`): the channel's 7TV emotes, and how often each
 * emote id was used.
 */
module Stats {
  import opened Options

  datatype ChannelEmote = ChannelEmote(emoteId: int, name: string)

  datatype EmoteUsage = EmoteUsage(emoteId: int, usageCount: int)

  /** The service's envelope: a status code, an optional message and optional data. */
  datatype StatsResponse<T> = StatsResponse(statusCode: nat, message: Option<string>, data: Option<T>)

  const STATUS_OK: nat := 200

  /** The first emote with the given id (`iter().find` on `emote_id`). */
  function EmoteById(emotes: seq<ChannelEmote>, id: int): (r: Option<ChannelEmote>)
    ensures r.Some? ==> r.value in emotes && r.value.emoteId == id
    ensures r.None? <==> forall k :: 0 <= k < |emotes| ==> emotes[k].emoteId != id
    ensures r.Some? ==> exists k :: 0 <= k < |emotes| && emotes[k] == r.value
                                     && forall j :: 0 <= j < k ==> emotes[j].emoteId != id
  {
    if |emotes| == 0 then None
    else if emotes[0].emoteId == id then Some(emotes[0])
    else
      var r := EmoteById(emotes[1..], id);
      if r.Some? then
        var k :| 0 <= k < |emotes[1..]| && emotes[1..][k] == r.value
                 && forall j :: 0 <= j < k ==> emotes[1..][j].emoteId != id;
        assert emotes[k + 1] == r.value;
        r
      else r
  }

  /** The first emote with the given name (`iter().find` on `name`). */
  function EmoteByName(emotes: seq<ChannelEmote>, name: string): (r: Option<ChannelEmote>)
    ensures r.Some? ==> r.value in emotes && r.value.name == name
    ensures r.None? <==> forall k :: 0 <= k < |emotes| ==> emotes[k].name != name
    ensures r.Some? ==> exists k :: 0 <= k < |emotes| && emotes[k] == r.value
                                     && forall j :: 0 <= j < k ==> emotes[j].name != name
  {
    if |emotes| == 0 then None
    else if emotes[0].name == name then Some(emotes[0])
    else
      var r := EmoteByName(emotes[1..], name);
      if r.Some? then
        var k :| 0 <= k < |emotes[1..]| && emotes[1..][k] == r.value
                 && forall j :: 0 <= j < k ==> emotes[1..][j].name != name;
        assert emotes[k + 1] == r.value;
        r
      else r
  }
}

=== FILE: targets.dfy ===
/**
 * The target argument shared by `!event` and `!notify`
 * (`bot/src/modules/event.rs` and `bot/src/modules/notify.rs` parse it with
 * the same code): the first word of the message is `name:type`, the name is
 * resolved to a Twitch user id, and the channel's event for that target is
 * looked up.
 */
module EventTargets {
  import opened Options
  import opened Text
  import opened Models
  import opened Commands

  /** A parsed target: the name, the event type, and the words after the target. */
  datatype EventTarget = EventTarget(name: string, eventType: EventType, rest: string)

  /** A well-formed target word: some name, a `:`, then a non-empty type up to any further `:`. */
  predicate WellFormed(word: string)
  {
    && CharIndex(word, ':').Some?
    && Before(word, ':') != ""
    && Before(After(word, ':'), ':') != ""
  }

  /**
   * The target parse: the first space-separated word is split at `:`; its first
   * two pieces must both be non-empty, anything after a second `:` is ignored,
   * and the type name resolves (totally) to an event type.
   */
  function ParseTarget(message: string): (r: Result<EventTarget, ResponseError>)
    ensures r.Ok? <==> WellFormed(Before(message, ' '))
    ensures r.Err? ==> r.error == IncorrectArgument(Before(message, ' '))
    ensures r.Ok? ==> r.value.name == Before(Before(message, ' '), ':')
    ensures r.Ok? ==> r.value.eventType == EventTypeFromStr(Before(After(Before(message, ' '), ':'), ':'))
    ensures r.Ok? ==> r.value.rest == After(message, ' ')
  {
    var words := Split(message, " ");
    var word := words[0];
    var pieces := Split(word, ":");
    SplitAtChar(message, ' ');
    SplitAtChar(word, ':');
    if |pieces| >= 2 && pieces[0] != "" && pieces[1] != "" then
      Ok(EventTarget(pieces[0], EventTypeFromStr(pieces[1]), Join(words[1..], " ")))
    else
      Err(IncorrectArgument(word))
  }

  /** The printed target, `name:type`. */
  function NameAndType(t: EventTarget): string
  {
    t.name + ":" + EventTypeToString(t.eventType)
  }

  /** A target parsed back from its printed form names the same broadcaster and type. */
  lemma ParseNameAndType(t: EventTarget)
    requires t.name != "" && CharIndex(t.name, ':').None? && CharIndex(t.name, ' ').None?
    ensures ParseTarget(NameAndType(t)).Ok?
    ensures ParseTarget(NameAndType(t)).value == EventTarget(t.name, t.eventType, "")
  {
    var s := NameAndType(t);
    var ty := EventTypeToString(t.eventType);
    EventTypeRoundTrip(t.eventType);
    NoCharIn(t.eventType, ' ');
    NoCharIn(t.eventType, ':');
    CharIndexAfter(t.name, ':', ty);
    CharIndexAfter(t.name, ' ', ty);
    assert s[|t.name| + 1..] == ty;
    assert s[..|t.name|] == t.name;
    assert Before(s, ' ') == s && After(s, ' ') == "";
    assert Before(s, ':') == t.name && After(s, ':') == ty;
    assert Before(ty, ':') == ty;
  }

  /** The event type names hold neither a space nor a colon. */
  lemma NoCharIn(t: EventType, c: char)
    requires c == ' ' || c == ':'
    ensures CharIndex(EventTypeToString(t), c).None?
  {
    var ty := EventTypeToString(t);
    assert forall j :: 0 <= j < |ty| ==> 'a' <= ty[j] <= 'z' by {
      match t
      case Live =>
      case Offline =>
      case Title =>
      case Category =>
      case Custom =>
    }
  }

  /** The first `c` of `name + ":" + rest`, when `name` has none. */
  lemma CharIndexAfter(name: string, c: char, rest: string)
    requires CharIndex(name, c).None? && CharIndex(rest, c).None?
    ensures c == ':' ==> CharIndex(name + ":" + rest, c) == Some(|name|)
    ensures c != ':' ==> CharIndex(name + ":" + rest, c).None?
  {
    var s := name + ":" + rest;
    assert forall j :: 0 <= j < |name| ==> s[j] == name[j];
    assert forall j :: |name| < j < |s| ==> s[j] == rest[j - |name| - 1];
    assert s[|name|] == ':';
    match CharIndex(s, c)
    case None =>
    case Some(i) =>
  }

  /**
   * The Twitch id of the named user: the lookup gives the id as text, or None
   * when it fails or finds nobody, which stands as -1. The text goes through
   * `parse::<i32>().unwrap()`, so an id that is not a 32-bit number panics
   * (None). An id of -1 is an error unless the event is a custom one.
   */
  function ResolveTarget(t: EventTarget, lookup: Option<string>): (r: Option<Result<int, ResponseError>>)
    ensures r.None? <==> lookup.Some? && ParseI32(lookup.value).None?
    ensures lookup.None? ==> r == if t.eventType == Custom then Some(Ok(-1)) else Some(Err(NotFound(t.name)))
    ensures r.Some? ==> (r.value.Err? <==> t.eventType != Custom && (lookup.None? || ParseI32(lookup.value) == Some(-1)))
    ensures r.Some? && r.value.Err? ==> r.value.error == NotFound(t.name)
    ensures r.Some? && r.value.Ok? && lookup.Some? ==> Some(r.value.value) == ParseI32(lookup.value)
  {
    var parsed := match lookup case Some(text) => ParseI32(text) case None => Some(-1);
    match parsed
    case None => None
    case Some(id) => if id == -1 && t.eventType != Custom then Some(Err(NotFound(t.name))) else Some(Ok(id))
  }

  /** A user found with a printed non-negative 32-bit id resolves to that id, whatever the event type. */
  lemma ResolvesPrintedId(t: EventTarget, n: nat)
    requires n < I32_LIMIT
    ensures ResolveTarget(t, Some(NatToString(n))) == Some(Ok(n as int))
  {
    ParseNatToString(n, I32_LIMIT);
    assert IsDigit(NatToString(n)[0]);
  }

  /** A stored event is the one a target names: custom events by name, the others by Twitch id. */
  predicate Names(e: Event, t: EventTarget, targetId: int)
  {
    e.eventType == t.eventType
    && (if e.eventType == Custom then e.customAliasId == Some(t.name) else e.targetAliasId == Some(targetId))
  }

  /** A row carries the alias id its type is looked up by: the name for custom events, the Twitch id otherwise. */
  predicate Keyed(e: Event)
  {
    if e.eventType == Custom then e.customAliasId.Some? else e.targetAliasId.Some?
  }

  /**
   * The lookup as the code runs it: only rows of the target's type are loaded,
   * and each is compared through an `unwrap` of its alias id, so a loaded row
   * without one, met before the match, panics (None).
   */
  function FindEventAsWritten(events: seq<Event>, t: EventTarget, targetId: int): (r: Option<Option<Event>>)
    ensures (forall k :: 0 <= k < |events| && events[k].eventType == t.eventType ==> Keyed(events[k])) ==>
              r == Some(FindEvent(events, t, targetId))
    ensures r.None? ==> exists k :: 0 <= k < |events| && events[k].eventType == t.eventType && !Keyed(events[k])
  {
    if |events| == 0 then Some(None)
    else
      var e := events[0];
      var rest := FindEventAsWritten(events[1..], t, targetId);
      assert forall k :: 0 <= k < |events[1..]| ==> events[1..][k] == events[k + 1];
      if e.eventType != t.eventType then rest
      else if !Keyed(e) then None
      else if Names(e, t, targetId) then Some(Some(e))
      else rest
  }

  /** The first of the channel's events the target names. */
  function FindEvent(events: seq<Event>, t: EventTarget, targetId: int): (r: Option<Event>)
    ensures r.Some? ==> r.value in events && Names(r.value, t, targetId)
    ensures r.None? ==> forall e :: e in events ==> !Names(e, t, targetId)
    ensures r.Some? ==> exists k :: (0 <= k < |events| && events[k] == r.value
              && forall j :: 0 <= j < k ==> !Names(events[j], t, targetId))
  {
    if |events| == 0 then None
    else if Names(events[0], t, targetId) then Some(events[0])
    else
      var r := FindEvent(events[1..], t, targetId);
      assert forall e :: e in events <==> e == events[0] || e in events[1..];
      if r.Some? then
        var k :| 0 <= k < |events[1..]| && events[1..][k] == r.value
                 && forall j :: 0 <= j < k ==> !Names(events[1..][j], t, targetId);
        assert events[k + 1] == r.value;
        r
      else r
  }
}

=== FILE: text.dfy ===
/**
 * Text primitives shared by every module: the parts of Rust's `str` API the bot
 * relies on. A string is a `seq<char>` with one element per UTF-8 byte, so `|s|`
 * is Rust's `String::len`.
 */
module Text {
  import opened Options

  /** `pat` occurs in `s` starting at index `i`. */
  predicate OccursAt(s: string, pat: string, i: nat)
  {
    i + |pat| <= |s| && s[i..i + |pat|] == pat
  }

  /** Rust's `str::contains`. */
  predicate Contains(s: string, pat: string)
  {
    exists i: nat | i <= |s| :: OccursAt(s, pat, i)
  }

  /** Rust's `str::starts_with`. */
  predicate StartsWith(s: string, prefix: string)
  {
    |prefix| <= |s| && s[..|prefix|] == prefix
  }

  /** Leftmost occurrence of a non-empty `pat` in `s` at or after `from` (Rust's `str::find`). */
  function FindFrom(s: string, pat: string, from: nat): (r: Option<nat>)
    requires |pat| > 0 && from <= |s|
    decreases |s| - from
    ensures r.Some? ==> from <= r.value && OccursAt(s, pat, r.value)
    ensures r.Some? ==> forall j: nat :: from <= j < r.value ==> !OccursAt(s, pat, j)
    ensures r.None? ==> forall j: nat :: from <= j ==> !OccursAt(s, pat, j)
  {
    if from + |pat| > |s| then None
    else if s[from..from + |pat|] == pat then Some(from)
    else FindFrom(s, pat, from + 1)
  }

  /** Position of the first `c` in `s` (Rust's `str::find` with a `char`). */
  function CharIndex(s: string, c: char): (r: Option<nat>)
    ensures r.Some? ==> r.value < |s| && s[r.value] == c
    ensures r.Some? ==> forall j :: 0 <= j < r.value ==> s[j] != c
    ensures r.None? ==> forall j :: 0 <= j < |s| ==> s[j] != c
  {
    if |s| == 0 then None
    else if s[0] == c then Some(0)
    else match CharIndex(s[1..], c)
      case None => None
      case Some(i) => Some(i + 1)
  }

  /** Rust's `slice::join` on strings. */
  function Join(parts: seq<string>, sep: string): string
  {
    if |parts| == 0 then ""
    else if |parts| == 1 then parts[0]
    else parts[0] + sep + Join(parts[1..], sep)
  }

  /**
   * Rust's `str::split` with a non-empty string pattern: the pieces between the
   * leftmost non-overlapping occurrences of `sep`. Never empty, and joining the
   * pieces back with `sep` gives the input.
   */
  function Split(s: string, sep: string): (parts: seq<string>)
    requires |sep| > 0
    decreases |s|
    ensures |parts| >= 1
    ensures Join(parts, sep) == s
  {
    match FindFrom(s, sep, 0)
    case None => [s]
    case Some(i) =>
      var rest := Split(s[i + |sep|..], sep);
      assert ([s[..i]] + rest)[1..] == rest;
      assert s == s[..i] + sep + s[i + |sep|..];
      [s[..i]] + rest
  }

  /** A separator that cannot overlap itself: its first character does not reappear in it. */
  predicate FirstCharUnique(sep: string)
  {
    |sep| > 0 && forall j :: 0 < j < |sep| ==> sep[j] != sep[0]
  }

  lemma JoinCons(t: string, rest: seq<string>, sep: string)
    requires |rest| >= 1
    ensures Join([t] + rest, sep) == t + sep + Join(rest, sep)
  {
    assert ([t] + rest)[1..] == rest;
  }

  /** In `t + sep + r` the leftmost occurrence of `sep` is right after `t` when `t` does not contain it. */
  lemma FindAfterToken(t: string, sep: string, r: string)
    requires FirstCharUnique(sep) && !Contains(t, sep)
    ensures FindFrom(t + sep + r, sep, 0) == Some(|t|)
  {
    var s := t + sep + r;
    assert s[|t|..|t| + |sep|] == sep;
    assert OccursAt(s, sep, |t|);
    forall j: nat | j < |t|
      ensures !OccursAt(s, sep, j)
    {
      if j + |sep| <= |t| {
        assert s[j..j + |sep|] == t[j..j + |sep|];
        assert !OccursAt(t, sep, j);
      } else {
        var k := |t| - j;
        assert s[j..j + |sep|][k] == s[|t|] == sep[0];
        assert sep[k] != sep[0];
      }
    }
  }

  /** Splitting a join gives the pieces back, provided no piece contains the separator. */
  lemma {:induction false} SplitJoin(ts: seq<string>, sep: string)
    requires FirstCharUnique(sep) && |ts| >= 1
    requires forall k :: 0 <= k < |ts| ==> !Contains(ts[k], sep)
    ensures Split(Join(ts, sep), sep) == ts
  {
    if |ts| == 1 {
      SplitNoOccurrence(ts[0], sep);
    } else {
      var rest := Join(ts[1..], sep);
      JoinCons(ts[0], ts[1..], sep);
      assert [ts[0]] + ts[1..] == ts;
      var s := ts[0] + sep + rest;
      FindAfterToken(ts[0], sep, rest);
      assert s[|ts[0]| + |sep|..] == rest;
      SplitJoin(ts[1..], sep);
    }
  }

  /** The search finds nothing in a string that does not contain the pattern. */
  lemma {:induction false} FindFromAbsent(s: string, pat: string, from: nat)
    requires |pat| > 0 && from <= |s| && !Contains(s, pat)
    ensures FindFrom(s, pat, from) == None
    decreases |s| - from
  {
    if from + |pat| <= |s| {
      assert !OccursAt(s, pat, from);
      FindFromAbsent(s, pat, from + 1);
    }
  }

  /** A string without any occurrence of `sep` splits into itself alone. */
  lemma SplitNoOccurrence(s: string, sep: string)
    requires |sep| > 0 && !Contains(s, sep)
    ensures Split(s, sep) == [s]
  {
    FindFromAbsent(s, sep, 0);
  }

  /** The part of `s` before its first `c`, or all of `s` when there is none. */
  function Before(s: string, c: char): (r: string)
    ensures CharIndex(s, c).None? ==> r == s
    ensures CharIndex(s, c).Some? ==> r == s[..CharIndex(s, c).value]
  {
    match CharIndex(s, c)
    case None => s
    case Some(i) => s[..i]
  }

  /** The part of `s` after its first `c`, or the empty string when there is none. */
  function After(s: string, c: char): (r: string)
    ensures CharIndex(s, c).None? ==> r == ""
    ensures CharIndex(s, c).Some? ==> r == s[CharIndex(s, c).value + 1..]
  {
    match CharIndex(s, c)
    case None => ""
    case Some(i) => s[i + 1..]
  }

  lemma AppendAssoc(a: string, b: string, c: string)
    ensures a + (b + c) == (a + b) + c
  {
  }

  /** A string is the text before its first `c`, then `c`, then the text after it. */
  lemma BeforeAfter(s: string, c: char)
    ensures CharIndex(s, c).None? ==> Before(s, c) == s
    ensures CharIndex(s, c).Some? ==> Before(s, c) + [c] + After(s, c) == s
  {
    if CharIndex(s, c).Some? {
      var i := CharIndex(s, c).value;
      assert s == s[..i] + [c] + s[i + 1..];
    }
  }

  lemma OccursChar(s: string, c: char, j: nat)
    ensures OccursAt(s, [c], j) <==> j < |s| && s[j] == c
  {
    if j < |s| && s[j] == c {
      assert s[j..j + 1] == [c];
    }
    if OccursAt(s, [c], j) {
      assert s[j..j + 1][0] == s[j];
    }
  }

  /** The pieces after the first, when `s` is split at `c`: none without a `c`, else the pieces of what follows it. */
  function PiecesAfter(s: string, c: char): (ps: seq<string>)
    ensures CharIndex(s, c).None? ==> ps == []
    ensures CharIndex(s, c).Some? ==> |ps| >= 1 && Join(ps, [c]) == After(s, c)
  {
    match CharIndex(s, c)
    case None => []
    case Some(i) => Split(s[i + 1..], [c])
  }

  /** Searching for a one-character pattern finds the first occurrence of that character. */
  lemma FindChar(s: string, c: char)
    ensures FindFrom(s, [c], 0) == CharIndex(s, c)
  {
    var r1 := FindFrom(s, [c], 0);
    var r2 := CharIndex(s, c);
    if r1.Some? {
      OccursChar(s, c, r1.value);
      if r2.Some? {
        OccursChar(s, c, r2.value);
      }
    } else if r2.Some? {
      OccursChar(s, c, r2.value);
    }
  }

  /**
   * Splitting at a single character: the first piece is the text before the first
   * occurrence, the remaining pieces rejoined are the text after it, the second
   * piece (when there is one) is the text up to the next occurrence, and there is
   * more than one piece exactly when the character occurs.
   */
  lemma SplitAtChar(s: string, c: char)
    ensures Split(s, [c])[0] == Before(s, c)
    ensures Join(Split(s, [c])[1..], [c]) == After(s, c)
    ensures |Split(s, [c])| >= 2 <==> CharIndex(s, c).Some?
    ensures |Split(s, [c])| >= 2 ==> Split(s, [c])[1] == Before(After(s, c), c)
    ensures Split(s, [c])[1..] == PiecesAfter(s, c)
  {
    FindChar(s, c);
    match CharIndex(s, c)
    case None =>
    case Some(i) =>
      var rest := Split(s[i + 1..], [c]);
      assert Split(s, [c]) == [s[..i]] + rest;
      assert Split(s, [c])[1..] == rest;
      SplitAtCharHead(s[i + 1..], c);
  }

  lemma SplitAtCharHead(s: string, c: char)
    ensures Split(s, [c])[0] == Before(s, c)
  {
    FindChar(s, c);
  }

  /**
   * Rust's `str::replace`: every leftmost non-overlapping occurrence of `pat`,
   * scanning left to right, is replaced by `rep`.
   */
  function ReplaceAll(s: string, pat: string, rep: string): string
    requires |pat| > 0
    decreases |s|
  {
    if |s| < |pat| then s
    else if s[..|pat|] == pat then rep + ReplaceAll(s[|pat|..], pat, rep)
    else [s[0]] + ReplaceAll(s[1..], pat, rep)
  }

  /** Replacing a pattern by itself changes nothing. */
  lemma {:induction false} ReplaceAllSelf(s: string, pat: string)
    requires |pat| > 0
    ensures ReplaceAll(s, pat, pat) == s
    decreases |s|
  {
    if |s| < |pat| {
    } else if s[..|pat|] == pat {
      ReplaceAllSelf(s[|pat|..], pat);
      assert s == pat + s[|pat|..];
    } else {
      ReplaceAllSelf(s[1..], pat);
      assert s == [s[0]] + s[1..];
    }
  }

  /** A string with no occurrence of the pattern is left as it is. */
  lemma {:induction false} ReplaceAllAbsent(s: string, pat: string, rep: string)
    requires |pat| > 0 && !Contains(s, pat)
    ensures ReplaceAll(s, pat, rep) == s
    decreases |s|
  {
    if |s| < |pat| {
    } else {
      assert !OccursAt(s, pat, 0);
      forall i: nat | i <= |s[1..]|
        ensures !OccursAt(s[1..], pat, i)
      {
        if i + |pat| <= |s[1..]| {
          assert s[1..][i..i + |pat|] == s[i + 1..i + 1 + |pat|];
          assert !OccursAt(s, pat, i + 1);
        }
      }
      ReplaceAllAbsent(s[1..], pat, rep);
      assert s == [s[0]] + s[1..];
    }
  }

  // ---------------------------------------------------------------------
  // Integers as text
  // ---------------------------------------------------------------------

  const U8_LIMIT: nat := 0x100
  const U32_LIMIT: nat := 0x1_0000_0000
  const U64_LIMIT: nat := 0x1_0000_0000_0000_0000
  const I32_LIMIT: nat := 0x8000_0000

  predicate IsDigit(c: char)
  {
    '0' <= c <= '9'
  }

  predicate AllDigits(s: string)
  {
    forall i :: 0 <= i < |s| ==> IsDigit(s[i])
  }

  function DigitValue(c: char): nat
    requires IsDigit(c)
  {
    (c as int) - ('0' as int)
  }

  /** The number written by a string of decimal digits, most significant first. */
  function DigitsValue(s: string): nat
    requires AllDigits(s)
  {
    if |s| == 0 then 0 else DigitsValue(s[..|s| - 1]) * 10 + DigitValue(s[|s| - 1])
  }

  /** The optional sign Rust's integer parser accepts, removed. */
  function Unsigned(s: string): string
  {
    if |s| > 0 && s[0] == '+' then s[1..] else s
  }

  /**
   * Rust's `str::parse` for an unsigned type whose values are below `limit`
   * (`u8`, `u32`, `u64`, `usize` on a 64-bit target): an optional `+`, then one
   * or more ASCII digits, and no overflow.
   */
  function ParseUnsigned(s: string, limit: nat): (r: Option<nat>)
    ensures r.Some? ==> r.value < limit
    ensures r.Some? ==> |s| > 0 && (IsDigit(s[0]) || s[0] == '+')
  {
    var digits := Unsigned(s);
    if |digits| == 0 || !AllDigits(digits) then None
    else if DigitsValue(digits) < limit then Some(DigitsValue(digits))
    else None
  }

  /** Rust's `str::parse::<i32>`: an optional `+` or `-`, then one or more ASCII digits, in range. */
  function ParseI32(s: string): (r: Option<int>)
    ensures r.Some? ==> -(I32_LIMIT as int) <= r.value < I32_LIMIT as int
  {
    if |s| > 0 && s[0] == '-' then
      var digits := s[1..];
      if |digits| == 0 || !AllDigits(digits) then None
      else if DigitsValue(digits) <= I32_LIMIT then Some(0 - DigitsValue(digits) as int)
      else None
    else
      match ParseUnsigned(s, I32_LIMIT)
      case Some(v) => Some(v as int)
      case None => None
  }

  function DigitChar(d: nat): (c: char)
    requires d < 10
    ensures IsDigit(c) && DigitValue(c) == d
  {
    ('0' as int + d) as char
  }

  /** Rust's `Display` for an unsigned integer: decimal, no sign, no leading zeros. */
  function NatToString(n: nat): (s: string)
    ensures |s| > 0 && AllDigits(s)
    ensures |s| > 1 ==> s[0] != '0'
  {
    if n < 10 then [DigitChar(n)] else NatToString(n / 10) + [DigitChar(n % 10)]
  }

  /** Rust's `Display` for a signed integer. */
  function IntToString(i: int): string
  {
    if i < 0 then "-" + NatToString(-i) else NatToString(i)
  }

  lemma {:induction false} NatToStringValue(n: nat)
    ensures DigitsValue(NatToString(n)) == n
  {
    if n >= 10 {
      var s := NatToString(n);
      NatToStringValue(n / 10);
      assert s[..|s| - 1] == NatToString(n / 10);
    }
  }

  /** Reading back what `NatToString` printed gives the number, for every value of the type. */
  lemma ParseNatToString(n: nat, limit: nat)
    requires n < limit
    ensures ParseUnsigned(NatToString(n), limit) == Some(n)
  {
    NatToStringValue(n);
  }

  /** Two numbers print the same only if they are equal. */
  lemma NatToStringInjective(a: nat, b: nat)
    requires NatToString(a) == NatToString(b)
    ensures a == b
  {
    NatToStringValue(a);
    NatToStringValue(b);
  }

  // ---------------------------------------------------------------------
  // Whitespace-separated words
  // ---------------------------------------------------------------------

  /** `char::is_ascii_whitespace`: space, tab, line feed, form feed, carriage return. */
  predicate IsAsciiWhitespace(c: char)
  {
    c == ' ' || c == '\t' || c == '\n' || c == '\U{0C}' || c == '\r'
  }

  /** Length of the leading run of non-whitespace characters. */
  function RunLength(s: string): (n: nat)
    ensures n <= |s|
    ensures forall j :: 0 <= j < n ==> !IsAsciiWhitespace(s[j])
    ensures n < |s| ==> IsAsciiWhitespace(s[n])
  {
    if |s| == 0 || IsAsciiWhitespace(s[0]) then 0 else 1 + RunLength(s[1..])
  }

  /** Rust's `str::split_ascii_whitespace`: the maximal non-empty runs of non-whitespace characters. */
  function Words(s: string): (ws: seq<string>)
    decreases |s|
    ensures forall k :: 0 <= k < |ws| ==> |ws[k]| > 0
    ensures forall k, j :: 0 <= k < |ws| && 0 <= j < |ws[k]| ==> !IsAsciiWhitespace(ws[k][j])
  {
    if |s| == 0 then []
    else if IsAsciiWhitespace(s[0]) then Words(s[1..])
    else
      var n := RunLength(s);
      [s[..n]] + Words(s[n..])
  }

  /** A word: non-empty, with no ASCII whitespace in it. */
  predicate IsWord(w: string)
  {
    |w| > 0 && forall j :: 0 <= j < |w| ==> !IsAsciiWhitespace(w[j])
  }

  /** A single word splits into itself. */
  lemma WordsOfWord(w: string)
    requires IsWord(w)
    ensures Words(w) == [w]
  {
    assert RunLength(w) == |w| by {
      WholeRun(w);
    }
    assert w[|w|..] == [];
    assert w[..|w|] == w;
  }

  lemma {:induction false} WholeRun(w: string)
    requires forall j :: 0 <= j < |w| ==> !IsAsciiWhitespace(w[j])
    ensures RunLength(w) == |w|
    decreases |w|
  {
    if |w| > 0 {
      WholeRun(w[1..]);
    }
  }

  /** Two words separated by a space split back into the two words. */
  lemma WordsOfPair(a: string, b: string)
    requires IsWord(a) && IsWord(b)
    ensures Words(a + " " + b) == [a, b]
  {
    var s := a + " " + b;
    assert RunLength(s) == |a| by {
      RunStopsAt(a, " " + b);
    }
    assert s[..|a|] == a;
    assert s[|a|..] == " " + b;
    assert (" " + b)[1..] == b;
    WordsOfWord(b);
  }

  lemma {:induction false} RunStopsAt(a: string, rest: string)
    requires forall j :: 0 <= j < |a| ==> !IsAsciiWhitespace(a[j])
    requires |rest| > 0 && IsAsciiWhitespace(rest[0])
    ensures RunLength(a + rest) == |a|
    decreases |a|
  {
    if |a| > 0 {
      assert (a + rest)[1..] == a[1..] + rest;
      RunStopsAt(a[1..], rest);
    }
  }

  /** The decimal form of a number is a word. */
  lemma NatToStringIsWord(n: nat)
    ensures IsWord(NatToString(n))
  {
  }

  /** No piece of a split contains the separator. */
  lemma {:induction false} SplitPiecesFree(s: string, sep: string)
    requires |sep| > 0
    ensures forall k :: 0 <= k < |Split(s, sep)| ==> !Contains(Split(s, sep)[k], sep)
    decreases |s|
  {
    match FindFrom(s, sep, 0)
    case None =>
      assert Split(s, sep) == [s];
      forall j: nat | j <= |s|
        ensures !OccursAt(s, sep, j)
      {
      }
    case Some(i) =>
      var head := s[..i];
      var rest := Split(s[i + |sep|..], sep);
      SplitPiecesFree(s[i + |sep|..], sep);
      assert Split(s, sep) == [head] + rest;
      forall j: nat | j <= |head|
        ensures !OccursAt(head, sep, j)
      {
        if OccursAt(head, sep, j) {
          assert s[j..j + |sep|] == head[j..j + |sep|];
          assert OccursAt(s, sep, j);
        }
      }
      forall k | 0 <= k < |Split(s, sep)|
        ensures !Contains(Split(s, sep)[k], sep)
      {
        if k > 0 {
          assert Split(s, sep)[k] == rest[k - 1];
        }
      }
  }
}

=== FILE: timer_command.dfy ===
/**
 * `!timer` (`bot/src/modules/timer.rs`): moderators create, delete, edit,
 * toggle, inspect and call the channel's timers. The channel's timers are the
 * input; the database writes are returned as effects.
 */
module TimerCommand {
  import opened Options
  import opened Text
  import opened Models
  import opened Commands
  import Localization

  /** U+2705 WHITE HEAVY CHECK MARK and U+274C CROSS MARK, as UTF-8 bytes. */
  const CHECK_MARK: string := "\U{E2}\U{9C}\U{85}"
  const CROSS_MARK: string := "\U{E2}\U{9D}\U{8C}"

  const I64_HALF: nat := 0x8000_0000_0000_0000

  /** A change to the timer table. */
  datatype Effect =
      DeleteTimer(id: int)
    | SetEnabled(id: int, enabled: bool)
    | SetInterval(id: int, intervalSec: int)
    | SetMessages(id: int, messages: seq<string>)
    | InsertTimer(name: string, channelId: int, messages: seq<string>, intervalSec: int)

  /** The reply and the writes, or a panic (`unwrap` on a timer without messages). */
  datatype Outcome = Outcome(result: Result<Response, ResponseError>, effects: seq<Effect>) | Panicked

  function Fail(e: ResponseError): Outcome
  {
    Outcome(Err(e), [])
  }

  /** `u64 as i64`: values from 2^63 up wrap to negatives. */
  function AsI64(v: nat): (r: int)
    requires v < U64_LIMIT
    ensures -(I64_HALF as int) <= r < I64_HALF as int
    ensures (r - v) % U64_LIMIT == 0
  {
    if v < I64_HALF then v else v - U64_LIMIT
  }

  /** An interval argument: a `u64`, reinterpreted as `i64`. */
  function ParseInterval(arg: string): (r: Result<int, ResponseError>)
    ensures r.Err? <==> ParseUnsigned(arg, U64_LIMIT).None?
    ensures r.Err? ==> r.error == IncorrectArgument(arg)
    ensures r.Ok? && ParseUnsigned(arg, U64_LIMIT).value < I64_HALF ==> r.value == ParseUnsigned(arg, U64_LIMIT).value
  {
    match ParseUnsigned(arg, U64_LIMIT)
    case None => Err(IncorrectArgument(arg))
    case Some(v) => Ok(AsI64(v))
  }

  /** The first of the channel's timers with this name. */
  function FindByName(timers: seq<Timer>, name: string): (r: Option<Timer>)
    ensures r.Some? ==> r.value in timers && r.value.name == name
    ensures r.None? <==> forall t :: t in timers ==> t.name != name
  {
    if |timers| == 0 then None
    else if timers[0].name == name then Some(timers[0])
    else
      assert forall t :: t in timers <==> t == timers[0] || t in timers[1..];
      FindByName(timers[1..], name)
  }

  function Reply(id: Localization.LineId, parameters: seq<string>): Outcome
  {
    Outcome(Ok(Single(Formatted(id, parameters))), [])
  }

  function IdParameters(t: Timer): seq<string>
  {
    [t.name, IntToString(t.id)]
  }

  /**
   * The `(timer found, argument count, subcommand)` table. `args` are the
   * space-separated pieces after the name, so empty pieces count.
   */
  function Dispatch(found: Option<Timer>, args: seq<string>, sub: string, name: string, channelId: int): (r: Outcome)
    ensures found.Some? && |args| == 0 && sub == "toggle" ==>
              r == Outcome(Ok(Single(Formatted(if found.value.isEnabled then Localization.CommandTimerDisabled
                                                else Localization.CommandTimerEnabled, IdParameters(found.value)))),
                           [SetEnabled(found.value.id, !found.value.isEnabled)])
    ensures found.Some? && |args| == 0 && sub == "delete" ==>
              r == Outcome(Ok(Single(Formatted(Localization.CommandTimerDeleted, IdParameters(found.value)))),
                           [DeleteTimer(found.value.id)])
    ensures found.Some? && |args| == 0 && sub == "info" ==>
              var t := found.value;
              r == if |t.messages| == 0 then Panicked
                   else Reply(Localization.CommandTimerInfo,
                              [if t.isEnabled then CHECK_MARK else CROSS_MARK, t.name, IntToString(t.id),
                               IntToString(t.intervalSec), t.messages[0]])
    ensures found.Some? && |args| == 0 && sub == "call" ==>
              r == if |found.value.messages| == 0 then Panicked else Outcome(Ok(Single(Raw(found.value.messages[0]))), [])
    ensures found.Some? && |args| == 1 && sub == "interval" ==>
              (ParseInterval(args[0]).Err? ==> r == Fail(IncorrectArgument(args[0])))
              && (ParseInterval(args[0]).Ok? ==>
                    r == Outcome(Ok(Single(Formatted(Localization.CommandTimerInterval, IdParameters(found.value)))),
                                 [SetInterval(found.value.id, ParseInterval(args[0]).value)]))
    ensures found.Some? && |args| >= 1 && sub == "message" ==>
              r == Outcome(Ok(Single(Formatted(Localization.CommandTimerMessage, IdParameters(found.value)))),
                           [SetMessages(found.value.id, [Join(args, " ")])])
    ensures found.Some? && |args| >= 2 && sub == "interval" ==> r == Fail(SomethingWentWrong)
    ensures found.Some? && sub !in {"delete", "toggle", "info", "call", "interval", "message", "new"} ==>
              r == Fail(SomethingWentWrong)
    ensures found.None? && |args| >= 2 && sub == "new" ==>
              (ParseInterval(args[0]).Err? ==> r == Fail(IncorrectArgument(args[0])))
              && (ParseInterval(args[0]).Ok? ==>
                    r == Outcome(Ok(Single(Formatted(Localization.CommandTimerNew, [name]))),
                                 [InsertTimer(name, channelId, [Join(args[1..], " ")], ParseInterval(args[0]).value)]))
    ensures found.Some? && sub == "new" ==> r == Fail(NamesakeCreation(name))
    ensures found.None? && sub != "new" ==> r == Fail(NotFound(name))
    ensures |args| == 0 && ((found.Some? && sub == "interval") || (found.None? && sub == "new")) ==>
              r == Fail(NotEnoughArguments(Interval))
    ensures found.None? && |args| == 1 && sub == "new" ==> r == Fail(NotEnoughArguments(Message))
    ensures found.Some? && |args| == 0 && sub == "message" ==> r == Fail(NotEnoughArguments(Message))
    ensures found.Some? && |args| > 0 && sub in {"delete", "toggle", "info", "call"} ==> r == Fail(SomethingWentWrong)
    ensures r.Outcome? && r.result.Err? ==> r.effects == []
  {
    match found
    case Some(t) =>
      if |args| == 0 && sub == "delete" then
        Outcome(Ok(Single(Formatted(Localization.CommandTimerDeleted, IdParameters(t)))), [DeleteTimer(t.id)])
      else if |args| == 0 && sub == "toggle" then
        Outcome(Ok(Single(Formatted(if !t.isEnabled then Localization.CommandTimerEnabled else Localization.CommandTimerDisabled,
                                    IdParameters(t)))),
                [SetEnabled(t.id, !t.isEnabled)])
      else if |args| == 0 && sub == "info" then
        if |t.messages| == 0 then Panicked
        else Reply(Localization.CommandTimerInfo,
                   [if t.isEnabled then CHECK_MARK else CROSS_MARK, t.name, IntToString(t.id),
                    IntToString(t.intervalSec), t.messages[0]])
      else if |args| == 0 && sub == "call" then
        if |t.messages| == 0 then Panicked else Outcome(Ok(Single(Raw(t.messages[0]))), [])
      else if |args| == 1 && sub == "interval" then
        match ParseInterval(args[0])
        case Err(e) => Fail(e)
        case Ok(interval) =>
          Outcome(Ok(Single(Formatted(Localization.CommandTimerInterval, IdParameters(t)))), [SetInterval(t.id, interval)])
      else if sub == "message" && |args| > 0 then
        Outcome(Ok(Single(Formatted(Localization.CommandTimerMessage, IdParameters(t)))), [SetMessages(t.id, [Join(args, " ")])])
      else if sub == "new" then Fail(NamesakeCreation(name))
      else if |args| == 0 && sub == "message" then Fail(NotEnoughArguments(Message))
      else if |args| == 0 && sub == "interval" then Fail(NotEnoughArguments(Interval))
      else Fail(SomethingWentWrong)
    case None =>
      if sub == "new" && |args| > 1 then
        match ParseInterval(args[0])
        case Err(e) => Fail(e)
        case Ok(interval) =>
          Outcome(Ok(Single(Formatted(Localization.CommandTimerNew, [name]))),
                  [InsertTimer(name, channelId, [Join(args[1..], " ")], interval)])
      else if sub != "new" then Fail(NotFound(name))
      else if |args| == 0 then Fail(NotEnoughArguments(Interval))
      else Fail(NotEnoughArguments(Message))
  }

  /** `TimerCommand::execute`: the first word of the message names the timer, the other pieces are arguments. */
  function Execute(request: Request, timers: seq<Timer>): (r: Outcome)
    ensures request.subcommandId.None? ==> r == Fail(NotEnoughArguments(Subcommand))
    ensures request.subcommandId.Some? && request.message.None? ==> r == Fail(NotEnoughArguments(Name))
    ensures request.subcommandId.Some? && request.message.Some? ==>
              var m := request.message.value;
              r == Dispatch(FindByName(timers, Before(m, ' ')), PiecesAfter(m, ' '), request.subcommandId.value,
                            Before(m, ' '), request.channel.id)
  {
    match (request.subcommandId, request.message)
    case (None, _) => Fail(NotEnoughArguments(Subcommand))
    case (_, None) => Fail(NotEnoughArguments(Name))
    case (Some(sub), Some(message)) =>
      var pieces := Split(message, " ");
      var name := pieces[0];
      SplitAtChar(message, ' ');
      Dispatch(FindByName(timers, name), pieces[1..], sub, name, request.channel.id)
  }

  // ---------------------------------------------------------------------
  // The table after the writes
  // ---------------------------------------------------------------------

  /** The timer table after one write; a new row takes `newId`. */
  function ApplyOne(timers: seq<Timer>, e: Effect, newId: int): seq<Timer>
  {
    match e
    case InsertTimer(name, channelId, messages, interval) =>
      timers + [Timer(newId, name, channelId, messages, interval, 0, true)]
    case DeleteTimer(id) => DeleteRow(timers, id)
    case SetEnabled(id, enabled) => UpdateRow(timers, id, e)
    case SetInterval(id, interval) => UpdateRow(timers, id, e)
    case SetMessages(id, messages) => UpdateRow(timers, id, e)
  }

  /** A timer with one field overwritten by an update; other writes leave it as is. */
  function Updated(t: Timer, e: Effect): (u: Timer)
    ensures u.id == t.id && u.name == t.name && u.channelId == t.channelId
  {
    match e
    case SetEnabled(_, enabled) => t.(isEnabled := enabled)
    case SetInterval(_, interval) => t.(intervalSec := interval)
    case SetMessages(_, messages) => t.(messages := messages)
    case _ => t
  }

  function DeleteRow(timers: seq<Timer>, id: int): (r: seq<Timer>)
    ensures forall t :: t in r <==> t in timers && t.id != id
  {
    if |timers| == 0 then []
    else
      var rest := DeleteRow(timers[1..], id);
      assert forall t :: t in timers <==> t == timers[0] || t in timers[1..];
      if timers[0].id == id then rest else [timers[0]] + rest
  }

  function UpdateRow(timers: seq<Timer>, id: int, e: Effect): (r: seq<Timer>)
    ensures |r| == |timers|
    ensures forall k :: 0 <= k < |timers| ==> r[k] == if timers[k].id == id then Updated(timers[k], e) else timers[k]
  {
    if |timers| == 0 then [] else [if timers[0].id == id then Updated(timers[0], e) else timers[0]] + UpdateRow(timers[1..], id, e)
  }

  /** Once `new` has created a timer, `new` with the same name is a namesake error. */
  lemma NewThenNamesake(timers: seq<Timer>, args: seq<string>, name: string, channelId: int, newId: int, args2: seq<string>)
    requires FindByName(timers, name).None? && |args| >= 2 && ParseInterval(args[0]).Ok?
    ensures var first := Dispatch(None, args, "new", name, channelId);
            var after := ApplyOne(timers, first.effects[0], newId);
            Dispatch(FindByName(after, name), args2, "new", name, channelId) == Fail(NamesakeCreation(name))
  {
    var first := Dispatch(None, args, "new", name, channelId);
    var after := ApplyOne(timers, first.effects[0], newId);
    assert after[|timers|] in after;
  }

  /** Once a timer is deleted (names unique in the channel), any other subcommand on its name is not found. */
  lemma DeleteThenNotFound(timers: seq<Timer>, name: string, channelId: int, sub: string, args: seq<string>)
    requires FindByName(timers, name).Some?
    requires forall t :: t in timers && t.name == name ==> t.id == FindByName(timers, name).value.id
    requires sub != "new"
    ensures var first := Dispatch(FindByName(timers, name), [], "delete", name, channelId);
            first.Outcome? && first.effects == [DeleteTimer(FindByName(timers, name).value.id)]
    ensures var after := DeleteRow(timers, FindByName(timers, name).value.id);
            Dispatch(FindByName(after, name), args, sub, name, channelId) == Fail(NotFound(name))
  {
  }

  /** Toggling twice restores the timer's enabled state, and the two replies are opposite. */
  lemma ToggleTwice(timers: seq<Timer>, name: string, channelId: int)
    requires FindByName(timers, name).Some?
    requires forall t :: t in timers && t.name == name ==> t.id == FindByName(timers, name).value.id
    ensures var t := FindByName(timers, name).value;
            var after := ApplyOne(timers, SetEnabled(t.id, !t.isEnabled), 0);
            FindByName(after, name).Some?
            && FindByName(after, name).value == t.(isEnabled := !t.isEnabled)
            && Dispatch(FindByName(after, name), [], "toggle", name, channelId).effects == [SetEnabled(t.id, t.isEnabled)]
  {
    var t := FindByName(timers, name).value;
    var after := ApplyOne(timers, SetEnabled(t.id, !t.isEnabled), 0);
    FindUpdated(timers, name, t, SetEnabled(t.id, !t.isEnabled));
  }

  /** Updating the one row of a name leaves it findable by that name, updated. */
  lemma {:induction false} FindUpdated(timers: seq<Timer>, name: string, t: Timer, e: Effect)
    requires FindByName(timers, name) == Some(t)
    requires forall x :: x in timers && x.name == name ==> x.id == t.id
    ensures FindByName(UpdateRow(timers, t.id, e), name) == Some(Updated(t, e))
  {
    var r := UpdateRow(timers, t.id, e);
    if timers[0].name == name {
      assert r[0] == Updated(timers[0], e);
    } else {
      assert timers[0] in timers;
      assert r[0].name != name;
      assert r[1..] == UpdateRow(timers[1..], t.id, e);
      FindUpdated(timers[1..], name, t, e);
    }
  }
}

=== FILE: userid_command.dfy ===
/**
 * `!userid` (`bot/src/modules/userid.rs`): Twitch users looked up by id or by
 * login through the IVR API. The comma-separated targets are split into ids
 * (anything that parses as `u32`) and logins; the API answer is an input.
 */
module UserIdCommand {
  import opened Options
  import opened Text
  import opened Models
  import opened Commands
  import Localization

  const IVR_API_V2_URL: string := "https://api.ivr.fi/v2"
  /** U+26D4 and U+2705, as UTF-8 bytes. */
  const BAN_EMOJI: string := "\U{E2}\U{9B}\U{94}"
  const OK_EMOJI: string := "\U{E2}\U{9C}\U{85}"

  /** The fields of an IVR user the reply uses. */
  datatype IvrUser = IvrUser(id: string, login: string, banned: bool, banReason: Option<string>)

  /** What the API call gave: a transport failure, or a body that decodes (Some) or not (None). */
  datatype Answer = TransportFailed | Body(users: Option<seq<IvrUser>>)

  datatype Outcome = Outcome(result: Result<Response, ResponseError>, url: Option<string>)

  predicate IsId(token: string)
  {
    ParseUnsigned(token, U32_LIMIT).Some?
  }

  /** The tokens that parse as `u32`, in order. */
  function Ids(tokens: seq<string>): (ids: seq<string>)
    ensures forall k :: 0 <= k < |ids| ==> IsId(ids[k])
  {
    if |tokens| == 0 then []
    else if IsId(tokens[0]) then [tokens[0]] + Ids(tokens[1..])
    else Ids(tokens[1..])
  }

  /** The tokens that do not, in order. */
  function Names(tokens: seq<string>): (names: seq<string>)
    ensures forall k :: 0 <= k < |names| ==> !IsId(names[k])
  {
    if |tokens| == 0 then []
    else if IsId(tokens[0]) then Names(tokens[1..])
    else [tokens[0]] + Names(tokens[1..])
  }

  /** Every token lands in exactly one of the two lists, as often as it occurs. */
  lemma {:induction false} PartitionExact(tokens: seq<string>)
    ensures multiset(Ids(tokens)) + multiset(Names(tokens)) == multiset(tokens)
    ensures |Ids(tokens)| + |Names(tokens)| == |tokens|
  {
    if |tokens| > 0 {
      PartitionExact(tokens[1..]);
      assert tokens == [tokens[0]] + tokens[1..];
    }
  }

  /** Merging the two lists back by the token's kind gives the tokens in their order. */
  function Merge(tokens: seq<string>, ids: seq<string>, names: seq<string>): seq<string>
    decreases |tokens|
  {
    if |tokens| == 0 then []
    else if IsId(tokens[0]) then
      if |ids| == 0 then [] else [ids[0]] + Merge(tokens[1..], ids[1..], names)
    else
      if |names| == 0 then [] else [names[0]] + Merge(tokens[1..], ids, names[1..])
  }

  /** Each list keeps its tokens in input order: the input is their merge. */
  lemma {:induction false} PartitionOrdered(tokens: seq<string>)
    ensures Merge(tokens, Ids(tokens), Names(tokens)) == tokens
  {
    if |tokens| > 0 {
      var rest := tokens[1..];
      PartitionOrdered(rest);
      if IsId(tokens[0]) {
        assert Ids(tokens) == [tokens[0]] + Ids(rest);
        assert Names(tokens) == Names(rest);
        assert Merge(tokens, Ids(tokens), Names(tokens)) == [tokens[0]] + Merge(rest, Ids(rest), Names(rest));
      } else {
        assert Ids(tokens) == Ids(rest);
        assert Names(tokens) == [tokens[0]] + Names(rest);
        assert Merge(tokens, Ids(tokens), Names(tokens)) == [tokens[0]] + Merge(rest, Ids(rest), Names(rest));
      }
      assert tokens == [tokens[0]] + rest;
    }
  }

  /** The query string: `id=…` when there are ids, else `login=…` when there are logins, and `&login=…` only with both. */
  function Query(ids: seq<string>, names: seq<string>): (q: string)
    ensures ids == [] && names == [] ==> q == ""
    ensures ids == [] && names != [] ==> q == "login=" + Join(names, ",")
    ensures ids != [] && names == [] ==> q == "id=" + Join(ids, ",")
    ensures ids != [] && names != [] ==> q == "id=" + Join(ids, ",") + "&login=" + Join(names, ",")
  {
    var first := if ids != [] then "id=" + Join(ids, ",") else if names != [] then "login=" + Join(names, ",") else "";
    var second := if names != [] && ids != [] then "&login=" + Join(names, ",") else "";
    first + second
  }

  /** Filtering keeps only tokens of the input. */
  lemma {:induction false} FilteredFromTokens(tokens: seq<string>)
    ensures forall k :: 0 <= k < |Ids(tokens)| ==> Ids(tokens)[k] in tokens
    ensures forall k :: 0 <= k < |Names(tokens)| ==> Names(tokens)[k] in tokens
  {
    if |tokens| > 0 {
      FilteredFromTokens(tokens[1..]);
      assert forall t :: t in tokens[1..] ==> t in tokens;
    }
  }

  /**
   * The service gets back exactly the id list and the login list: splitting the
   * joined `id=` or `login=` value on `,` gives the lists in order.
   */
  lemma QueryListsRecoverable(message: string)
    ensures var tokens := Split(message, ",");
            (Ids(tokens) != [] ==> Split(Join(Ids(tokens), ","), ",") == Ids(tokens))
            && (Names(tokens) != [] ==> Split(Join(Names(tokens), ","), ",") == Names(tokens))
  {
    var tokens := Split(message, ",");
    SplitPiecesFree(message, ",");
    FilteredFromTokens(tokens);
    assert FirstCharUnique(",");
    forall t | t in tokens
      ensures !Contains(t, ",")
    {
    }
    if Ids(tokens) != [] {
      SplitJoin(Ids(tokens), ",");
    }
    if Names(tokens) != [] {
      SplitJoin(Names(tokens), ",");
    }
  }

  /** One line per user: ⛔ iff banned, the login, the id and `: reason` when a reason is given. */
  function UserLine(u: IvrUser): (t: Commands.Text)
    ensures t.ByRequest? && t.id == Localization.UserIdFound && |t.parameters| == 4
    ensures t.parameters[0] == BAN_EMOJI <==> u.banned
    ensures t.parameters[1] == u.login && t.parameters[2] == u.id
    ensures u.banReason.None? <==> t.parameters[3] == ""
  {
    ByRequest(Localization.UserIdFound,
      [if u.banned then BAN_EMOJI else OK_EMOJI, u.login, u.id,
       match u.banReason case Some(r) => ": " + r case None => ""])
  }

  function UserLines(users: seq<IvrUser>): (ts: seq<Commands.Text>)
    ensures |ts| == |users|
    ensures forall k :: 0 <= k < |users| ==> ts[k] == UserLine(users[k])
  {
    if |users| == 0 then [] else [UserLine(users[0])] + UserLines(users[1..])
  }

  function Execute(request: Request, answer: Answer): (r: Outcome)
    ensures request.message.None? ==> r == Outcome(Err(NotEnoughArguments(Target)), None)
    ensures request.message.Some? ==>
              var tokens := Split(request.message.value, ",");
              r.url == Some(IVR_API_V2_URL + "/twitch/user?" + Query(Ids(tokens), Names(tokens)))
    ensures request.message.Some? && answer.TransportFailed? ==> r.result == Err(SomethingWentWrong)
    ensures request.message.Some? && answer.Body? && (answer.users.None? || answer.users == Some([])) ==>
              r.result == Err(NotFound(request.message.value))
    ensures request.message.Some? && answer.Body? && answer.users.Some? && answer.users.value != [] ==>
              r.result == Ok(Multiple(UserLines(answer.users.value)))
  {
    match request.message
    case None => Outcome(Err(NotEnoughArguments(Target)), None)
    case Some(message) =>
      var tokens := Split(message, ",");
      var url := IVR_API_V2_URL + "/twitch/user?" + Query(Ids(tokens), Names(tokens));
      match answer
      case TransportFailed => Outcome(Err(SomethingWentWrong), Some(url))
      case Body(None) => Outcome(Err(NotFound(message)), Some(url))
      case Body(Some(users)) =>
        if |users| == 0 then Outcome(Err(NotFound(message)), Some(url))
        else Outcome(Ok(Multiple(UserLines(users))), Some(url))
  }
}

=== FILE: utils.dfy ===
/**
 * The two helpers of `src/utils/mod.rs`: the greedy line wrapper used by every
 * mention fan-out, and the compact duration formatter.
 */
module Utils {
  import opened Text

  // ---------------------------------------------------------------------
  // split_and_wrap_lines
  // ---------------------------------------------------------------------

  /** All groups laid end to end. */
  function Flatten(groups: seq<seq<string>>): seq<string>
  {
    if |groups| == 0 then [] else groups[0] + Flatten(groups[1..])
  }

  /** The wrapper's flush test: adding `t` to the buffered tokens would reach `max`. */
  predicate Flushes(buffer: seq<string>, t: string, sep: string, max: nat)
  {
    |Join(buffer, sep)| + |t| + |sep| >= max
  }

  /** Group `i` was started because its first token failed the flush test against group `i - 1`. */
  predicate FlushedBefore(groups: seq<seq<string>>, i: nat, sep: string, max: nat)
    requires 1 <= i < |groups|
  {
    |groups[i]| >= 1 && Flushes(groups[i - 1], groups[i][0], sep, max)
  }

  /** Token `j` of group `i` was appended to the buffer without a flush. */
  predicate StayedAt(groups: seq<seq<string>>, i: nat, j: nat, sep: string, max: nat)
    requires i < |groups| && j < |groups[i]|
  {
    !Flushes(groups[i][..j], groups[i][j], sep, max)
  }

  /**
   * The shape the greedy wrapper produces: a new group starts exactly where the
   * flush test fires, and every other token (including the very first one when it
   * does not fire against the empty buffer) joins the current group.
   */
  predicate WrapShape(groups: seq<seq<string>>, sep: string, max: nat)
  {
    && |groups| >= 1
    && (forall i :: 1 <= i < |groups| ==> FlushedBefore(groups, i, sep, max))
    && (forall i, j :: 0 <= i < |groups| && 0 <= j < |groups[i]| && (j > 0 || i == 0) ==>
          StayedAt(groups, i, j, sep, max))
  }

  /**
   * The loop of `split_and_wrap_lines` over the remaining tokens: `groups` holds
   * the lines already flushed followed by the current buffer.
   */
  function WrapGroups(tokens: seq<string>, sep: string, max: nat, groups: seq<seq<string>>): seq<seq<string>>
    requires |groups| >= 1
    decreases |tokens|
  {
    if |tokens| == 0 then groups
    else
      var buffer := groups[|groups| - 1];
      if Flushes(buffer, tokens[0], sep, max) then
        WrapGroups(tokens[1..], sep, max, groups + [[tokens[0]]])
      else
        WrapGroups(tokens[1..], sep, max, groups[..|groups| - 1] + [buffer + [tokens[0]]])
  }

  lemma FlattenSnoc(groups: seq<seq<string>>, g: seq<string>)
    ensures Flatten(groups + [g]) == Flatten(groups) + g
  {
    if |groups| > 0 {
      assert (groups + [g])[1..] == groups[1..] + [g];
      FlattenSnoc(groups[1..], g);
    }
  }

  lemma FlattenExtendLast(groups: seq<seq<string>>, t: string)
    requires |groups| >= 1
    ensures Flatten(groups[..|groups| - 1] + [groups[|groups| - 1] + [t]]) == Flatten(groups) + [t]
  {
    var init := groups[..|groups| - 1];
    var last := groups[|groups| - 1];
    assert init + [last] == groups;
    calc {
      Flatten(init + [last + [t]]);
      { FlattenSnoc(init, last + [t]); }
      Flatten(init) + (last + [t]);
      (Flatten(init) + last) + [t];
      { FlattenSnoc(init, last); }
      Flatten(init + [last]) + [t];
    }
  }

  /** No element occurs twice. */
  predicate Distinct(xs: seq<string>)
  {
    forall i, j :: 0 <= i < j < |xs| ==> xs[i] != xs[j]
  }

  /** An element of the flattened groups comes from some group, and every group's elements are in it. */
  lemma {:induction false} FlattenMember(groups: seq<seq<string>>, m: string)
    ensures m in Flatten(groups) <==> exists k :: 0 <= k < |groups| && m in groups[k]
  {
    if |groups| > 0 {
      FlattenMember(groups[1..], m);
      assert forall k :: 1 <= k < |groups| ==> groups[k] == groups[1..][k - 1];
      if m in Flatten(groups[1..]) {
        var k :| 0 <= k < |groups[1..]| && m in groups[1..][k];
        assert m in groups[k + 1];
      }
    }
  }

  /** When the flattened groups hold no element twice, no element is in two groups. */
  lemma {:induction false} FlattenDistinct(groups: seq<seq<string>>, k1: nat, k2: nat, m: string)
    requires Distinct(Flatten(groups))
    requires k1 < k2 < |groups| && m in groups[k1]
    ensures m !in groups[k2]
  {
    var tail := groups[1..];
    var flat := Flatten(groups);
    assert flat == groups[0] + Flatten(tail);
    if k1 == 0 {
      var p :| 0 <= p < |groups[0]| && groups[0][p] == m;
      forall q | 0 <= q < |Flatten(tail)|
        ensures Flatten(tail)[q] != m
      {
        assert flat[p] != flat[|groups[0]| + q];
      }
      FlattenMember(tail, m);
      assert groups[k2] == tail[k2 - 1];
    } else {
      assert Distinct(Flatten(tail)) by {
        forall i, j | 0 <= i < j < |Flatten(tail)|
          ensures Flatten(tail)[i] != Flatten(tail)[j]
        {
          assert Flatten(tail)[i] == flat[|groups[0]| + i];
          assert Flatten(tail)[j] == flat[|groups[0]| + j];
        }
      }
      FlattenDistinct(tail, k1 - 1, k2 - 1, m);
    }
  }

  /** Every step of the loop keeps the wrap shape and loses or reorders no token. */
  lemma {:induction false} WrapGroupsShape(tokens: seq<string>, sep: string, max: nat, groups: seq<seq<string>>)
    requires WrapShape(groups, sep, max)
    ensures WrapShape(WrapGroups(tokens, sep, max, groups), sep, max)
    ensures Flatten(WrapGroups(tokens, sep, max, groups)) == Flatten(groups) + tokens
    decreases |tokens|
  {
    if |tokens| == 0 {
    } else {
      var t := tokens[0];
      var n := |groups|;
      var buffer := groups[n - 1];
      assert tokens == [t] + tokens[1..];
      if Flushes(buffer, t, sep, max) {
        var g' := groups + [[t]];
        forall i | 1 <= i < |g'|
          ensures FlushedBefore(g', i, sep, max)
        {
          if i < n {
            assert FlushedBefore(groups, i, sep, max);
          }
        }
        forall i, j | 0 <= i < |g'| && 0 <= j < |g'[i]| && (j > 0 || i == 0)
          ensures StayedAt(g', i, j, sep, max)
        {
          assert i < n;
          assert StayedAt(groups, i, j, sep, max);
        }
        FlattenSnoc(groups, [t]);
        WrapGroupsShape(tokens[1..], sep, max, g');
      } else {
        var g' := groups[..n - 1] + [buffer + [t]];
        forall i | 1 <= i < |g'|
          ensures FlushedBefore(g', i, sep, max)
        {
          assert FlushedBefore(groups, i, sep, max);
          if i == n - 1 {
            assert g'[i][0] == groups[i][0];
          }
        }
        forall i, j | 0 <= i < |g'| && 0 <= j < |g'[i]| && (j > 0 || i == 0)
          ensures StayedAt(g', i, j, sep, max)
        {
          if i < n - 1 || j < |buffer| {
            assert StayedAt(groups, i, j, sep, max);
            if i == n - 1 {
              assert g'[i][..j] == buffer[..j];
            }
          } else {
            assert g'[i][..j] == buffer;
          }
        }
        FlattenExtendLast(groups, t);
        WrapGroupsShape(tokens[1..], sep, max, g');
      }
    }
  }

  /** The groups `split_and_wrap_lines` forms from the pieces of `init` split at `sep`. */
  function WrapTokens(tokens: seq<string>, sep: string, max: nat): (groups: seq<seq<string>>)
    ensures WrapShape(groups, sep, max)
    ensures Flatten(groups) == tokens
  {
    assert WrapShape([[]], sep, max);
    WrapGroupsShape(tokens, sep, max, [[]]);
    WrapGroups(tokens, sep, max, [[]])
  }

  function JoinEach(groups: seq<seq<string>>, sep: string): (lines: seq<string>)
    ensures |lines| == |groups|
    ensures forall i :: 0 <= i < |groups| ==> lines[i] == Join(groups[i], sep)
  {
    if |groups| == 0 then [] else JoinEach(groups[..|groups| - 1], sep) + [Join(groups[|groups| - 1], sep)]
  }

  /**
   * `split_and_wrap_lines(init, sep, max)`: the pieces of `init` between the
   * occurrences of `sep`, packed greedily in order into lines, each line being
   * its pieces joined with `sep`.
   */
  function SplitAndWrapLines(init: string, sep: string, max: nat): (lines: seq<string>)
    requires |sep| > 0
    ensures |lines| >= 1
    ensures |lines| == |WrapTokens(Split(init, sep), sep, max)|
    ensures forall i :: 0 <= i < |lines| ==> lines[i] == Join(WrapTokens(Split(init, sep), sep, max)[i], sep)
    ensures Flatten(WrapTokens(Split(init, sep), sep, max)) == Split(init, sep)
  {
    JoinEach(WrapTokens(Split(init, sep), sep, max), sep)
  }

  // ----- properties of a wrap shape -----

  lemma JoinSnocLength(g: seq<string>, t: string, sep: string)
    requires |g| >= 1
    ensures |Join(g + [t], sep)| == |Join(g, sep)| + |sep| + |t|
    decreases |g|
  {
    if |g| == 1 {
      assert (g + [t])[1..] == [t];
    } else {
      assert (g + [t])[1..] == g[1..] + [t];
      JoinSnocLength(g[1..], t, sep);
    }
  }

  /** A line that holds two or more tokens stays strictly under the budget. */
  lemma MultiTokenLineUnderBudget(groups: seq<seq<string>>, sep: string, max: nat, i: nat)
    requires WrapShape(groups, sep, max) && i < |groups| && |groups[i]| >= 2
    ensures |Join(groups[i], sep)| < max
  {
    var g := groups[i];
    var j := |g| - 1;
    assert StayedAt(groups, i, j, sep, max);
    assert g[..j] + [g[j]] == g;
    JoinSnocLength(g[..j], g[j], sep);
  }

  /** Facts about the length of one wrapped line, read off its group. */
  lemma LineLengths(groups: seq<seq<string>>, sep: string, max: nat, i: nat)
    requires WrapShape(groups, sep, max) && i < |groups|
    ensures i >= 1 ==> |groups[i]| >= 1
    ensures |groups[i]| == 1 ==> Join(groups[i], sep) == groups[i][0]
    ensures |groups[i]| >= 2 ==> |Join(groups[i], sep)| >= |sep|
  {
    if i >= 1 {
      assert FlushedBefore(groups, i, sep, max);
    }
    if |groups[i]| >= 2 {
      var g := groups[i];
      assert g[..|g| - 1] + [g[|g| - 1]] == g;
      JoinSnocLength(g[..|g| - 1], g[|g| - 1], sep);
    }
  }

  /**
   * A line packing two or more tokens holds only tokens that fit next to the
   * separator: a token that alone meets the flush test always sits on a line of
   * its own.
   */
  lemma OversizedTokenAlone(groups: seq<seq<string>>, sep: string, max: nat, i: nat, j: nat)
    requires WrapShape(groups, sep, max) && i < |groups| && j < |groups[i]|
    ensures |groups[i]| >= 2 ==> |groups[i][j]| + |sep| < max
  {
    if |groups[i]| >= 2 {
      if j > 0 {
        assert StayedAt(groups, i, j, sep, max);
      } else {
        assert StayedAt(groups, i, 1, sep, max);
        assert groups[i][..1] == [groups[i][0]];
      }
    }
  }

  /** An empty line is the first line with nothing in it, or a line holding one empty piece. */
  lemma EmptyLineIsFirstOrEmptyPiece(groups: seq<seq<string>>, sep: string, max: nat, i: nat)
    requires WrapShape(groups, sep, max) && |sep| > 0 && i < |groups|
    requires Join(groups[i], sep) == ""
    ensures (i == 0 && groups[0] == []) || groups[i] == [""]
  {
    LineLengths(groups, sep, max, i);
  }

  lemma FlattenHeadEmpty(groups: seq<seq<string>>)
    requires |groups| >= 1 && groups[0] == []
    ensures Flatten(groups) == Flatten(groups[1..])
  {
  }

  /** The first line is empty exactly when the first token alone meets the flush test. */
  lemma FirstGroupEmptyIff(tokens: seq<string>, sep: string, max: nat)
    requires |tokens| >= 1
    ensures WrapTokens(tokens, sep, max)[0] == [] <==> |tokens[0]| + |sep| >= max
  {
    var groups := WrapTokens(tokens, sep, max);
    if groups[0] == [] {
      // the first token heads the second group, which the flush test opened
      FlattenHeadEmpty(groups);
      assert |groups| >= 2;
      LineLengths(groups, sep, max, 1);
      assert Flatten(groups[1..]) == groups[1] + Flatten(groups[2..]);
      assert FlushedBefore(groups, 1, sep, max);
    } else {
      assert StayedAt(groups, 0, 0, sep, max);
      assert groups[0][..0] == [];
    }
  }

  /** An empty message wraps to one empty line, or to two when even the separator alone reaches the budget. */
  lemma EmptyInput(sep: string, max: nat)
    requires |sep| > 0
    ensures |sep| < max ==> SplitAndWrapLines("", sep, max) == [""]
    ensures |sep| >= max ==> SplitAndWrapLines("", sep, max) == ["", ""]
  {
    assert !Contains("", sep) by {
      assert forall i: nat :: !OccursAt("", sep, i);
    }
    SplitNoOccurrence("", sep);
    assert WrapGroups([""][1..], sep, max, [[""]]) == [[""]];
    assert WrapGroups([""][1..], sep, max, [[], [""]]) == [[], [""]];
  }

  // ---------------------------------------------------------------------
  // format_timestamp
  // ---------------------------------------------------------------------

  datatype Duration = Duration(days: nat, hours: nat, minutes: nat, seconds: nat)

  /** The four integer-valued components `format_timestamp` computes from a number of seconds. */
  function Components(t: nat): (c: Duration)
    ensures c.hours < 24 && c.minutes < 60 && c.seconds < 60
    ensures c.days * 86400 + c.hours * 3600 + c.minutes * 60 + c.seconds == t
  {
    ComponentsAddUp(t);
    Duration(t / 86400, (t / 3600) % 24, (t % 3600) / 60, t % 60)
  }

  /** Days, hours of the day, minutes of the hour and seconds of the minute recompose the total. */
  lemma ComponentsAddUp(t: nat)
    ensures (t / 86400) * 86400 + ((t / 3600) % 24) * 3600 + ((t % 3600) / 60) * 60 + t % 60 == t
  {
    var q, a := t / 3600, t % 3600;
    assert t == q * 3600 + a;
    var d, h := q / 24, q % 24;
    assert q == d * 24 + h;
    assert t == d * 86400 + (h * 3600 + a) && 0 <= h * 3600 + a < 86400;
    assert d == t / 86400;
    var m, s := a / 60, a % 60;
    assert a == m * 60 + s;
    assert t == (q * 60 + m) * 60 + s;
    assert s == t % 60;
  }

  /** `format_timestamp`: the two most significant non-zero units (seconds always shown below an hour). */
  function FormatTimestamp(t: nat): string
  {
    var c := Components(t);
    if c.days == 0 && c.hours == 0 && c.minutes == 0 then NatToString(c.seconds) + "s"
    else if c.days == 0 && c.hours == 0 then NatToString(c.minutes) + "m" + NatToString(c.seconds) + "s"
    else if c.days == 0 then NatToString(c.hours) + "h" + NatToString(c.minutes) + "m"
    else NatToString(c.days) + "d" + NatToString(c.hours) + "h"
  }

  /** Which form `format_timestamp` prints is decided by the magnitude of the duration alone. */
  lemma FormatTimestampRanges(t: nat)
    ensures t < 60 ==> FormatTimestamp(t) == NatToString(t) + "s"
    ensures 60 <= t < 3600 ==>
      FormatTimestamp(t) == NatToString(t / 60) + "m" + NatToString(t % 60) + "s"
    ensures 3600 <= t < 86400 ==>
      FormatTimestamp(t) == NatToString(t / 3600) + "h" + NatToString((t % 3600) / 60) + "m"
    ensures 86400 <= t ==>
      FormatTimestamp(t) == NatToString(t / 86400) + "d" + NatToString((t / 3600) % 24) + "h"
  {
    var c := Components(t);
    if t < 60 {
      assert c.days == 0 && c.hours == 0 && c.minutes == 0;
    } else if t < 3600 {
      assert c.days == 0 && c.hours == 0 && c.minutes == t / 60 && c.minutes != 0;
    } else if t < 86400 {
      assert c.days == 0 && c.hours == t / 3600 && c.hours != 0;
    } else {
      assert c.days != 0;
    }
  }
}
